=== FILE: README.md ===
# Metaphor Hacker corpus: deduplication, ordering and importers in Dafny

This project models the scripts that build the Metaphor Hacker text corpus.
Articles published on three platforms (the Metaphor Hacker site, Medium and
Substack) are imported into `content/<year>/<slug>/index.md` entries. Each
entry gets a plain-text mirror `plain/<id>.txt`. The dataset builder then
loads every entry, removes exact and near duplicates, keeping the copy from
the most authoritative platform, and writes the corpus sorted by date with a
manifest that counts it.

Modules, following the scripts:

- `Docs` (docs.dfy) holds the document record, the drop log, the platform
  ranking (`SOURCE_RANK`) and Python's string order on `str`.
- `Preference` (preference.dfy) holds `choose_preferred` and its left fold
  over a group.
- `ExactDedup` (exact_dedup.dfy) is the first pass of
  `deduplicate_and_cluster`: one representative per text, with
  replace-and-append semantics.
- `NearDedup` (near_dedup.dfy) is the second pass: star-shaped clustering
  against the seed's first 4000 characters, with an inclusive threshold of 95.
- `Dedup` (dedup.dfy) runs both passes one after the other.
- `Corpus` (corpus.dfy) holds the date sort, the rows and manifest of
  `build_dataset`, and the field defaults of `load_posts`.
- `MhIngest` (mh_ingest.dfy) covers `ingest_mh_md.py`: the file-name
  pattern, front-matter defaults, title derivation, the markup removal of
  `md_to_text` and `process_file`.
- `Feeds` (feeds.dfy) holds what both feed importers share: title
  normalisation, canonical-link choice, ISO dates, id and path naming, tag
  mapping and the whitespace passes of the plain mirror.
- `Medium` (medium.dfy) and `Substack` (substack.dfy) hold each importer's
  own canonical-link loop, plain-mirror expression and `process_entry`. Each
  also has a lemma showing that the entry it writes is read back by the
  loader with the same id, source and text.
- `Text` (text.dfy) and `Wrappers` (wrappers.dfy) hold shared string
  predicates (Python's whitespace set, strip, `\s+` collapsing) and `Option`.

Modelling choices:

- The SHA-256 text hash is taken to be injective: the exact pass keys its map
  by the text itself.
- `fuzz.partial_ratio` is a function parameter `(string, string) -> real`.
- `datetime.fromisoformat` is a partial function parameter
  `string -> Option<int>`.
- `slugify`, the fetched and converted HTML body, `date.today()`, and whether
  an entry already exists are all parameters.
- Python's `a <= b` on strings is `Docs.LexLe` (code-point lexicographic).
  Dafny's own `<=` on sequences is the prefix order.
- `sorted(..., key=date)` is a stable insertion sort. `Corpus.SortedUnique`
  shows that any sorted, stable arrangement is this one.

The model follows the code as written:

- When a newcomer replaces an exact-pass representative, the newcomer is
  appended at the END of the list (lines 169-170 of
  `scripts/normalize_and_build_dataset.py`). It does not take the old
  representative's place. The representatives are therefore the winners of
  their text groups, in the order in which each winner arrived
  (`ExactDedup.DedupExactSpec`).
- The resolver is not transitive when some dates are missing
  (`Preference.PreferenceIsNotTransitive`). The properties proved about a
  group's winner are therefore about the left fold (`Preference.Fold`), with
  rank-minimality. They are not about a global optimum.
- `ingest_mh_md.py` keeps an `id` already present in the front matter
  (`setdefault`) but always names the mirror after the DEFAULT id (line 90).
  The loader looks the mirror up as `<id>.txt` (line 102 of
  `normalize_and_build_dataset.py`). A written entry keeps any loaded id
  (`MhIngest.ProcessFile`), so the loader finds the ingested mirror exactly
  when the written id is the default id (`MhIngest.MirrorFoundExactly`).
  A loaded id equal to the default one is found too.
- The Medium and Substack importers choose the canonical link by different
  rules. Substack also accepts a link without `rel`.
  The rules agree whenever every usable link without `rel` comes after a
  usable alternate link (`Feeds.RulesAgreeAlternateFirst`), in particular
  when every link has a `rel` (`Feeds.RulesAgreeWithRels`). A usable link
  without `rel` placed before the first alternate link changes Substack's
  choice (`Feeds.MissingRelDiffers`).

The deduplication engine requires distinct input ids. With a repeated id,
the source's `next(...)` lookup and its id filter can pick or delete another
group's representative.

## Model

| member | source | states |
|---|---|---|
| Docs.SourceRank | scripts/normalize_and_build_dataset.py:43-48 | Metaphor Hacker ranks 1, Medium 2, Substack 3 (each if and only if), and any other name 99 |
| Preference.ChoosePreferred | scripts/normalize_and_build_dataset.py:130-149 | the result is one of the two documents; it has the smaller rank; on equal ranks the longer text; on equal lengths, when both dates are non-empty, parse and differ, the earlier date; otherwise the id that is not greater, and the first argument on equal ids |
| Preference.ChoosePreferredSymmetric | scripts/normalize_and_build_dataset.py:130-149 | with different ids, swapping the arguments chooses the same document |
| Preference.PreferredById | scripts/normalize_and_build_dataset.py:164 | with different ids, comparing the winner's id with an argument's id tells exactly which argument won, as the exact pass does |
| Preference.Fold | scripts/normalize_and_build_dataset.py:159-172 | folding a group with the resolver returns one of its members, of minimal rank in the group, and nothing only for an empty group |
| Preference.PreferenceIsNotTransitive | scripts/normalize_and_build_dataset.py:141-149 | three documents of one rank and length, one of them undated, beat each other in a cycle, and the fold's winner depends on the input order |
| ExactDedup.Survivors | scripts/normalize_and_build_dataset.py:157-175 | a document is a representative exactly when it is its text group's fold winner |
| ExactDedup.KeepStep | scripts/normalize_and_build_dataset.py:164-166 | when the existing representative wins, the representative list stays as it was |
| ExactDedup.ReplaceStep | scripts/normalize_and_build_dataset.py:167-172 | when the newcomer wins, the old representative is removed and the newcomer is appended at the end |
| ExactDedup.ExactLookupSucceeds | scripts/normalize_and_build_dataset.py:159-162 | a text in the fingerprint map always has its representative in the list, so the lookup by id succeeds |
| ExactDedup.ExactSurvivors | scripts/normalize_and_build_dataset.py:157-175 | the pass's representatives are the group winners in the order they were appended |
| ExactDedup.DedupExactSpec | scripts/normalize_and_build_dataset.py:157-175 | representatives are the group winners; no two share a text and every input text has one; their ids are distinct; representatives plus log entries number the inputs; every input is a representative or dropped exactly once |
| ExactDedup.ExactEntryRank | scripts/normalize_and_build_dataset.py:163-172 | in an "exact-hash" or "exact-hash-replaced" entry the kept document's rank is at most the dropped one's |
| ExactDedup.ExactCovers | scripts/normalize_and_build_dataset.py:157-175 | every input has a representative with the same text and no worse rank |
| NearDedup.Matches | scripts/normalize_and_build_dataset.py:188-193 | a candidate joins a cluster exactly when it is unseen, is not the seed, and scores at least 95 against the seed's sample |
| NearDedup.GrowShape | scripts/normalize_and_build_dataset.py:184-203 | the cluster's survivor is the resolver's fold over seed and matches, scored against the seed's first 4000 characters throughout, and every match is marked seen whichever side wins |
| NearDedup.VisitMatch | scripts/normalize_and_build_dataset.py:193-203 | one matching candidate extends the fold by itself and marks its id seen |
| NearDedup.GrowLog | scripts/normalize_and_build_dataset.py:195-202 | a cluster logs one entry per member except the survivor, each naming who stayed and who went |
| NearDedup.NearStepFresh | scripts/normalize_and_build_dataset.py:181-204 | an unseen representative adds its cluster's fold winner to the final list, logs one entry less than the cluster's size and marks the whole cluster seen |
| NearDedup.NearPassSpec | scripts/normalize_and_build_dataset.py:178-206 | finals are distinct representatives; finals plus entries number the representatives; each representative is final or dropped once; each entry is a near-duplicate at score 95 or more whose kept document has rank at most the dropped one's |
| NearDedup.NearCovers | scripts/normalize_and_build_dataset.py:178-204 | the representatives fall into disjoint clusters, one per final document and in the same order; each final document is the resolver's left fold over its cluster, so every representative's cluster keeps a document of rank at most its own |
| Dedup.DedupSpec | scripts/normalize_and_build_dataset.py:151-206 | with distinct input ids: final documents are distinct inputs; finals plus log entries number the inputs; every input is final or dropped exactly once; every entry keeps a document of rank at most the dropped one's |
| Dedup.DedupCovers | scripts/normalize_and_build_dataset.py:151-206 | one disjoint cluster of exact-pass representatives per final document, the final document being the left fold over it; every input has its same-text representative in some cluster whose final document has rank at most the input's |
| Corpus.SortByDateSpec | scripts/normalize_and_build_dataset.py:211 | the corpus order is sorted by date string, is a permutation of the final documents, and keeps the input order among equal dates |
| Corpus.SortedUnique | scripts/normalize_and_build_dataset.py:211 | two sorted lists that agree on every date's sub-list are equal, so the stable sort's result is determined |
| Corpus.ToRow | scripts/normalize_and_build_dataset.py:212-222 | a row's language and licence are never empty, and a document's own non-empty values are kept |
| Corpus.RowsSpec | scripts/normalize_and_build_dataset.py:210-223 | one row per document, each row converting the document at the same position |
| Corpus.BuildDatasetSpec | scripts/normalize_and_build_dataset.py:208-228 | one row per final document (as a multiset), non-decreasing by date, empty dates first, and the manifest's n_documents is the number of rows |
| Corpus.LoadPost | scripts/normalize_and_build_dataset.py:86-121 | the title is kept; the date is `date`, else `publishDate`, cut to its first ten characters (shorter dates whole); the source is the mapping's `name` or the scalar, else "unknown"; the canonical URL is the first non-empty of `canonical_url`, `url` and `permalink`; the tags are `tags`, else `categories`; licence and language default to CC-BY-4.0 and en; an explicit id wins, otherwise the undashed date and directory name; a non-empty mirror named after the id supplies the text, a missing mirror the converted body, and when that text is empty it is the stripped summary, else the stripped description |
| Corpus.SourceName | scripts/normalize_and_build_dataset.py:95-99 | a mapping's non-empty `name` or a non-empty scalar is the source; anything else is "unknown" |
| Corpus.LoadWithMirror | scripts/normalize_and_build_dataset.py:94-106 | a front matter with an id and a named source, beside a non-empty mirror named after the id, loads with that id, source and text |
| MhIngest.ParseFilename | scripts/ingest_mh_md.py:26 | an accepted name has four, two and two digits, a non-empty one-line slug and a `.md` extension in any case, and is exactly their rendering |
| MhIngest.ParseRender | scripts/ingest_mh_md.py:26 | every well-formed name, with the extension in any letter case and with or without a final newline, is accepted and its groups are recovered |
| MhIngest.ParseSound | scripts/ingest_mh_md.py:26 | a name is accepted if and only if it renders some well-formed groups |
| MhIngest.UndashedDate | scripts/ingest_mh_md.py:58 | removing the dashes from the date string joins the three digit groups |
| MhIngest.MirrorNamedAfterId | scripts/ingest_mh_md.py:58-59 | the mirror file name written at line 90 is the default id followed by `.txt` |
| MhIngest.MirrorFoundExactly | scripts/ingest_mh_md.py:58-59 | the loader's `<id>.txt` is the mirror written at line 90 if and only if the id is the default id |
| MhIngest.SetDefaults | scripts/ingest_mh_md.py:57-68 | present keys keep their values, listed keys are added with their defaults, and no other key appears |
| MhIngest.EnrichSpec | scripts/ingest_mh_md.py:57-68 | after enrichment all nine keys are present, existing values (even empty ones) are unchanged, and no other key appears |
| MhIngest.EnrichIdempotent | scripts/ingest_mh_md.py:57-68 | enriching twice is enriching once |
| MhIngest.HeadingAt | scripts/ingest_mh_md.py:51-53 | the pattern yields a text at a position exactly when it matches there, and that text is stripped and on one line |
| MhIngest.FirstHeadingSpec | scripts/ingest_mh_md.py:51-53 | the search finds nothing exactly when no line start is a heading line; otherwise it yields the text of the first heading line |
| MhIngest.DeriveTitleSpec | scripts/ingest_mh_md.py:49-55 | the title is the text of the first heading line, or the slug title when no line is a heading |
| MhIngest.DeriveTitle | scripts/ingest_mh_md.py:49-55 | the title is stripped, and when no heading matches it contains no `-` or `_` |
| MhIngest.DeriveTitleHeading | scripts/ingest_mh_md.py:49-53 | a body opening with `# ` and a title line yields that line stripped |
| MhIngest.DeriveTitleFallback | scripts/ingest_mh_md.py:54-55 | a body without `#` yields the title made from the slug |
| MhIngest.SlugTitle | scripts/ingest_mh_md.py:55 | the slug title has no `-` or `_` and no surrounding whitespace; its first character is not a lower-case letter and no later one is an upper-case letter; for a slug without whitespace it is single-spaced, so each separator run left exactly one space |
| MhIngest.ReplaceSepsRuns | scripts/ingest_mh_md.py:55 | `re.sub(r"[-_]+", " ", ...)` equals a character-by-character reading in which a separator opening a run gives one space, a separator inside a run gives nothing, and every other character is kept |
| MhIngest.ReplaceSepsWords | scripts/ingest_mh_md.py:55 | turning each run of `-` and `_` into one space splits into the same words as reading every `-` and `_` as a space |
| MhIngest.SlugTitleWords | scripts/ingest_mh_md.py:55 | lower-cased, the slug title has the words of the slug with each `-` and `_` read as a space |
| MhIngest.WordsLower | scripts/ingest_mh_md.py:55 | lower-casing a text lower-cases each of its words and keeps their boundaries |
| MhIngest.DoubleStarThenStar | scripts/ingest_mh_md.py:40 | removing `**` pairs before every `*` leaves what removing every `*` leaves |
| MhIngest.StripMarkupChars | scripts/ingest_mh_md.py:38-40 | the result has no backtick, `*` or `_` |
| MhIngest.LinePassesSubseq | scripts/ingest_mh_md.py:42-46 | the heading, blockquote and rule passes only delete characters |
| MhIngest.MdToText | scripts/ingest_mh_md.py:37-47 | the text has no backtick, `*` or `_`, and is a subsequence of the text after the character removal |
| MhIngest.WithTitle | scripts/ingest_mh_md.py:82-83 | a missing or falsy title is derived from the body; a present truthy title leaves the front matter unchanged; no other key changes |
| MhIngest.EnrichTitleAndId | scripts/ingest_mh_md.py:57-68 | enrichment keeps a title and always leaves an id, the `mh-` default built from the date and slug when none was given |
| MhIngest.ProcessParsed | scripts/ingest_mh_md.py:72-99 | once the name has matched, the entry is written exactly when it does not exist or force is on; a written entry keeps every loaded key but the title with its value, has the loaded title when truthy and the derived one otherwise, gains exactly the nine enriched keys it lacked with their defaults, keeps the body as loaded, lives under `content/<year>/<slug>`, and its mirror is the default id's `.txt` holding the converted body |
| MhIngest.ProcessFile | scripts/ingest_mh_md.py:70-99 | a rejected name is skipped with its message; an existing entry is written only under force; a written entry keeps the loaded front matter's values (a given id among them) and body, derives only a missing or falsy title, adds the missing enriched keys with their defaults (the default id when none was given), lives under `content/<year>/<slug>`, and its mirror is the default id's `.txt` holding the converted body |
| Feeds.NormalizeTitle | scripts/import_medium.py:74-78 | an empty title gives "untitled"; otherwise the result is stripped and single-spaced, splits into the same words as the title (`str.split()`), keeps its non-space characters in order, and is empty exactly for a whitespace-only title |
| Text.CollapseSpaceWords | scripts/import_medium.py:78 | replacing each whitespace run by one space keeps the words and whether the text opens inside a word |
| Text.StripWords | scripts/import_medium.py:78 | stripping keeps the words |
| Feeds.NormalizeTitleIdempotent | scripts/import_substack.py:68-71 | normalising a non-empty normalised title changes nothing |
| Feeds.TitleText | scripts/import_medium.py:106 | the title, else the summary, else "Untitled" |
| Feeds.FirstLinkSpec | scripts/import_medium.py:99-102 | no link is chosen exactly when none is accepted with an href; otherwise the first accepted link's href |
| Feeds.CanonicalUrl | scripts/import_medium.py:96-104 | the first accepted link's href, otherwise the entry's link, else its id, else "" |
| Feeds.RulesAgreeWithRels | scripts/import_substack.py:88-91 | when every link has a rel, the Substack and Medium rules choose the same link |
| Feeds.RulesAgreeAlternateFirst | scripts/import_substack.py:88-91 | when every usable link without rel is preceded by a usable alternate link, the Substack and Medium rules choose the same link |
| Feeds.MissingRelDiffers | scripts/import_substack.py:90 | a link without rel before an alternate one is chosen by the Substack rule and passed over by the Medium rule |
| Feeds.FixedRoundTrip | scripts/import_medium.py:92 | zero-padded digits read back as the number |
| Feeds.IsoRoundTrip | scripts/import_medium.py:92 | the ISO date string of a valid date parses back to that date |
| Feeds.UndashedIso | scripts/import_medium.py:108 | the ISO date without its dashes is the eight date digits |
| Feeds.Names | scripts/import_medium.py:108-112 | the id is prefix, eight date digits, `-` and slug; the entry is `content/<year>/<slug>/index.md`; the mirror is `plain/<id>.txt` |
| Feeds.DateDigitsValues | scripts/import_medium.py:108 | the eight date digits read back as year, month and day |
| Feeds.IdEncodesDate | scripts/import_substack.py:95 | the id's eight digits after the prefix read back as year, month and day, followed by `-` and the slug |
| Feeds.MapTags | scripts/import_medium.py:149 | one term per tag in order: a dictionary's "term" (None when absent), any other tag itself |
| Feeds.FoldNewlineRunsWords | scripts/import_medium.py:159 | after the `\s+\n` pass and the removal of `\r`, the text has the same words as the input with `\r` removed |
| Feeds.CapNewlinesWords | scripts/import_medium.py:159 | the `\n{3,}` pass keeps the words |
| Feeds.FoldNewlineRunsSpec | scripts/import_medium.py:159 | the `\s+\n` pass keeps the non-space characters in order and emptiness, keeps the first and last non-space characters, and leaves text without newlines unchanged |
| Feeds.CapNewlinesSpec | scripts/import_medium.py:159 | the `\n{3,}` pass keeps the non-space characters in order and emptiness, keeps first and last characters that are not newlines, and leaves text without newlines unchanged |
| Feeds.CollapseAndMark | scripts/import_substack.py:142 | an all-whitespace text becomes "\n"; any other becomes single-spaced, stripped if it was; either way the result splits into the same words as the text |
| Feeds.EntryDate | scripts/import_medium.py:87-91 | the published date, else the updated date, else today |
| Feeds.Body | scripts/import_medium.py:137-140 | the converted body, else the stripped summary |
| Medium.Canonical | scripts/import_medium.py:96-104 | the loop with `break` computes the canonical URL under the rel "alternate" rule |
| Medium.PassesWords | scripts/import_medium.py:159 | the `\s+\n`, `\r` and `\n{3,}` passes together keep the words of the text with `\r` removed |
| Medium.PlainMirror | scripts/import_medium.py:159 | a blank body gives "\n"; otherwise the text is stripped, single-spaced and never empty; always, it splits into the words of the body with `\r` removed |
| Medium.PlainMirrorOneLine | scripts/import_medium.py:159 | the mirror has no newline or carriage return except the lone "\n" of a blank body |
| Medium.PlainMirrorIdempotent | scripts/import_medium.py:159 | cleaning a mirror again changes nothing |
| Medium.ProcessEntry | scripts/import_medium.py:85-116 | an impossible date fails; a valid entry is skipped exactly when it exists and force is off and written otherwise, and the skip names the `md-` id of the date digits and the slug of the normalised title |
| Medium.WrittenNames | scripts/import_medium.py:92-112 | a written entry carries the normalised title, the `md-` id built from the date digits and that title's slug, an ISO date that parses back to the entry's date, the mirror `plain/<id>.txt` and the directory `content/<year>/<slug>` |
| Medium.WrittenFrontMatter | scripts/import_medium.py:137-159 | a written entry's front matter has source "Medium" with the feed URL, the canonical URL under the "alternate" rule, the mapped tags and the constant language, licence and format; its body is the converted body or the stripped summary, and its mirror is that body cleaned |
| Medium.WrittenEntryLoads | scripts/import_medium.py:143-159 | the loader reads a written entry back with its id, source "Medium", the mirror's text and rank 2 |
| Substack.Canonical | scripts/import_substack.py:86-91 | the loop computes the canonical URL under the rel "alternate"-or-missing rule |
| Substack.PlainMirror | scripts/import_substack.py:142 | a blank body gives "\n"; otherwise the text is stripped, single-spaced and never empty; always, it splits into the words of the body with `\r` removed |
| Substack.PlainMirrorOneLine | scripts/import_substack.py:142 | the mirror has no newline or carriage return except the lone "\n" of a blank body |
| Substack.PlainMirrorIdempotent | scripts/import_substack.py:142 | cleaning a mirror again changes nothing |
| Substack.ProcessEntry | scripts/import_substack.py:76-103 | an impossible date fails; a valid entry is skipped exactly when it exists and force is off and written otherwise, and the skip names the `sb-` id of the date digits and the slug of the normalised title |
| Substack.WrittenNames | scripts/import_substack.py:83-99 | a written entry carries the normalised title, the `sb-` id built from the date digits and that title's slug, an ISO date that parses back to the entry's date, the mirror `plain/<id>.txt` and the directory `content/<year>/<slug>` |
| Substack.WrittenFrontMatter | scripts/import_substack.py:122-143 | a written entry's front matter has source "Substack" with the feed URL, the canonical URL under the "alternate"-or-missing rule, the mapped tags and the constant language, licence and format; its body is the converted body or the stripped summary, and its mirror is that body cleaned |
| Substack.WrittenEntryLoads | scripts/import_substack.py:126-143 | the loader reads a written entry back with its id, source "Substack", the mirror's text and rank 3 |

## Left out

- File and directory I/O, front-matter loading and dumping, globbing, `mkdir`, printing, `argparse` and the scripts' `main` blocks. Only the in-memory transforms are modelled.
- The SHA-256 hash is modelled as the text itself, because the pass only compares hashes for equality.
- `rapidfuzz.fuzz.partial_ratio` is a foreign library and appears as the score parameter. No range is assumed.
- `datetime.fromisoformat` is a parameter. The `TypeError` raised when comparing a naive with an aware datetime, which the `except` at line 146 swallows, is not modelled.
- The manifest's `generated_at` timestamp (`utcnow`) is left out.
- feedparser, trafilatura, markdownify, requests, `slugify` and `date.today()` are foreign or network calls, so they are parameters. The fetch-and-extract step (`import_medium.py:118-137`) is the parameter `bodyMd`.
- `md_to_text` of `normalize_and_build_dataset.py` (lines 54-75) is regex markup stripping. The loader receives its result as `converted`.
- MhIngest.MdToText: the front-matter, image and link substitutions before line 38 are not modelled. The function starts from their result (`linked`).
- MhIngest.DeleteMatches: a match length larger than the rest of the text is clamped, which never happens for the three patterns (`MatchLen` stays within the text).
- MhIngest.Value: front-matter values are reduced to the distinctions the script makes (null, string, string list, dictionary, other scalars with their truthiness).
- Corpus.LoadPost: the `repo_path` field is not modelled. The `str(...)` conversions of non-string YAML values are not modelled. Every field is a string or list of strings, "" when missing or falsy.
- Feeds.BlankToNewline: `(?m)^\s*$` is modelled only for text without newlines, which is all that reaches it after `\s+` has become " ".
- Feeds.Names: with an empty slug, `pathlib` drops the empty path component and the entry is `content/<year>/index.md`. The model joins strings and gives `content/<year>//index.md`.
- ExactDedup.ExactStep: when the representative's id is not found, the model returns the state unchanged. Python's `next(...)` at `normalize_and_build_dataset.py:161` raises `StopIteration` there instead. That only happens with repeated input ids, which the proved properties exclude (`ExactDedup.ExactLookupSucceeds`).
- Feeds.Entry: missing string fields of a feed entry are "". A dictionary tag's term is a string.
- Medium.ProcessEntry: the printed `[SKIP]` and `[OK]` messages are not modelled. A skip carries only the id.
- Substack.ProcessEntry: the printed `[SKIP]` and `[OK]` messages are not modelled. A skip carries only the id.
- Feeds.EntryDate: `datetime.date(*parsed[:3])` raising for an impossible date is the outcome `Failed`. That is what the run loop's `except` turns it into.
- MhIngest.Capitalize: `str.capitalize()` is modelled on ASCII. Non-ASCII letters are not.
- MhIngest.ParseFilename: `\d` in the file-name pattern is modelled as an ASCII digit. Python's `\d` also accepts other Unicode decimal digits, such as full-width ones, which the model rejects.
- The `[:200]` summary truncation and `write_llms_txt` only format output files.
- `scripts/build_embeddings.py`, `create_dataset_minimal.py` and the debug scripts are not part of this model. They are network clients, an I/O-only variant and diagnostics.

=== FILE: corpus.dfy ===
/** `build_dataset`: the corpus rows in date order, with the row-level
    defaults, and the manifest's document count. */
module Corpus {
  import opened Wrappers
  import opened Text
  import opened Docs

  /** Documents in non-decreasing order of their date strings (Python's
      string order, so an empty date comes first). */
  predicate SortedByDate(s: seq<Doc>) {
    forall i, j :: 0 <= i < j < |s| ==> LexLe(s[i].date, s[j].date)
  }

  /** The documents of s with exactly this date, in the order of s. */
  function WithDate(s: seq<Doc>, date: string): (r: seq<Doc>)
    ensures |r| <= |s|
    ensures forall d {:trigger d in r} :: d in r <==> d in s && d.date == date
  {
    if s == [] then []
    else (if s[0].date == date then [s[0]] else []) + WithDate(s[1..], date)
  }

  lemma {:induction false} WithDateMember(s: seq<Doc>, date: string, d: Doc)
    ensures d in WithDate(s, date) <==> d in s && d.date == date
  {
    if s != [] {
      WithDateMember(s[1..], date, d);
      assert s == [s[0]] + s[1..];
    }
  }

  lemma {:induction false} WithDateAppend(a: seq<Doc>, b: seq<Doc>, date: string)
    ensures WithDate(a + b, date) == WithDate(a, date) + WithDate(b, date)
  {
    if a == [] {
      assert a + b == b;
    } else {
      var head := if a[0].date == date then [a[0]] else [];
      WithDateAppend(a[1..], b, date);
      ConsSplit(a);
      AppendAssoc([a[0]], a[1..], b);
      WithDateCons(a[0], a[1..] + b, date);
      WithDateCons(a[0], a[1..], date);
      AppendAssoc(head, WithDate(a[1..], date), WithDate(b, date));
    }
  }

  /** Insert x into a sorted list after every document whose date is not
      later than x's: the step of a stable insertion sort. */
  function Insert(s: seq<Doc>, x: Doc): (r: seq<Doc>)
    ensures |r| == |s| + 1
    ensures multiset(r) == multiset(s) + multiset{x}
  {
    if s == [] then [x]
    else if LexLe(s[0].date, x.date) then
      assert s == [s[0]] + s[1..];
      [s[0]] + Insert(s[1..], x)
    else [x] + s
  }

  lemma {:induction false} InsertSorted(s: seq<Doc>, x: Doc)
    requires SortedByDate(s)
    ensures SortedByDate(Insert(s, x))
  {
    if s != [] {
      if LexLe(s[0].date, x.date) {
        InsertSorted(s[1..], x);
        InsertAfterHead(s, x);
      } else {
        InsertBeforeHead(s, x);
      }
    }
  }

  /** x goes after a head whose date is not later, into a sorted tail. */
  lemma InsertAfterHead(s: seq<Doc>, x: Doc)
    requires SortedByDate(s) && s != [] && LexLe(s[0].date, x.date)
    requires SortedByDate(Insert(s[1..], x))
    ensures SortedByDate(Insert(s, x))
  {
    var t := Insert(s[1..], x);
    InsertFront(s, x);
    forall j | 0 <= j < |t|
      ensures LexLe(s[0].date, t[j].date)
    {
      assert t[j] in multiset(t);
      assert t[j] in multiset(s[1..]) + multiset{x};
      if t[j] != x {
        assert t[j] in s[1..];
        var k :| 0 <= k < |s[1..]| && s[1..][k] == t[j];
        assert s[k + 1] == t[j];
      }
    }
    SortedCons(s[0], t);
  }

  /** A document not later than every date of a sorted list can head it. */
  lemma SortedCons(h: Doc, t: seq<Doc>)
    requires SortedByDate(t) && forall j :: 0 <= j < |t| ==> LexLe(h.date, t[j].date)
    ensures SortedByDate([h] + t)
  {
    var r := [h] + t;
    forall i, j | 0 <= i < j < |r|
      ensures LexLe(r[i].date, r[j].date)
    {
      assert r[j] == t[j - 1];
      if i > 0 {
        assert r[i] == t[i - 1];
      }
    }
  }

  /** x goes in front of a head whose date is later. */
  lemma InsertBeforeHead(s: seq<Doc>, x: Doc)
    requires SortedByDate(s) && s != [] && !LexLe(s[0].date, x.date)
    ensures SortedByDate(Insert(s, x))
  {
    assert Insert(s, x) == [x] + s;
    LexLeTotal(s[0].date, x.date);
    forall j | 0 <= j < |s|
      ensures LexLe(x.date, s[j].date)
    {
      if j > 0 {
        LexLeTransitive(x.date, s[0].date, s[j].date);
      }
    }
    SortedCons(x, s);
  }

  lemma WithDateCons(d: Doc, s: seq<Doc>, date: string)
    ensures WithDate([d] + s, date) == (if d.date == date then [d] else []) + WithDate(s, date)
  {
    assert ([d] + s)[1..] == s;
  }

  lemma {:induction false} WithDateNone(s: seq<Doc>, date: string)
    requires forall d :: d in s ==> d.date != date
    ensures WithDate(s, date) == []
  {
    if s != [] {
      WithDateNone(s[1..], date);
    }
  }

  /** In a sorted list headed by a date strictly later than x's, no document
      shares x's date. */
  lemma LaterThan(s: seq<Doc>, x: Doc)
    requires SortedByDate(s) && s != [] && !LexLe(s[0].date, x.date)
    ensures forall d :: d in s ==> d.date != x.date
  {
    LexLeReflexive(x.date);
    forall d | d in s
      ensures d.date != x.date
    {
      var j :| 0 <= j < |s| && s[j] == d;
      if j > 0 {
        assert LexLe(s[0].date, d.date);
      }
    }
  }

  /** Insertion keeps the relative order of equal dates, with x last among
      its equals. */
  lemma {:induction false} InsertStable(s: seq<Doc>, x: Doc, date: string)
    requires SortedByDate(s)
    ensures WithDate(Insert(s, x), date) == WithDate(s, date) + (if x.date == date then [x] else [])
  {
    if s == [] {
      WithDateCons(x, [], date);
    } else if LexLe(s[0].date, x.date) {
      InsertStable(s[1..], x, date);
      assert Insert(s, x) == [s[0]] + Insert(s[1..], x);
      assert s == [s[0]] + s[1..];
      ConsStable(s[0], s[1..], Insert(s[1..], x), if x.date == date then [x] else [], date);
    } else {
      assert Insert(s, x) == [x] + s;
      WithDateCons(x, s, date);
      if x.date == date {
        LaterThan(s, x);
        WithDateNone(s, date);
      }
    }
  }

  /** Putting the same document in front of two lists keeps the relation
      between their sub-lists of each date. */
  lemma ConsStable(h: Doc, rest: seq<Doc>, t: seq<Doc>, post: seq<Doc>, date: string)
    requires WithDate(t, date) == WithDate(rest, date) + post
    ensures WithDate([h] + t, date) == WithDate([h] + rest, date) + post
  {
    var pre := if h.date == date then [h] else [];
    WithDateCons(h, t, date);
    WithDateCons(h, rest, date);
    AppendAssoc(pre, WithDate(rest, date), post);
  }

  /** `sorted(final_docs, key=lambda x: x.get("date",""))`, as the stable
      insertion sort that yields the same list. */
  function SortByDate(docs: seq<Doc>): (r: seq<Doc>)
    ensures multiset(r) == multiset(docs)
  {
    if docs == [] then []
    else
      assert docs == docs[..|docs| - 1] + [docs[|docs| - 1]];
      Insert(SortByDate(docs[..|docs| - 1]), docs[|docs| - 1])
  }

  /** The corpus order is sorted, is a permutation of its input, and keeps
      documents with equal dates in their input order. */
  lemma {:induction false} SortByDateSpec(docs: seq<Doc>)
    ensures SortedByDate(SortByDate(docs))
    ensures multiset(SortByDate(docs)) == multiset(docs)
    ensures forall date :: WithDate(SortByDate(docs), date) == WithDate(docs, date)
  {
    if docs != [] {
      var init, x := docs[..|docs| - 1], docs[|docs| - 1];
      assert docs == init + [x];
      SortByDateSpec(init);
      InsertSorted(SortByDate(init), x);
      forall date
        ensures WithDate(SortByDate(docs), date) == WithDate(docs, date)
      {
        SortStableStep(init, x, date);
      }
    }
  }

  /** Sorting one more document keeps each date's sub-list in input order. */
  lemma SortStableStep(init: seq<Doc>, x: Doc, date: string)
    requires SortedByDate(SortByDate(init))
    requires WithDate(SortByDate(init), date) == WithDate(init, date)
    ensures WithDate(SortByDate(init + [x]), date) == WithDate(init + [x], date)
  {
    assert (init + [x])[..|init|] == init;
    assert SortByDate(init + [x]) == Insert(SortByDate(init), x);
    InsertStable(SortByDate(init), x, date);
    WithDateAppend(init, [x], date);
    assert [x] == [x] + [];
    WithDateCons(x, [], date);
  }

  /** The head of a sorted list carries its least date. */
  lemma HeadLeast(s: seq<Doc>, d: Doc)
    requires SortedByDate(s) && d in s
    ensures LexLe(s[0].date, d.date)
  {
    var j :| 0 <= j < |s| && s[j] == d;
    if j == 0 {
      LexLeReflexive(d.date);
    }
  }

  /** A sorted, stable rearrangement is unique: any list that is sorted by
      date and agrees with docs on every date's sub-list is the sorted corpus. */
  lemma {:induction false} SortedUnique(a: seq<Doc>, b: seq<Doc>)
    requires SortedByDate(a) && SortedByDate(b)
    requires forall date :: WithDate(a, date) == WithDate(b, date)
    ensures a == b
  {
    if a != [] && b != [] {
      SortedUniqueHead(a, b);
      assert a == [a[0]] + a[1..] && b == [b[0]] + b[1..];
      forall date
        ensures WithDate(a[1..], date) == WithDate(b[1..], date)
      {
        WithDateCons(a[0], a[1..], date);
        WithDateCons(b[0], b[1..], date);
        var pre := if a[0].date == date then [a[0]] else [];
        assert WithDate(a[1..], date) == WithDate(a, date)[|pre|..];
        assert WithDate(b[1..], date) == WithDate(b, date)[|pre|..];
      }
      SortedUnique(a[1..], b[1..]);
    } else if a != [] {
      WithDateMember(a, a[0].date, a[0]);
    } else if b != [] {
      WithDateMember(b, b[0].date, b[0]);
    }
  }

  lemma SortedUniqueHead(a: seq<Doc>, b: seq<Doc>)
    requires SortedByDate(a) && SortedByDate(b) && a != [] && b != []
    requires forall date :: WithDate(a, date) == WithDate(b, date)
    ensures a[0] == b[0]
  {
    WithDateMember(a, a[0].date, a[0]);
    WithDateMember(b, a[0].date, a[0]);
    WithDateMember(b, b[0].date, b[0]);
    WithDateMember(a, b[0].date, b[0]);
    HeadLeast(b, a[0]);
    HeadLeast(a, b[0]);
    LexLeAntisymmetric(a[0].date, b[0].date);
    var k := a[0].date;
    assert a == [a[0]] + a[1..] && b == [b[0]] + b[1..];
    WithDateCons(a[0], a[1..], k);
    WithDateCons(b[0], b[1..], k);
    assert WithDate(a, k)[0] == a[0];
  }

  // ---- rows and manifest

  /** One line of `corpus.jsonl`. */
  datatype Row = Row(id: string, title: string, date: string, url: string, source: string,
                     tags: seq<string>, language: string, license: string, text: string)

  const DefaultLanguage: string := "en"
  const DefaultLicense: string := "CC-BY-4.0"

  /** The row written for one document; an empty language or licence gets
      the corpus default and every other field is copied. */
  function ToRow(d: Doc): (r: Row)
    ensures r.language != "" && r.license != ""
    ensures d.language != "" ==> r.language == d.language
    ensures d.license != "" ==> r.license == d.license
    ensures (r.id, r.title, r.date, r.url, r.source, r.tags, r.text)
            == (d.id, d.title, d.date, d.canonicalUrl, d.source, d.tags, d.text)
  {
    Row(d.id, d.title, d.date, Or(d.canonicalUrl, ""), d.source, d.tags,
        Or(d.language, DefaultLanguage), Or(d.license, DefaultLicense), d.text)
  }

  /** The rows of s, in the order of s. */
  function Rows(s: seq<Doc>): seq<Row> {
    if s == [] then [] else [ToRow(s[0])] + Rows(s[1..])
  }

  lemma {:induction false} RowsSpec(s: seq<Doc>)
    ensures |Rows(s)| == |s|
    ensures forall i :: 0 <= i < |s| ==> Rows(s)[i] == ToRow(s[i])
  {
    if s != [] {
      RowsSpec(s[1..]);
      assert forall i :: 1 <= i < |s| ==> s[i] == s[1..][i - 1];
    }
  }

  lemma RowsCons(d: Doc, s: seq<Doc>)
    ensures Rows([d] + s) == [ToRow(d)] + Rows(s)
    ensures multiset(Rows([d] + s)) == multiset{ToRow(d)} + multiset(Rows(s))
  {
    assert ([d] + s)[1..] == s;
  }

  lemma {:induction false} RowsInsert(s: seq<Doc>, x: Doc)
    ensures multiset(Rows(Insert(s, x))) == multiset(Rows(s)) + multiset{ToRow(x)}
  {
    if s != [] && LexLe(s[0].date, x.date) {
      RowsInsert(s[1..], x);
      RowsInsertStep(s, x);
    } else {
      assert Insert(s, x) == [x] + s;
      RowsCons(x, s);
    }
  }

  lemma RowsInsertStep(s: seq<Doc>, x: Doc)
    requires s != [] && LexLe(s[0].date, x.date)
    requires multiset(Rows(Insert(s[1..], x))) == multiset(Rows(s[1..])) + multiset{ToRow(x)}
    ensures multiset(Rows(Insert(s, x))) == multiset(Rows(s)) + multiset{ToRow(x)}
  {
    var h, t := s[0], s[1..];
    var u := Insert(t, x);
    InsertFront(s, x);
    ConsSplit(s);
    RowsCons(h, u);
    RowsCons(h, t);
    MultisetShift(multiset{ToRow(h)}, multiset(Rows(t)), multiset{ToRow(x)},
                  multiset(Rows(u)), multiset(Rows(Insert(s, x))), multiset(Rows(s)));
  }

  lemma InsertFront(s: seq<Doc>, x: Doc)
    requires s != [] && LexLe(s[0].date, x.date)
    ensures Insert(s, x) == [s[0]] + Insert(s[1..], x)
  {
  }

  lemma ConsSplit(s: seq<Doc>)
    requires s != []
    ensures s == [s[0]] + s[1..]
  {
  }

  /** Adding the same element in front on both sides of a multiset equation. */
  lemma MultisetShift<T>(h: multiset<T>, t: multiset<T>, x: multiset<T>,
                         u: multiset<T>, su: multiset<T>, st: multiset<T>)
    requires u == t + x && su == h + u && st == h + t
    ensures su == st + x
  {
  }

  lemma {:induction false} RowsSnoc(s: seq<Doc>, x: Doc)
    ensures Rows(s + [x]) == Rows(s) + [ToRow(x)]
  {
    if s == [] {
      assert s + [x] == [x] + [];
      RowsCons(x, []);
    } else {
      assert s + [x] == [s[0]] + (s[1..] + [x]);
      assert s == [s[0]] + s[1..];
      RowsSnoc(s[1..], x);
      RowsCons(s[0], s[1..] + [x]);
      RowsCons(s[0], s[1..]);
    }
  }

  lemma {:induction false} RowsSort(docs: seq<Doc>)
    ensures multiset(Rows(SortByDate(docs))) == multiset(Rows(docs))
  {
    if docs != [] {
      var init, x := docs[..|docs| - 1], docs[|docs| - 1];
      assert docs == init + [x];
      RowsSort(init);
      RowsInsert(SortByDate(init), x);
      RowsSnoc(init, x);
    }
  }

  /** `manifest.json`, without its wall-clock timestamp. */
  datatype Manifest = Manifest(nDocuments: nat)

  /** `build_dataset(final_docs)`: the rows in corpus order and the manifest. */
  function BuildDataset(final: seq<Doc>): (seq<Row>, Manifest) {
    (Rows(SortByDate(final)), Manifest(|final|))
  }

  /** The corpus holds one row per final document, non-decreasing by date,
      and the manifest counts exactly those rows. */
  lemma BuildDatasetSpec(final: seq<Doc>)
    ensures var (rows, manifest) := BuildDataset(final);
      && manifest.nDocuments == |rows| == |final|
      && multiset(rows) == multiset(Rows(final))
      && (forall i, j :: 0 <= i < j < |rows| ==> LexLe(rows[i].date, rows[j].date))
      && (forall i, j :: 0 <= i < j < |rows| && rows[j].date == "" ==> rows[i].date == "")
  {
    SortByDateSpec(final);
    RowsSort(final);
    RowsSpec(SortByDate(final));
  }

  // ---- the loader's defaults

  /** The `source` entry of the front matter: absent, a mapping with a
      `name`, or a scalar. */
  datatype SourceField = NoSource | SourceMap(name: string) | SourceScalar(value: string)

  /** The front-matter fields the loader reads, each as a string ("" when it
      is missing or falsy) or a list. */
  datatype FrontMatter = FrontMatter(
    id: string, title: string, date: string, publishDate: string, source: SourceField,
    canonicalUrl: string, url: string, permalink: string,
    tags: seq<string>, categories: seq<string>, license: string, language: string,
    summary: string, description: string)

  const UnknownSource: string := "unknown"
  const DateChars: nat := 10

  /** `source.name` of a mapping or the scalar itself, "unknown" when that
      is missing or empty. */
  function SourceName(f: SourceField): (r: string)
    ensures r != ""
    ensures f.SourceMap? && f.name != "" ==> r == f.name
    ensures f.SourceScalar? && f.value != "" ==> r == f.value
    ensures f.NoSource? || (f.SourceMap? && f.name == "") || (f.SourceScalar? && f.value == "") ==> r == UnknownSource
  {
    match f
    case NoSource => UnknownSource
    case SourceMap(name) => Or(name, UnknownSource)
    case SourceScalar(v) => Or(v, UnknownSource)
  }

  /** One iteration of `load_posts` (lines 80-121) for the `index.md` in
      directory dirName: plain reads the plain-mirror directory and converted
      is the Markdown body already turned into text. */
  function LoadPost(fm: FrontMatter, dirName: string, plain: string -> Option<string>, converted: string): (d: Doc)
    ensures d.title == fm.title && d.source == SourceName(fm.source)
    // the date is `date`, else `publishDate`, cut to its first ten characters
    ensures fm.date != "" ==> d.date <= fm.date
    ensures fm.date == "" ==> d.date <= fm.publishDate
    ensures var raw := Or(fm.date, fm.publishDate); |d.date| == if |raw| <= DateChars then |raw| else DateChars
    // the first non-empty of canonical_url, url and permalink
    ensures fm.canonicalUrl != "" ==> d.canonicalUrl == fm.canonicalUrl
    ensures fm.canonicalUrl == "" && fm.url != "" ==> d.canonicalUrl == fm.url
    ensures fm.canonicalUrl == "" && fm.url == "" ==> d.canonicalUrl == fm.permalink
    // tags, else categories
    ensures fm.tags != [] ==> d.tags == fm.tags
    ensures fm.tags == [] ==> d.tags == fm.categories
    // license and language with their defaults
    ensures d.license == (if fm.license != "" then fm.license else DefaultLicense)
    ensures d.language == (if fm.language != "" then fm.language else DefaultLanguage)
    // an explicit id wins; otherwise the undashed date and the directory name
    ensures fm.id != "" ==> d.id == fm.id
    ensures fm.id == "" ==> d.id == RemoveDashes(d.date) + "-" + dirName
    // a non-empty plain mirror named after the id supplies the text
    ensures plain(PlainMirrorName(d.id)).Some? && plain(PlainMirrorName(d.id)).value != "" ==>
              d.text == plain(PlainMirrorName(d.id)).value
    ensures plain(PlainMirrorName(d.id)).None? && converted != "" ==> d.text == converted
    // an empty mirror or conversion gives the stripped summary, else description
    ensures (if plain(PlainMirrorName(d.id)).Some? then plain(PlainMirrorName(d.id)).value else converted) == "" ==>
              d.text == Strip(if fm.summary != "" then fm.summary else fm.description)
    // an empty text falls back to the stripped summary, then description
    ensures d.text == "" ==> AllSpace(fm.summary) && (fm.summary == "" ==> AllSpace(fm.description))
  {
    var date := Prefix(Or(fm.date, fm.publishDate), DateChars);
    var pid := Or(fm.id, RemoveDashes(date) + "-" + dirName);
    var text0 := match plain(PlainMirrorName(pid)) case Some(t) => t case None => converted;
    var text := if text0 != "" then text0 else Strip(Or(fm.summary, fm.description));
    Doc(pid, fm.title, date, SourceName(fm.source), Or(Or(fm.canonicalUrl, fm.url), fm.permalink),
        if fm.tags != [] then fm.tags else fm.categories,
        Or(fm.license, DefaultLicense), Or(fm.language, DefaultLanguage), text)
  }

  /** A front matter with an id and a source name, beside a non-empty mirror
      named after that id, loads with that id, source and text. */
  lemma LoadWithMirror(fm: FrontMatter, dirName: string, plain: string -> Option<string>, converted: string,
                       id: string, name: string, text: string)
    requires fm.id == id && id != "" && fm.source == SourceMap(name) && name != ""
    requires plain(PlainMirrorName(id)) == Some(text) && text != ""
    ensures var d := LoadPost(fm, dirName, plain, converted);
      d.id == id && d.source == name && d.text == text
  {
  }
}

=== FILE: dedup.dfy ===
/** `deduplicate_and_cluster` as a whole: the exact pass, then the
    near-duplicate pass over its representatives, with one shared log. */
module Dedup {
  import opened Docs
  import opened Preference
  import opened ExactDedup
  import opened NearDedup
  import opened Wrappers

  /** The final documents and every logged pair, exact pairs first. */
  function DedupAndCluster(posts: seq<Doc>, sim: Similarity, parse: DateParser): (seq<Doc>, seq<Decision>) {
    var (reps, exactLog) := DedupExact(posts, parse);
    var (final, nearLog) := NearPass(reps, sim, parse);
    (final, exactLog + nearLog)
  }

  /** Conservation over the whole engine: every input is either in the output,
      once, or logged as dropped exactly once; every pair keeps a document of
      no worse source than the one it drops. */
  lemma DedupSpec(posts: seq<Doc>, sim: Similarity, parse: DateParser)
    requires DistinctIds(posts)
    ensures var (final, log) := DedupAndCluster(posts, sim, parse);
      && Within(final, posts) && DistinctIds(final)
      && |final| + |log| == |posts|
      && (forall p :: p in posts ==> DropCount(log, p.id) == if p in final then 0 else 1)
      && (forall e :: e in log ==> RankRespecting(e, posts))
  {
    var (reps, exactLog) := DedupExact(posts, parse);
    var (final, nearLog) := NearPass(reps, sim, parse);
    DedupExactSpec(posts, parse);
    NearPassSpec(reps, sim, parse);
    DedupBooks(posts, reps, exactLog, final, nearLog);
    forall e | e in exactLog + nearLog
      ensures RankRespecting(e, posts)
    {
      if e in exactLog {
        ExactEntryRank(e, posts, parse);
      } else {
        RankRespectingWithin(e, reps, posts);
      }
    }
  }

  /** The two passes' accounts add up. */
  lemma DedupBooks(posts: seq<Doc>, reps: seq<Doc>, exactLog: seq<Decision>, final: seq<Doc>, nearLog: seq<Decision>)
    requires DistinctIds(posts) && Within(reps, posts) && Within(final, reps)
    requires |reps| + |exactLog| == |posts| && |final| + |nearLog| == |reps|
    requires forall p :: p in posts ==> DropCount(exactLog, p.id) == if p in reps then 0 else 1
    requires forall d :: d in reps ==> DropCount(nearLog, d.id) == if d in final then 0 else 1
    requires forall id :: id !in IdsOf(reps) ==> DropCount(nearLog, id) == 0
    ensures Within(final, posts)
    ensures |final| + |exactLog + nearLog| == |posts|
    ensures forall p :: p in posts ==> DropCount(exactLog + nearLog, p.id) == if p in final then 0 else 1
  {
    forall p | p in posts
      ensures DropCount(exactLog + nearLog, p.id) == if p in final then 0 else 1
    {
      DropCountAppend(exactLog, nearLog, p.id);
      if p !in reps {
        assert p.id !in IdsOf(reps) by {
          if p.id in IdsOf(reps) {
            IdsOfMember(reps, p.id);
          }
        }
      }
    }
  }

  /** The near-duplicate clusters behind the final documents, one per final
      document and in the same order, over the exact pass's representatives. */
  function Clusters(posts: seq<Doc>, sim: Similarity, parse: DateParser): seq<seq<Doc>> {
    var reps := DedupExact(posts, parse).0;
    NearClusters(reps, reps, sim, parse)
  }

  /** Every post is absorbed by the final document of one cluster: its text
      has a representative of the exact pass in that cluster, and the final
      document, the resolver folded over the cluster, has a source at least as
      authoritative as the post's. */
  lemma DedupCovers(posts: seq<Doc>, sim: Similarity, parse: DateParser)
    requires DistinctIds(posts)
    ensures var final := DedupAndCluster(posts, sim, parse).0;
            var cs := Clusters(posts, sim, parse);
            && |cs| == |final|
            && (forall i :: 0 <= i < |cs| ==> Fold(cs[i], parse) == Some(final[i]))
            && (forall i, r :: 0 <= i < |cs| && r in cs[i] ==> r in DedupExact(posts, parse).0)
            && (forall i, j, r :: 0 <= i < j < |cs| && r in cs[i] ==> r !in cs[j])
            && forall p :: p in posts ==>
                 exists i, r :: 0 <= i < |cs| && r in cs[i] && r.text == p.text && Rank(final[i]) <= Rank(p)
  {
    var reps := DedupExact(posts, parse).0;
    var final := NearPass(reps, sim, parse).0;
    assert DedupAndCluster(posts, sim, parse).0 == final;
    RepsDistinct(posts, parse);
    ExactCovers(posts, parse);
    NearCovers(reps, sim, parse);
    ChainCovers(posts, reps, final, NearClusters(reps, reps, sim, parse));
  }

  /** The exact pass's representatives keep distinct ids. */
  lemma RepsDistinct(posts: seq<Doc>, parse: DateParser)
    requires DistinctIds(posts)
    ensures DistinctIds(DedupExact(posts, parse).0)
  {
    ExactCore(posts, parse);
  }

  /** A post covered by a same-text representative that a cluster covers is
      covered by that cluster's final document. */
  lemma ChainCovers(posts: seq<Doc>, reps: seq<Doc>, final: seq<Doc>, cs: seq<seq<Doc>>)
    requires |cs| == |final|
    requires forall p :: p in posts ==> exists r :: r in reps && r.text == p.text && Rank(r) <= Rank(p)
    requires forall d :: d in reps ==> exists i :: 0 <= i < |cs| && d in cs[i] && Rank(final[i]) <= Rank(d)
    ensures forall p :: p in posts ==>
      exists i, r: Doc :: 0 <= i < |cs| && r in cs[i] && r.text == p.text && Rank(final[i]) <= Rank(p)
  {
    forall p | p in posts
      ensures exists i, r: Doc :: 0 <= i < |cs| && r in cs[i] && r.text == p.text && Rank(final[i]) <= Rank(p)
    {
      var r :| r in reps && r.text == p.text && Rank(r) <= Rank(p);
      var i :| 0 <= i < |cs| && r in cs[i] && Rank(final[i]) <= Rank(r);
    }
  }
}

=== FILE: docs.dfy ===
/** The document record that the deduplication engine works on, the log of
    its decisions, the fixed source ranking and Python's string order. */
module Docs {

  /** One normalized article, as `load_posts` builds it. */
  datatype Doc = Doc(
    id: string,
    title: string,
    date: string,          // ISO "YYYY-MM-DD" or "" when unknown
    source: string,        // platform name, "unknown" when missing
    canonicalUrl: string,
    tags: seq<string>,
    license: string,
    language: string,
    text: string           // the plain text every comparison works on
  )

  /** Why a document was dropped: the third component of a logged pair. */
  datatype Reason =
    | ExactHash                      // "exact-hash": the existing representative stayed
    | ExactHashReplaced              // "exact-hash-replaced": the newcomer took over
    | NearDuplicate(score: real)     // f"near-dup({score})"

  /** One logged pair `(kept_id, removed_id, reason)`. */
  datatype Decision = Decision(kept: string, dropped: string, reason: Reason)

  /** The named platforms of `SOURCE_RANK`; any other name gets the default. */
  const SourceRanks: map<string, nat> := map["Metaphor Hacker" := 1, "Medium" := 2, "Substack" := 3]
  const DefaultSourceRank: nat := 99

  /** `source_rank(name)`: a lower rank is a more authoritative source. */
  function SourceRank(name: string): (r: nat)
    ensures name == "Metaphor Hacker" <==> r == 1
    ensures name == "Medium" <==> r == 2
    ensures name == "Substack" <==> r == 3
    ensures r == 1 || r == 2 || r == 3 || r == DefaultSourceRank
  {
    if name in SourceRanks then SourceRanks[name] else DefaultSourceRank
  }

  function Rank(d: Doc): nat {
    SourceRank(d.source)
  }

  /** Python's `a <= b` on `str`: lexicographic by code point. (Dafny's own
      `<=` on sequences is the prefix order, a different relation.) */
  predicate LexLe(a: string, b: string) {
    a == [] || (b != [] && (a[0] < b[0] || (a[0] == b[0] && LexLe(a[1..], b[1..]))))
  }

  lemma LexLeReflexive(a: string)
    ensures LexLe(a, a)
  {
  }

  lemma {:induction false} LexLeTotal(a: string, b: string)
    ensures LexLe(a, b) || LexLe(b, a)
  {
    if a != [] && b != [] && a[0] == b[0] {
      LexLeTotal(a[1..], b[1..]);
    }
  }

  lemma {:induction false} LexLeAntisymmetric(a: string, b: string)
    requires LexLe(a, b) && LexLe(b, a)
    ensures a == b
  {
    if a != [] && b != [] {
      LexLeAntisymmetric(a[1..], b[1..]);
      assert a == [a[0]] + a[1..] && b == [b[0]] + b[1..];
    }
  }

  lemma {:induction false} LexLeTransitive(a: string, b: string, c: string)
    requires LexLe(a, b) && LexLe(b, c)
    ensures LexLe(a, c)
  {
    if a != [] && b != [] && c != [] && a[0] == b[0] && b[0] == c[0] {
      LexLeTransitive(a[1..], b[1..], c[1..]);
    }
  }

  /** Exactly one of two different strings comes first. */
  lemma LexLeStrict(a: string, b: string)
    requires a != b
    ensures LexLe(a, b) != LexLe(b, a)
  {
    LexLeTotal(a, b);
    if LexLe(a, b) && LexLe(b, a) {
      LexLeAntisymmetric(a, b);
    }
  }

  /** The input contract of the engine: no two records share an id. */
  predicate DistinctIds(s: seq<Doc>) {
    forall i, j :: 0 <= i < j < |s| ==> s[i].id != s[j].id
  }

  /** Every document of reps is one of xs. */
  predicate Within(reps: seq<Doc>, xs: seq<Doc>) {
    forall r :: r in reps ==> r in xs
  }

  /** The ids of the documents of s. */
  function IdsOf(s: seq<Doc>): (r: set<string>)
    ensures forall d :: d in s ==> d.id in r
  {
    if s == [] then {} else IdsOf(s[..|s| - 1]) + {s[|s| - 1].id}
  }

  /** An id that no document of s carries is not among IdsOf(s). */
  lemma {:induction false} IdsOfAbsent(s: seq<Doc>, id: string)
    requires forall d :: d in s ==> d.id != id
    ensures id !in IdsOf(s)
  {
    if s != [] {
      assert forall d :: d in s[..|s| - 1] ==> d in s;
      IdsOfAbsent(s[..|s| - 1], id);
    }
  }

  lemma {:induction false} IdsOfSnoc(s: seq<Doc>, d: Doc)
    ensures IdsOf(s + [d]) == IdsOf(s) + {d.id}
  {
    assert (s + [d])[..|s|] == s;
  }

  lemma {:induction false} IdsOfAppend(a: seq<Doc>, b: seq<Doc>)
    ensures IdsOf(a + b) == IdsOf(a) + IdsOf(b)
  {
    if b != [] {
      var init, last := b[..|b| - 1], b[|b| - 1];
      assert b == init + [last];
      assert a + b == (a + init) + [last];
      IdsOfAppend(a, init);
      IdsOfSnoc(a + init, last);
      IdsOfSnoc(init, last);
    } else {
      assert a + b == a;
    }
  }

  /** Every id of IdsOf(s) is carried by a document of s. */
  lemma {:induction false} IdsOfMember(s: seq<Doc>, id: string)
    requires id in IdsOf(s)
    ensures exists d :: d in s && d.id == id
  {
    var init, last := s[..|s| - 1], s[|s| - 1];
    if id != last.id {
      IdsOfMember(init, id);
      var d :| d in init && d.id == id;
      assert d in s;
    }
  }

  lemma {:induction false} IdsOfWithin(a: seq<Doc>, b: seq<Doc>)
    requires Within(a, b)
    ensures IdsOf(a) <= IdsOf(b)
  {
    forall id | id in IdsOf(a)
      ensures id in IdsOf(b)
    {
      IdsOfMember(a, id);
    }
  }

  /** With distinct ids, there are as many ids as documents. */
  lemma {:induction false} IdsOfCard(s: seq<Doc>)
    requires DistinctIds(s)
    ensures |IdsOf(s)| == |s|
  {
    if s != [] {
      var init, last := s[..|s| - 1], s[|s| - 1];
      assert s == init + [last];
      SnocFresh(init, last);
      IdsOfCard(init);
      IdsOfAbsent(init, last.id);
    }
  }

  lemma {:induction false} DistinctCons(d: Doc, s: seq<Doc>)
    requires DistinctIds(s) && forall x :: x in s ==> x.id != d.id
    ensures DistinctIds([d] + s)
  {
    var t := [d] + s;
    forall i, j | 0 <= i < j < |t|
      ensures t[i].id != t[j].id
    {
      assert t[j] == s[j - 1];
      if i > 0 {
        assert t[i] == s[i - 1];
      } else {
        assert s[j - 1] in s;
      }
    }
  }

  lemma {:induction false} DistinctIdsSame(s: seq<Doc>, a: Doc, b: Doc)
    requires DistinctIds(s) && a in s && b in s && a.id == b.id
    ensures a == b
  {
  }

  /** The last element of a list with distinct ids shares its id with no
      earlier element. */
  lemma {:induction false} SnocFresh(init: seq<Doc>, last: Doc)
    requires DistinctIds(init + [last])
    ensures DistinctIds(init)
    ensures forall d :: d in init ==> d.id != last.id
  {
    var s := init + [last];
    forall d | d in init
      ensures d.id != last.id
    {
      var j :| 0 <= j < |init| && init[j] == d;
      assert s[j] == d && s[|init|] == last;
    }
    forall i, j | 0 <= i < j < |init|
      ensures init[i].id != init[j].id
    {
      assert s[i] == init[i] && s[j] == init[j];
    }
  }

  /** How many logged pairs dropped the document with this id. */
  function DropCount(log: seq<Decision>, id: string): nat {
    if log == [] then 0
    else (if log[0].dropped == id then 1 else 0) + DropCount(log[1..], id)
  }

  lemma {:induction false} DropCountAppend(a: seq<Decision>, b: seq<Decision>, id: string)
    ensures DropCount(a + b, id) == DropCount(a, id) + DropCount(b, id)
  {
    if a == [] {
      assert a + b == b;
    } else {
      assert (a + b)[1..] == a[1..] + b;
      DropCountAppend(a[1..], b, id);
    }
  }

  lemma {:induction false} DropCountSnoc(log: seq<Decision>, e: Decision, id: string)
    ensures DropCount(log + [e], id) == DropCount(log, id) + (if e.dropped == id then 1 else 0)
  {
    DropCountAppend(log, [e], id);
  }

  /** The kept document of a logged pair is never of a worse source than the
      dropped one; both are documents of `docs`. */
  predicate RankRespecting(e: Decision, docs: seq<Doc>) {
    exists a, b :: a in docs && b in docs && a.id == e.kept && b.id == e.dropped && Rank(a) <= Rank(b)
  }

  lemma RankRespectingWithin(e: Decision, a: seq<Doc>, b: seq<Doc>)
    requires RankRespecting(e, a) && Within(a, b)
    ensures RankRespecting(e, b)
  {
    var x, y :| x in a && y in a && x.id == e.kept && y.id == e.dropped && Rank(x) <= Rank(y);
    assert x in b && y in b;
  }

  /** The plain-text mirror of a document is the file `<id>.txt`; the
      importers write it and the loader looks it up under the same name. */
  function PlainMirrorName(id: string): (r: string)
    ensures |r| == |id| + 4 && r[..|id|] == id
  {
    id + ".txt"
  }
}

=== FILE: exact_dedup.dfy ===
/** The first pass of `deduplicate_and_cluster`: documents with identical text
    (identical SHA-256 of the text) collapse to one representative each. The
    hash is modelled by the text itself, i.e. as an injective function. */
module ExactDedup {
  import opened Wrappers
  import opened Docs
  import opened Preference

  /** The documents of xs whose text is t, in order. */
  function WithText(xs: seq<Doc>, t: string): (r: seq<Doc>)
    ensures forall d :: d in r <==> d in xs && d.text == t
    ensures (forall d :: d in xs ==> d.text != t) ==> r == []
  {
    if xs == [] then []
    else
      var init, last := xs[..|xs| - 1], xs[|xs| - 1];
      assert xs == init + [last];
      WithText(init, t) + (if last.text == t then [last] else [])
  }

  lemma {:induction false} WithTextSnoc(xs: seq<Doc>, x: Doc, t: string)
    ensures x.text == t ==> WithText(xs + [x], t) == WithText(xs, t) + [x]
    ensures x.text != t ==> WithText(xs + [x], t) == WithText(xs, t)
  {
    assert (xs + [x])[..|xs|] == xs;
    assert WithText(xs, t) + [] == WithText(xs, t);
  }

  /** The representative that text t has after reading xs: the resolver folded
      over the documents with that text in arrival order. */
  function GroupRep(xs: seq<Doc>, t: string, parse: DateParser): Option<Doc> {
    Fold(WithText(xs, t), parse)
  }

  predicate Survives(ctx: seq<Doc>, d: Doc, parse: DateParser) {
    GroupRep(ctx, d.text, parse) == Some(d)
  }

  /** The documents of xs that represent their text in ctx, in the order of xs. */
  function Survivors(xs: seq<Doc>, ctx: seq<Doc>, parse: DateParser): (r: seq<Doc>)
    ensures forall d :: d in r <==> d in xs && Survives(ctx, d, parse)
    ensures |r| <= |xs|
  {
    if xs == [] then []
    else
      var init, last := xs[..|xs| - 1], xs[|xs| - 1];
      assert xs == init + [last];
      Survivors(init, ctx, parse) + (if Survives(ctx, last, parse) then [last] else [])
  }

  lemma {:induction false} SurvivorsSnoc(xs: seq<Doc>, x: Doc, ctx: seq<Doc>, parse: DateParser)
    ensures Survives(ctx, x, parse) ==> Survivors(xs + [x], ctx, parse) == Survivors(xs, ctx, parse) + [x]
    ensures !Survives(ctx, x, parse) ==> Survivors(xs + [x], ctx, parse) == Survivors(xs, ctx, parse)
  {
    assert (xs + [x])[..|xs|] == xs;
    assert Survivors(xs, ctx, parse) + [] == Survivors(xs, ctx, parse);
  }

  /** `[x for x in representatives if x["id"] != id]` */
  function RemoveId(xs: seq<Doc>, id: string): (r: seq<Doc>)
    ensures forall d :: d in r <==> d in xs && d.id != id
    ensures |r| <= |xs|
  {
    if xs == [] then []
    else
      var init, last := xs[..|xs| - 1], xs[|xs| - 1];
      assert xs == init + [last];
      RemoveId(init, id) + (if last.id != id then [last] else [])
  }

  lemma RemoveIdSnoc(xs: seq<Doc>, x: Doc, id: string)
    ensures x.id != id ==> RemoveId(xs + [x], id) == RemoveId(xs, id) + [x]
    ensures x.id == id ==> RemoveId(xs + [x], id) == RemoveId(xs, id)
  {
    assert (xs + [x])[..|xs|] == xs;
    assert RemoveId(xs, id) + [] == RemoveId(xs, id);
  }

  lemma {:induction false} RemoveIdAbsent(xs: seq<Doc>, id: string)
    requires forall d :: d in xs ==> d.id != id
    ensures RemoveId(xs, id) == xs
  {
    if xs != [] {
      var init, last := xs[..|xs| - 1], xs[|xs| - 1];
      assert xs == init + [last];
      assert forall d :: d in init ==> d in xs;
      RemoveIdAbsent(init, id);
    }
  }

  /** The position of the first document with this id, or -1: the lookup
      `next(x for x in representatives if x["id"] == kept)`. */
  function FindId(xs: seq<Doc>, id: string): (k: int)
    ensures -1 <= k < |xs|
    ensures k >= 0 ==> xs[k].id == id
    ensures k == -1 <==> forall j :: 0 <= j < |xs| ==> xs[j].id != id
  {
    if xs == [] then -1
    else if xs[0].id == id then 0
    else
      var k := FindId(xs[1..], id);
      if k < 0 then -1 else k + 1
  }

  /** With distinct ids, looking up a member's id finds that member. */
  lemma {:induction false} FindIdMember(xs: seq<Doc>, d: Doc)
    requires DistinctIds(xs) && d in xs
    ensures 0 <= FindId(xs, d.id) && xs[FindId(xs, d.id)] == d
  {
    var k := FindId(xs, d.id);
    var j :| 0 <= j < |xs| && xs[j] == d;
    assert k >= 0 && xs[k].id == xs[j].id;
  }

  lemma {:induction false} SurvivorsAgree(xs: seq<Doc>, c1: seq<Doc>, c2: seq<Doc>, parse: DateParser)
    requires forall d :: d in xs ==> Survives(c1, d, parse) == Survives(c2, d, parse)
    ensures Survivors(xs, c1, parse) == Survivors(xs, c2, parse)
  {
    if xs != [] {
      var init := xs[..|xs| - 1];
      assert forall d :: d in init ==> d in xs;
      SurvivorsAgree(init, c1, c2, parse);
    }
  }

  lemma {:induction false} SurvivorsRemove(xs: seq<Doc>, c1: seq<Doc>, c2: seq<Doc>, id: string, parse: DateParser)
    requires forall d :: d in xs ==> Survives(c2, d, parse) == (Survives(c1, d, parse) && d.id != id)
    ensures Survivors(xs, c2, parse) == RemoveId(Survivors(xs, c1, parse), id)
  {
    if xs != [] {
      var init, last := xs[..|xs| - 1], xs[|xs| - 1];
      assert xs == init + [last];
      assert forall d :: d in init ==> d in xs;
      SurvivorsRemove(init, c1, c2, id, parse);
      SurvivorsSnoc(init, last, c1, parse);
      SurvivorsSnoc(init, last, c2, parse);
      if Survives(c1, last, parse) {
        RemoveIdSnoc(Survivors(init, c1, parse), last, id);
      }
    }
  }

  lemma {:induction false} RemoveIdDistinct(xs: seq<Doc>, id: string)
    requires DistinctIds(xs)
    ensures DistinctIds(RemoveId(xs, id))
  {
    if xs != [] {
      var init, last := xs[..|xs| - 1], xs[|xs| - 1];
      RemoveIdDistinct(init, id);
      var r := RemoveId(init, id);
      forall k | 0 <= k < |r|
        ensures r[k].id != last.id
      {
        assert r[k] in init;
      }
    }
  }

  /** Reading a document of another text leaves a document's standing alone. */
  lemma {:induction false} SurvivesOther(ctx: seq<Doc>, p: Doc, d: Doc, parse: DateParser)
    requires d.text != p.text
    ensures Survives(ctx + [p], d, parse) == Survives(ctx, d, parse)
  {
    WithTextSnoc(ctx, p, d.text);
  }

  /** A document with a text never seen before becomes its own representative
      and is appended. */
  lemma {:induction false} NewTextStep(ctx: seq<Doc>, p: Doc, parse: DateParser)
    requires forall d :: d in ctx ==> d.text != p.text
    ensures Survivors(ctx + [p], ctx + [p], parse) == Survivors(ctx, ctx, parse) + [p]
  {
    var ctx' := ctx + [p];
    forall d | d in ctx
      ensures Survives(ctx', d, parse) == Survives(ctx, d, parse)
    {
      SurvivesOther(ctx, p, d, parse);
    }
    SurvivorsAgree(ctx, ctx, ctx', parse);
    WithTextSnoc(ctx, p, p.text);
    assert WithText(ctx, p.text) == [];
    FoldSnoc([], p, parse);
    assert [] + [p] == [p];
    assert Survives(ctx', p, parse);
    SurvivorsSnoc(ctx, p, ctx', parse);
  }

  /** When the representative c beats the newcomer p, c is still the
      representative of its text afterwards. */
  lemma {:induction false} GroupRepKeep(ctx: seq<Doc>, p: Doc, c: Doc, parse: DateParser)
    requires GroupRep(ctx, p.text, parse) == Some(c)
    requires ChoosePreferred(c, p, parse) == c
    ensures GroupRep(ctx + [p], p.text, parse) == Some(c)
  {
    WithTextSnoc(ctx, p, p.text);
    FoldSnoc(WithText(ctx, p.text), p, parse);
  }

  /** When c keeps its place against p, no earlier document changes standing. */
  lemma {:induction false} KeepStanding(ctx: seq<Doc>, p: Doc, c: Doc, parse: DateParser)
    requires GroupRep(ctx, p.text, parse) == Some(c)
    requires ChoosePreferred(c, p, parse) == c
    ensures forall d :: d in ctx ==> Survives(ctx + [p], d, parse) == Survives(ctx, d, parse)
  {
    var ctx' := ctx + [p];
    GroupRepKeep(ctx, p, c, parse);
    forall d | d in ctx
      ensures Survives(ctx', d, parse) == Survives(ctx, d, parse)
    {
      if d.text != p.text {
        SurvivesOther(ctx, p, d, parse);
      } else {
        assert GroupRep(ctx', d.text, parse) == GroupRep(ctx, d.text, parse);
      }
    }
  }

  /** ... and the newcomer that lost does not survive. */
  lemma {:induction false} KeepLoser(ctx: seq<Doc>, p: Doc, c: Doc, parse: DateParser)
    requires p !in ctx
    requires GroupRep(ctx, p.text, parse) == Some(c)
    requires ChoosePreferred(c, p, parse) == c
    ensures !Survives(ctx + [p], p, parse)
  {
    GroupRepKeep(ctx, p, c, parse);
    assert c in WithText(ctx, p.text);
  }

  /** The existing representative wins: the list of representatives is unchanged. */
  lemma {:induction false} KeepStep(ctx: seq<Doc>, p: Doc, c: Doc, parse: DateParser)
    requires p !in ctx
    requires GroupRep(ctx, p.text, parse) == Some(c)
    requires ChoosePreferred(c, p, parse) == c
    ensures Survivors(ctx + [p], ctx + [p], parse) == Survivors(ctx, ctx, parse)
  {
    var ctx' := ctx + [p];
    assert Survivors(ctx, ctx', parse) == Survivors(ctx, ctx, parse) by {
      KeepStanding(ctx, p, c, parse);
      SurvivorsAgree(ctx, ctx, ctx', parse);
    }
    assert Survivors(ctx', ctx', parse) == Survivors(ctx, ctx', parse) by {
      KeepLoser(ctx, p, c, parse);
      SurvivorsSnoc(ctx, p, ctx', parse);
    }
  }

  /** The newcomer wins: the old representative leaves the list and the
      newcomer is appended at the end. */
  lemma {:induction false} ReplaceStep(ctx: seq<Doc>, p: Doc, c: Doc, parse: DateParser)
    requires DistinctIds(ctx)
    requires p !in ctx
    requires GroupRep(ctx, p.text, parse) == Some(c)
    requires ChoosePreferred(c, p, parse) == p
    ensures Survivors(ctx + [p], ctx + [p], parse) == RemoveId(Survivors(ctx, ctx, parse), c.id) + [p]
  {
    var ctx' := ctx + [p];
    assert c in ctx;
    forall d | d in ctx
      ensures Survives(ctx', d, parse) == (Survives(ctx, d, parse) && d.id != c.id)
    {
      WithTextSnoc(ctx, p, d.text);
      if d.text == p.text {
        FoldSnoc(WithText(ctx, p.text), p, parse);
      } else if d.id == c.id {
        DistinctIdsSame(ctx, d, c);
      }
    }
    SurvivorsRemove(ctx, ctx, ctx', c.id, parse);
    WithTextSnoc(ctx, p, p.text);
    FoldSnoc(WithText(ctx, p.text), p, parse);
    SurvivorsSnoc(ctx, p, ctx', parse);
  }

  /** What one logged pair of this pass says: an earlier document i and a later
      document j with the same text met, with the earlier one as the first
      argument of the resolver. The resolver's winner is the kept id, and the
      reason says whether the newcomer replaced the earlier one. */
  predicate ExactEntry(e: Decision, posts: seq<Doc>, parse: DateParser) {
    exists i, j :: 0 <= i < j < |posts| && posts[i].text == posts[j].text &&
      ( (e == Decision(posts[i].id, posts[j].id, ExactHash)
         && ChoosePreferred(posts[i], posts[j], parse) == posts[i])
      || (e == Decision(posts[j].id, posts[i].id, ExactHashReplaced)
         && ChoosePreferred(posts[i], posts[j], parse) == posts[j]))
  }

  /** The fingerprint map that a list of representatives determines: each
      representative's text maps to its id, later entries overriding earlier. */
  function IndexOf(reps: seq<Doc>): (m: map<string, string>)
    ensures forall r :: r in reps ==> r.text in m
  {
    if reps == [] then map[]
    else
      var init, last := reps[..|reps| - 1], reps[|reps| - 1];
      assert reps == init + [last];
      IndexOf(init)[last.text := last.id]
  }

  lemma {:induction false} IndexOfSnoc(reps: seq<Doc>, p: Doc)
    ensures IndexOf(reps + [p]) == IndexOf(reps)[p.text := p.id]
  {
    assert (reps + [p])[..|reps|] == reps;
  }

  /** Looking a text up in the map and its id up in the list finds a
      representative with that text. */
  lemma {:induction false} IndexOfLookup(reps: seq<Doc>, t: string)
    requires DistinctIds(reps) && t in IndexOf(reps)
    ensures 0 <= FindId(reps, IndexOf(reps)[t]) && reps[FindId(reps, IndexOf(reps)[t])].text == t
  {
    var init, last := reps[..|reps| - 1], reps[|reps| - 1];
    assert reps == init + [last];
    if t == last.text {
      assert last in reps;
      FindIdMember(reps, last);
    } else {
      IndexOfLookup(init, t);
      var r := init[FindId(init, IndexOf(init)[t])];
      assert r in reps;
      FindIdMember(reps, r);
    }
  }

  /** With one representative per text, dropping c and then mapping c's text
      anew gives the same map as mapping c's text anew directly. */
  lemma {:induction false} IndexOfRemove(reps: seq<Doc>, c: Doc, x: string)
    requires DistinctIds(reps) && c in reps
    requires forall a, b :: a in reps && b in reps && a.text == b.text ==> a == b
    ensures IndexOf(RemoveId(reps, c.id))[c.text := x] == IndexOf(reps)[c.text := x]
  {
    var init, last := reps[..|reps| - 1], reps[|reps| - 1];
    assert reps == init + [last];
    SnocFresh(init, last);
    if last == c {
      IndexOfRemoveLast(reps, c, x);
    } else {
      assert c in init;
      assert forall d :: d in init ==> d in reps;
      IndexOfRemove(init, c, x);
      IndexOfRemoveBefore(init, last, c, x);
    }
  }

  lemma {:induction false} IndexOfRemoveLast(reps: seq<Doc>, c: Doc, x: string)
    requires DistinctIds(reps) && reps != [] && reps[|reps| - 1] == c
    ensures IndexOf(RemoveId(reps, c.id))[c.text := x] == IndexOf(reps)[c.text := x]
  {
    var init := reps[..|reps| - 1];
    assert reps == init + [c];
    SnocFresh(init, c);
    RemoveIdAbsent(init, c.id);
    IndexOfSnoc(init, c);
    var m := IndexOf(init);
    calc {
      IndexOf(RemoveId(reps, c.id))[c.text := x];
      { assert RemoveId(reps, c.id) == RemoveId(init, c.id) + [];
        assert RemoveId(init, c.id) + [] == init; }
      m[c.text := x];
      { MapUpdateTwice(m, c.text, c.id, x); }
      m[c.text := c.id][c.text := x];
      IndexOf(reps)[c.text := x];
    }
  }

  lemma {:induction false} IndexOfRemoveBefore(init: seq<Doc>, last: Doc, c: Doc, x: string)
    requires last.text != c.text && last.id != c.id
    requires IndexOf(RemoveId(init, c.id))[c.text := x] == IndexOf(init)[c.text := x]
    ensures IndexOf(RemoveId(init + [last], c.id))[c.text := x] == IndexOf(init + [last])[c.text := x]
  {
    var r := RemoveId(init, c.id);
    assert (init + [last])[..|init|] == init;
    assert RemoveId(init + [last], c.id) == r + [last];
    IndexOfSnoc(r, last);
    IndexOfSnoc(init, last);
    MapUpdateBelow(IndexOf(r), IndexOf(init), last.text, last.id, c.text, x);
  }

  lemma MapUpdateTwice<K, V>(m: map<K, V>, k: K, v1: V, v2: V)
    ensures m[k := v1][k := v2] == m[k := v2]
  {
  }

  /** Updating two different keys: equal maps after the inner update stay
      equal after an update underneath it. */
  lemma MapUpdateBelow<K, V>(a: map<K, V>, b: map<K, V>, k1: K, v1: V, k2: K, v2: V)
    requires k1 != k2 && a[k2 := v2] == b[k2 := v2]
    ensures a[k1 := v1][k2 := v2] == b[k1 := v1][k2 := v2]
  {
    assert a[k1 := v1][k2 := v2] == a[k2 := v2][k1 := v1];
    assert b[k1 := v1][k2 := v2] == b[k2 := v2][k1 := v1];
  }

  /** Each document of seen is a representative, or was dropped exactly once. */
  predicate Accounted(seen: seq<Doc>, reps: seq<Doc>, log: seq<Decision>) {
    forall p :: p in seen ==> if p in reps then DropCount(log, p.id) == 0 else DropCount(log, p.id) == 1
  }

  lemma {:induction false} AccountedNew(seen: seq<Doc>, reps: seq<Doc>, log: seq<Decision>, p: Doc)
    requires Accounted(seen, reps, log) && p !in seen && DropCount(log, p.id) == 0
    ensures Accounted(seen + [p], reps + [p], log)
  {
    forall q | q in seen + [p]
      ensures if q in reps + [p] then DropCount(log, q.id) == 0 else DropCount(log, q.id) == 1
    {
      if q != p {
        assert q in seen;
        assert q in reps + [p] <==> q in reps;
      }
    }
  }
  lemma {:induction false} AccountedKeep(seen: seq<Doc>, reps: seq<Doc>, log: seq<Decision>, p: Doc, e: Decision)
    requires Accounted(seen, reps, log) && p !in reps && e.dropped == p.id && DropCount(log, p.id) == 0
    requires forall q :: q in seen ==> q.id != p.id
    ensures Accounted(seen + [p], reps, log + [e])
  {
    forall q | q in seen + [p]
      ensures if q in reps then DropCount(log + [e], q.id) == 0 else DropCount(log + [e], q.id) == 1
    {
      DropCountSnoc(log, e, q.id);
      if q != p {
        assert q in seen;
      }
    }
  }
  lemma {:induction false} AccountedReplace(seen: seq<Doc>, reps: seq<Doc>, log: seq<Decision>, p: Doc, c: Doc, e: Decision)
    requires Accounted(seen, reps, log) && c in reps && c in seen && e.dropped == c.id && DropCount(log, p.id) == 0
    requires forall q :: q in seen ==> q.id != p.id && (q.id == c.id ==> q == c)
    ensures Accounted(seen + [p], RemoveId(reps, c.id) + [p], log + [e])
  {
    var reps' := RemoveId(reps, c.id) + [p];
    forall q | q in seen + [p]
      ensures if q in reps' then DropCount(log + [e], q.id) == 0 else DropCount(log + [e], q.id) == 1
    {
      DropCountSnoc(log, e, q.id);
      if q != p {
        assert q in seen;
        assert q in reps' <==> q in reps && q.id != c.id;
      }
    }
  }

  lemma {:induction false} DropCountZero(log: seq<Decision>, id: string)
    requires forall e :: e in log ==> e.dropped != id
    ensures DropCount(log, id) == 0
  {
    if log != [] {
      assert log[0] in log;
      assert forall e :: e in log[1..] ==> e in log;
      DropCountZero(log[1..], id);
    }
  }

  lemma {:induction false} RemoveIdOne(xs: seq<Doc>, c: Doc)
    requires DistinctIds(xs) && c in xs
    ensures |RemoveId(xs, c.id)| == |xs| - 1
  {
    var init, last := xs[..|xs| - 1], xs[|xs| - 1];
    assert xs == init + [last];
    SnocFresh(init, last);
    if last == c {
      RemoveIdAbsent(init, c.id);
    } else {
      assert c in init;
      RemoveIdOne(init, c);
    }
  }

  /** A logged pair stays explained when more documents arrive. */
  lemma {:induction false} ExactEntryExtend(e: Decision, xs: seq<Doc>, p: Doc, parse: DateParser)
    requires ExactEntry(e, xs, parse)
    ensures ExactEntry(e, xs + [p], parse)
  {
    var i, j :| 0 <= i < j < |xs| && xs[i].text == xs[j].text &&
      ( (e == Decision(xs[i].id, xs[j].id, ExactHash) && ChoosePreferred(xs[i], xs[j], parse) == xs[i])
      || (e == Decision(xs[j].id, xs[i].id, ExactHashReplaced) && ChoosePreferred(xs[i], xs[j], parse) == xs[j]));
    var ys := xs + [p];
    assert ys[i] == xs[i] && ys[j] == xs[j];
  }

  /** The state of the exact pass: the representatives in order, the map from
      text (standing for its hash) to representative id, and the log. */
  datatype ExactState = ExactState(reps: seq<Doc>, index: map<string, string>, log: seq<Decision>)

  /** One iteration of the exact pass, for the next post p (lines 158-175). */
  function ExactStep(st: ExactState, p: Doc, parse: DateParser): ExactState {
    if p.text in st.index then
      var k := FindId(st.reps, st.index[p.text]);
      if k < 0 then st  // `next(...)` finds nothing: unreachable, see ExactLookupSucceeds
      else
        var kept := st.reps[k];
        if ChoosePreferred(kept, p, parse).id == kept.id then
          st.(log := st.log + [Decision(kept.id, p.id, ExactHash)])
        else
          ExactState(RemoveId(st.reps, kept.id) + [p], st.index[p.text := p.id],
                     st.log + [Decision(p.id, kept.id, ExactHashReplaced)])
    else
      ExactState(st.reps + [p], st.index[p.text := p.id], st.log)
  }

  /** The exact pass over posts in order: ExactStep folded from the empty state. */
  function ExactPass(posts: seq<Doc>, parse: DateParser): ExactState {
    if posts == [] then ExactState([], map[], [])
    else ExactStep(ExactPass(posts[..|posts| - 1], parse), posts[|posts| - 1], parse)
  }

  lemma {:induction false} ExactPassSnoc(xs: seq<Doc>, p: Doc, parse: DateParser)
    ensures ExactPass(xs + [p], parse) == ExactStep(ExactPass(xs, parse), p, parse)
  {
    assert (xs + [p])[..|xs|] == xs;
  }

  /** No two documents of reps share a text. */
  predicate UniqueTexts(reps: seq<Doc>) {
    forall a, b :: a in reps && b in reps && a.text == b.text ==> a == b
  }

  /** The structural part of the pass's state after reading xs. */
  predicate Core(xs: seq<Doc>, st: ExactState) {
    && Within(st.reps, xs)
    && DistinctIds(st.reps)
    && UniqueTexts(st.reps)
    && st.index == IndexOf(st.reps)
    && (forall d :: d in xs ==> d.text in st.index)
  }

  lemma {:induction false} SnocWithin(reps: seq<Doc>, xs: seq<Doc>, p: Doc)
    requires Within(reps, xs)
    ensures Within(reps + [p], xs + [p])
  {
  }

  lemma {:induction false} SnocDistinct(reps: seq<Doc>, xs: seq<Doc>, p: Doc)
    requires DistinctIds(reps) && Within(reps, xs)
    requires forall q :: q in xs ==> q.id != p.id
    ensures DistinctIds(reps + [p])
  {
    forall k | 0 <= k < |reps|
      ensures reps[k].id != p.id
    {
      assert reps[k] in xs;
    }
  }

  lemma {:induction false} SnocUniqueTexts(reps: seq<Doc>, p: Doc)
    requires UniqueTexts(reps)
    requires forall r :: r in reps ==> r.text != p.text
    ensures UniqueTexts(reps + [p])
  {
  }

  lemma {:induction false} SnocKeys(xs: seq<Doc>, p: Doc, index: map<string, string>, v: string)
    requires forall d :: d in xs ==> d.text in index
    ensures forall d :: d in xs + [p] ==> d.text in index[p.text := v]
  {
  }

  lemma {:induction false} RemoveIdWithin(reps: seq<Doc>, xs: seq<Doc>, id: string)
    requires Within(reps, xs)
    ensures Within(RemoveId(reps, id), xs) && UniqueTexts(reps) ==> UniqueTexts(RemoveId(reps, id))
  {
  }

  lemma {:induction false} CoreNew(xs: seq<Doc>, st: ExactState, p: Doc, parse: DateParser)
    requires DistinctIds(xs + [p]) && Core(xs, st) && p.text !in st.index
    ensures Core(xs + [p], ExactStep(st, p, parse))
  {
    SnocFresh(xs, p);
    SnocWithin(st.reps, xs, p);
    SnocDistinct(st.reps, xs, p);
    SnocUniqueTexts(st.reps, p);
    IndexOfSnoc(st.reps, p);
    SnocKeys(xs, p, st.index, p.id);
  }

  lemma {:induction false} CoreKeep(xs: seq<Doc>, st: ExactState, p: Doc, parse: DateParser, c: Doc)
    requires DistinctIds(xs + [p]) && Core(xs, st) && p.text in st.index
    requires 0 <= FindId(st.reps, st.index[p.text]) && c == st.reps[FindId(st.reps, st.index[p.text])]
    requires ChoosePreferred(c, p, parse).id == c.id
    ensures Core(xs + [p], ExactStep(st, p, parse))
  {
    assert Within(st.reps, xs + [p]);
  }

  lemma {:induction false} CoreReplace(xs: seq<Doc>, st: ExactState, p: Doc, parse: DateParser, c: Doc)
    requires DistinctIds(xs + [p]) && Core(xs, st) && p.text in st.index
    requires 0 <= FindId(st.reps, st.index[p.text]) && c == st.reps[FindId(st.reps, st.index[p.text])]
    requires c.text == p.text
    requires ChoosePreferred(c, p, parse).id != c.id
    ensures Core(xs + [p], ExactStep(st, p, parse))
  {
    SnocFresh(xs, p);
    assert c in st.reps;
    var r := RemoveId(st.reps, c.id);
    RemoveIdWithin(st.reps, xs, c.id);
    RemoveIdDistinct(st.reps, c.id);
    SnocWithin(r, xs, p);
    SnocDistinct(r, xs, p);
    forall a | a in r
      ensures a.text != p.text
    {
      assert a != c;
    }
    SnocUniqueTexts(r, p);
    IndexOfSnoc(r, p);
    IndexOfRemove(st.reps, c, p.id);
    SnocKeys(xs, p, st.index, p.id);
  }

  /** The structure holds after every prefix of the input. */
  lemma {:induction false} ExactCore(xs: seq<Doc>, parse: DateParser)
    requires DistinctIds(xs)
    ensures Core(xs, ExactPass(xs, parse))
  {
    if xs != [] {
      var init, p := xs[..|xs| - 1], xs[|xs| - 1];
      assert xs == init + [p];
      SnocFresh(init, p);
      ExactCore(init, parse);
      ExactPassSnoc(init, p, parse);
      var st := ExactPass(init, parse);
      if p.text in st.index {
        IndexOfLookup(st.reps, p.text);
        var c := st.reps[FindId(st.reps, st.index[p.text])];
        if ChoosePreferred(c, p, parse).id == c.id {
          CoreKeep(init, st, p, parse, c);
        } else {
          CoreReplace(init, st, p, parse, c);
        }
      } else {
        CoreNew(init, st, p, parse);
      }
    }
  }

  /** The lookup `next(x for x in representatives if x["id"] == kept)` never
      comes back empty: the map only ever points at current representatives,
      and the one it finds carries the text that was looked up. */
  lemma {:induction false} ExactLookupSucceeds(xs: seq<Doc>, p: Doc, parse: DateParser)
    requires DistinctIds(xs)
    requires p.text in ExactPass(xs, parse).index
    ensures var st := ExactPass(xs, parse);
            0 <= FindId(st.reps, st.index[p.text]) && st.reps[FindId(st.reps, st.index[p.text])].text == p.text
  {
    ExactCore(xs, parse);
    IndexOfLookup(ExactPass(xs, parse).reps, p.text);
  }

  /** The representatives are exactly the winners of their text groups, listed
      in input order. */
  lemma {:induction false} ExactSurvivors(xs: seq<Doc>, parse: DateParser)
    requires DistinctIds(xs)
    ensures ExactPass(xs, parse).reps == Survivors(xs, xs, parse)
  {
    if xs != [] {
      var init, p := xs[..|xs| - 1], xs[|xs| - 1];
      assert xs == init + [p];
      SnocFresh(init, p);
      assert p !in init;
      ExactCore(init, parse);
      ExactSurvivors(init, parse);
      ExactPassSnoc(init, p, parse);
      var st := ExactPass(init, parse);
      if p.text in st.index {
        IndexOfLookup(st.reps, p.text);
        var c := st.reps[FindId(st.reps, st.index[p.text])];
        assert c in st.reps;
        assert GroupRep(init, p.text, parse) == Some(c);
        assert c in init;
        PreferredById(c, p, parse);
        if ChoosePreferred(c, p, parse).id == c.id {
          KeepStep(init, p, c, parse);
        } else {
          ReplaceStep(init, p, c, parse);
        }
      } else {
        NewTextStep(init, p, parse);
      }
    }
  }

  /** The log's bookkeeping after reading xs. */
  predicate Books(xs: seq<Doc>, st: ExactState, parse: DateParser) {
    && |st.reps| + |st.log| == |xs|
    && Accounted(xs, st.reps, st.log)
    && (forall e :: e in st.log ==> ExactEntry(e, xs, parse))
  }

  /** A document new to xs has never been dropped: every logged pair drops a
      document of xs. */
  lemma {:induction false} FreshNotDropped(log: seq<Decision>, xs: seq<Doc>, p: Doc, parse: DateParser)
    requires forall e :: e in log ==> ExactEntry(e, xs, parse)
    requires forall d :: d in xs ==> d.id != p.id
    ensures DropCount(log, p.id) == 0
  {
    forall e | e in log
      ensures e.dropped != p.id
    {
      var i, j :| 0 <= i < j < |xs| && (e.dropped == xs[i].id || e.dropped == xs[j].id);
      assert xs[i] in xs && xs[j] in xs;
    }
    DropCountZero(log, p.id);
  }

  lemma {:induction false} EntriesExtend(log: seq<Decision>, xs: seq<Doc>, p: Doc, parse: DateParser)
    requires forall e :: e in log ==> ExactEntry(e, xs, parse)
    ensures forall e :: e in log ==> ExactEntry(e, xs + [p], parse)
  {
    forall e | e in log
      ensures ExactEntry(e, xs + [p], parse)
    {
      ExactEntryExtend(e, xs, p, parse);
    }
  }

  lemma {:induction false} BooksNew(xs: seq<Doc>, st: ExactState, p: Doc, parse: DateParser)
    requires Books(xs, st, parse) && p !in xs && forall d :: d in xs ==> d.id != p.id
    ensures Books(xs + [p], ExactState(st.reps + [p], st.index[p.text := p.id], st.log), parse)
  {
    FreshNotDropped(st.log, xs, p, parse);
    AccountedNew(xs, st.reps, st.log, p);
    EntriesExtend(st.log, xs, p, parse);
  }

  lemma {:induction false} BooksKeep(xs: seq<Doc>, st: ExactState, p: Doc, parse: DateParser, i: nat)
    requires Books(xs, st, parse) && Within(st.reps, xs) && forall d :: d in xs ==> d.id != p.id
    requires i < |xs| && xs[i].text == p.text && ChoosePreferred(xs[i], p, parse) == xs[i]
    ensures Books(xs + [p], st.(log := st.log + [Decision(xs[i].id, p.id, ExactHash)]), parse)
  {
    var e := Decision(xs[i].id, p.id, ExactHash);
    FreshNotDropped(st.log, xs, p, parse);
    assert p !in st.reps;
    AccountedKeep(xs, st.reps, st.log, p, e);
    EntriesExtend(st.log, xs, p, parse);
    assert ExactEntry(e, xs + [p], parse) by {
      var ys := xs + [p];
      assert ys[i] == xs[i] && ys[|xs|] == p;
    }
  }

  lemma {:induction false} BooksReplace(xs: seq<Doc>, st: ExactState, p: Doc, parse: DateParser, i: nat)
    requires Books(xs, st, parse) && DistinctIds(xs) && DistinctIds(st.reps)
    requires forall d :: d in xs ==> d.id != p.id
    requires i < |xs| && xs[i] in st.reps && xs[i].text == p.text && ChoosePreferred(xs[i], p, parse) == p
    ensures Books(xs + [p], ExactState(RemoveId(st.reps, xs[i].id) + [p], st.index[p.text := p.id],
                                       st.log + [Decision(p.id, xs[i].id, ExactHashReplaced)]), parse)
  {
    var c := xs[i];
    var e := Decision(p.id, c.id, ExactHashReplaced);
    FreshNotDropped(st.log, xs, p, parse);
    RemoveIdOne(st.reps, c);
    forall q | q in xs && q.id == c.id
      ensures q == c
    {
      DistinctIdsSame(xs, q, c);
    }
    AccountedReplace(xs, st.reps, st.log, p, c, e);
    EntriesExtend(st.log, xs, p, parse);
    assert ExactEntry(e, xs + [p], parse) by {
      var ys := xs + [p];
      assert ys[i] == xs[i] && ys[|xs|] == p;
    }
  }

  /** Every input is a representative or dropped exactly once, and every
      logged pair is explained by two inputs with the same text. */
  lemma {:induction false} ExactBooks(xs: seq<Doc>, parse: DateParser)
    requires DistinctIds(xs)
    ensures Books(xs, ExactPass(xs, parse), parse)
  {
    if xs != [] {
      var init, p := xs[..|xs| - 1], xs[|xs| - 1];
      assert xs == init + [p];
      SnocFresh(init, p);
      ExactCore(init, parse);
      ExactBooks(init, parse);
      ExactPassSnoc(init, p, parse);
      var st := ExactPass(init, parse);
      assert p !in init;
      if p.text in st.index {
        IndexOfLookup(st.reps, p.text);
        var c := st.reps[FindId(st.reps, st.index[p.text])];
        assert c in st.reps && c in init;
        PreferredById(c, p, parse);
        var i :| 0 <= i < |init| && init[i] == c;
        if ChoosePreferred(c, p, parse).id == c.id {
          BooksKeep(init, st, p, parse, i);
        } else {
          BooksReplace(init, st, p, parse, i);
        }
      } else {
        BooksNew(init, st, p, parse);
      }
    }
  }

  /** `deduplicate_and_cluster`'s first pass, lines 157-175: the
      representatives and the log of removed duplicates. */
  function DedupExact(posts: seq<Doc>, parse: DateParser): (seq<Doc>, seq<Decision>) {
    var st := ExactPass(posts, parse);
    (st.reps, st.log)
  }

  /** What the exact pass guarantees for an input with distinct ids. */
  lemma DedupExactSpec(posts: seq<Doc>, parse: DateParser)
    requires DistinctIds(posts)
    ensures var (reps, log) := DedupExact(posts, parse);
      // the representatives are the winners of their text group, in input order
      && reps == Survivors(posts, posts, parse)
      // one representative per distinct text, and every text has one
      && (forall a, b :: a in reps && b in reps && a.text == b.text ==> a == b)
      && (forall p :: p in posts ==> exists r :: r in reps && r.text == p.text)
      && DistinctIds(reps) && Within(reps, posts)
      // conservation: every input is a representative or dropped exactly once
      && |reps| + |log| == |posts|
      && (forall p :: p in posts ==>
            if p in reps then DropCount(log, p.id) == 0 else DropCount(log, p.id) == 1)
      && (forall e :: e in log ==> ExactEntry(e, posts, parse))
  {
    var st := ExactPass(posts, parse);
    ExactCore(posts, parse);
    ExactSurvivors(posts, parse);
    ExactBooks(posts, parse);
    forall p | p in posts
      ensures exists r :: r in st.reps && r.text == p.text
    {
      IndexOfLookup(st.reps, p.text);
      assert st.reps[FindId(st.reps, st.index[p.text])] in st.reps;
    }
  }

  /** An exact-pass pair keeps the resolver's winner, so it never favours a
      worse source. */
  lemma ExactEntryRank(e: Decision, posts: seq<Doc>, parse: DateParser)
    requires ExactEntry(e, posts, parse)
    ensures RankRespecting(e, posts)
  {
    var i, j :| 0 <= i < j < |posts| && posts[i].text == posts[j].text &&
      ( (e == Decision(posts[i].id, posts[j].id, ExactHash)
         && ChoosePreferred(posts[i], posts[j], parse) == posts[i])
      || (e == Decision(posts[j].id, posts[i].id, ExactHashReplaced)
         && ChoosePreferred(posts[i], posts[j], parse) == posts[j]));
    assert posts[i] in posts && posts[j] in posts;
  }

  /** Every post has a representative with its text whose source is at least
      as authoritative. */
  lemma ExactCovers(posts: seq<Doc>, parse: DateParser)
    requires DistinctIds(posts)
    ensures forall p :: p in posts ==>
      exists r :: r in DedupExact(posts, parse).0 && r.text == p.text && Rank(r) <= Rank(p)
  {
    ExactSurvivors(posts, parse);
    forall p | p in posts
      ensures exists r :: r in Survivors(posts, posts, parse) && r.text == p.text && Rank(r) <= Rank(p)
    {
      var g := WithText(posts, p.text);
      assert p in g;
      var s := Fold(g, parse).value;
      assert s in g;
      assert Survives(posts, s, parse);
      assert s in Survivors(posts, posts, parse);
    }
  }
}

=== FILE: feeds.dfy ===
/** What `scripts/import_medium.py` and `scripts/import_substack.py` share:
    title normalisation, the choice of the first usable link, the ISO date
    and the id and path names built on it, tag mapping, and the whitespace
    passes of the plain-mirror cleanup. */
module Feeds {
  import opened Wrappers
  import opened Text
  import opened Docs

  // ---- normalize_title

  const Untitled: string := "untitled"

  /** `normalize_title`: a falsy title becomes "untitled"; otherwise every
      whitespace run becomes one space and the ends are stripped. */
  function NormalizeTitle(title: string): (r: string)
    ensures title == "" ==> r == Untitled
    ensures title != "" ==> Trimmed(r) && SingleSpaced(r) && Squeeze(r) == Squeeze(title)
    ensures title != "" ==> (r == "" <==> AllSpace(title))
    // every whitespace run became one space: the words are those of the title
    ensures title != "" ==> Words(r) == Words(title)
  {
    if title == "" then Untitled
    else
      var c := CollapseSpace(title);
      CollapseSpaceWords(title);
      StripWords(c);
      StripSingleSpaced(c);
      SqueezeAllSpace(c);
      SqueezeAllSpace(title);
      Strip(c)
  }

  /** A normalized title that is not empty normalizes to itself. */
  lemma NormalizeTitleIdempotent(title: string)
    requires NormalizeTitle(title) != ""
    ensures NormalizeTitle(NormalizeTitle(title)) == NormalizeTitle(title)
  {
    var r := NormalizeTitle(title);
    if title == "" {
      assert r == Untitled;
      assert !IsSpace(r[0]) && !IsSpace(r[1]) && !IsSpace(r[2]) && !IsSpace(r[3]);
      assert !IsSpace(r[4]) && !IsSpace(r[5]) && !IsSpace(r[6]) && !IsSpace(r[7]);
    }
    assert Trimmed(r) && SingleSpaced(r);
    CollapseSingleSpaced(r);
    StripTrimmed(r);
    assert NormalizeTitle(r) == Strip(CollapseSpace(r));
  }

  /** The title handed to `normalize_title`:
      `entry.get("title") or entry.get("summary") or "Untitled"` (a missing
      field is ""). */
  function TitleText(title: string, summary: string): (r: string)
    ensures r != ""
    ensures title != "" ==> r == title
    ensures title == "" && summary != "" ==> r == summary
    ensures title == "" && summary == "" ==> r == "Untitled"
  {
    Or(Or(title, summary), "Untitled")
  }

  // ---- canonical URL

  /** One item of an entry's `links`: `rel` may be missing; a missing or
      empty `href` is "". */
  datatype Link = Link(rel: Option<string>, href: string)

  /** Medium's rule: `l.get("rel") == "alternate"`. */
  predicate AlternateRel(rel: Option<string>) {
    rel == Some("alternate")
  }

  /** Substack's rule: `l.get("rel") in ("alternate", None)`. */
  predicate AlternateOrMissingRel(rel: Option<string>) {
    rel == Some("alternate") || rel == None
  }

  predicate Usable(l: Link, accept: Option<string> -> bool) {
    accept(l.rel) && l.href != ""
  }

  /** The href of the first link the rule accepts whose href is not empty. */
  function FirstLink(links: seq<Link>, accept: Option<string> -> bool): (r: Option<string>)
    ensures r.Some? ==> r.value != ""
  {
    if links == [] then None
    else if Usable(links[0], accept) then Some(links[0].href)
    else FirstLink(links[1..], accept)
  }

  /** FirstLink finds a usable link exactly when there is one, and it is the
      one no usable link precedes. */
  lemma {:induction false} FirstLinkSpec(links: seq<Link>, accept: Option<string> -> bool)
    ensures FirstLink(links, accept).None? <==> forall i :: 0 <= i < |links| ==> !Usable(links[i], accept)
    ensures forall i :: 0 <= i < |links| && Usable(links[i], accept) && (forall j :: 0 <= j < i ==> !Usable(links[j], accept))
               ==> FirstLink(links, accept) == Some(links[i].href)
  {
    if links != [] {
      FirstLinkSpec(links[1..], accept);
      forall i | 0 < i < |links|
        ensures links[1..][i - 1] == links[i]
      {
      }
    }
  }

  /** The canonical URL both importers settle on: the first usable link, or
      else `entry.get("link") or entry.get("id") or ""`. */
  function CanonicalUrl(link: string, id: string, links: seq<Link>, accept: Option<string> -> bool): (r: string)
    ensures FirstLink(links, accept).Some? ==> r == FirstLink(links, accept).value
    ensures FirstLink(links, accept).None? ==> r == Or(link, id)
  {
    match FirstLink(links, accept)
    case Some(h) => h
    case None => Or(link, id)
  }

  /** Where every link names its rel, the two importers' rules agree. */
  lemma {:induction false} RulesAgreeWithRels(links: seq<Link>)
    requires forall i :: 0 <= i < |links| ==> links[i].rel.Some?
    ensures FirstLink(links, AlternateRel) == FirstLink(links, AlternateOrMissingRel)
  {
    if links != [] {
      assert links[0].rel.Some?;
      RulesAgreeWithRels(links[1..]);
    }
  }

  /** The rules agree whenever every usable link without rel comes after a
      usable alternate link: both then settle on the first alternate one. */
  lemma {:induction false} RulesAgreeAlternateFirst(links: seq<Link>)
    requires forall i :: 0 <= i < |links| && links[i].rel.None? && links[i].href != "" ==>
               exists j :: 0 <= j < i && Usable(links[j], AlternateRel)
    ensures FirstLink(links, AlternateRel) == FirstLink(links, AlternateOrMissingRel)
  {
    if links != [] && !Usable(links[0], AlternateRel) {
      var t := links[1..];
      forall i | 0 <= i < |t| && t[i].rel.None? && t[i].href != ""
        ensures exists j :: 0 <= j < i && Usable(t[j], AlternateRel)
      {
        assert links[i + 1] == t[i];
        var j :| 0 <= j < i + 1 && Usable(links[j], AlternateRel);
        assert t[j - 1] == links[j];
      }
      RulesAgreeAlternateFirst(t);
    }
  }

  /** A link without rel that comes first decides Substack's choice but not
      Medium's. */
  lemma MissingRelDiffers(h: string, k: string)
    requires h != "" && k != "" && h != k
    ensures FirstLink([Link(None, h), Link(Some("alternate"), k)], AlternateOrMissingRel) == Some(h)
    ensures FirstLink([Link(None, h), Link(Some("alternate"), k)], AlternateRel) == Some(k)
  {
    var links := [Link(None, h), Link(Some("alternate"), k)];
    assert links[1..] == [Link(Some("alternate"), k)];
  }

  // ---- dates: `datetime.date(*published_parsed[:3]).isoformat()`

  datatype CalendarDate = CalendarDate(year: int, month: int, day: int)

  predicate LeapYear(y: int) {
    y % 4 == 0 && (y % 100 != 0 || y % 400 == 0)
  }

  function DaysInMonth(y: int, m: int): int
    requires 1 <= m <= 12
  {
    if m == 2 then (if LeapYear(y) then 29 else 28)
    else if m == 4 || m == 6 || m == 9 || m == 11 then 30
    else 31
  }

  /** What `datetime.date` accepts (`MINYEAR` 1 to `MAXYEAR` 9999); any other
      triple raises `ValueError`. */
  predicate ValidDate(d: CalendarDate) {
    1 <= d.year <= 9999 && 1 <= d.month <= 12 && 1 <= d.day <= DaysInMonth(d.year, d.month)
  }

  function DigitChar(k: nat): (c: char)
    requires k < 10
    ensures IsDigit(c)
  {
    ('0' as int + k) as char
  }

  function DigitValue(c: char): (k: nat)
    requires IsDigit(c)
    ensures k < 10
  {
    c as int - '0' as int
  }

  function Pow10(w: nat): (p: nat)
    ensures p >= 1
  {
    if w == 0 then 1 else 10 * Pow10(w - 1)
  }

  /** The last w decimal digits of n, zero-padded: `"%0*d" % (w, n)` when n
      has at most w digits. */
  function Fixed(n: nat, w: nat): (r: string)
    ensures |r| == w && AllDigits(r)
  {
    if w == 0 then [] else Fixed(n / 10, w - 1) + [DigitChar(n % 10)]
  }

  /** The number a string of decimal digits denotes. */
  function DigitsValue(s: string): (v: nat)
    requires AllDigits(s)
    ensures v < Pow10(|s|)
  {
    if s == [] then 0 else DigitsValue(s[..|s| - 1]) * 10 + DigitValue(s[|s| - 1])
  }

  /** Reading the padded digits back gives the number. */
  lemma {:induction false} FixedRoundTrip(n: nat, w: nat)
    requires n < Pow10(w)
    ensures DigitsValue(Fixed(n, w)) == n
  {
    if w > 0 {
      var r := Fixed(n, w);
      assert n / 10 < Pow10(w - 1);
      FixedRoundTrip(n / 10, w - 1);
      assert r[..w - 1] == Fixed(n / 10, w - 1);
      assert DigitValue(r[w - 1]) == n % 10;
    }
  }

  /** `date.isoformat()`: "YYYY-MM-DD". */
  function IsoFormat(d: CalendarDate): (r: string)
    requires ValidDate(d)
    ensures |r| == 10 && r[4] == '-' && r[7] == '-'
    ensures r[..4] == Fixed(d.year, 4)
  {
    Fixed(d.year, 4) + "-" + Fixed(d.month, 2) + "-" + Fixed(d.day, 2)
  }

  /** Reading an ISO date string back, as `date.fromisoformat` does for the
      "YYYY-MM-DD" form. */
  function ParseIso(s: string): (r: Option<CalendarDate>)
    ensures r.Some? ==> |s| == 10
  {
    if |s| == 10 && s[4] == '-' && s[7] == '-'
       && AllDigits(s[..4]) && AllDigits(s[5..7]) && AllDigits(s[8..])
    then
      var d := CalendarDate(DigitsValue(s[..4]), DigitsValue(s[5..7]), DigitsValue(s[8..]));
      if ValidDate(d) then Some(d) else None
    else None
  }

  lemma IsoRoundTrip(d: CalendarDate)
    requires ValidDate(d)
    ensures ParseIso(IsoFormat(d)) == Some(d)
  {
    var s := IsoFormat(d);
    assert s[..4] == Fixed(d.year, 4);
    assert s[5..7] == Fixed(d.month, 2);
    assert s[8..] == Fixed(d.day, 2);
    FixedRoundTrip(d.year, 4);
    FixedRoundTrip(d.month, 2);
    FixedRoundTrip(d.day, 2);
  }

  /** The eight digits "YYYYMMDD" of a date. */
  function DateDigits(d: CalendarDate): (r: string)
    requires ValidDate(d)
    ensures |r| == 8 && AllDigits(r)
  {
    Fixed(d.year, 4) + Fixed(d.month, 2) + Fixed(d.day, 2)
  }

  /** `date_str.replace('-', '')` is the date's eight digits. */
  lemma UndashedIso(d: CalendarDate)
    requires ValidDate(d)
    ensures RemoveDashes(IsoFormat(d)) == DateDigits(d)
  {
    UndashedTriple(Fixed(d.year, 4), Fixed(d.month, 2), Fixed(d.day, 2));
  }

  // ---- id and paths

  /** Where an imported entry goes. */
  datatype EntryNames = EntryNames(id: string, entryDir: string, entryFile: string, mirrorFile: string)

  /** `nid = f"{prefix}{date_str.replace('-','')}-{slug}"`, the content
      directory `content/<year>/<slug>`, its `index.md`, and the plain mirror
      `plain/<nid>.txt`. */
  function Names(prefix: string, d: CalendarDate, slug: string): (r: EntryNames)
    requires ValidDate(d)
    ensures r.id == prefix + DateDigits(d) + "-" + slug
    ensures r.entryDir == "content/" + Fixed(d.year, 4) + "/" + slug
    ensures r.entryFile == r.entryDir + "/index.md"
    ensures r.mirrorFile == "plain/" + PlainMirrorName(r.id)
  {
    var dateStr := IsoFormat(d);
    var nid := prefix + RemoveDashes(dateStr) + "-" + slug;
    var dir := "content/" + dateStr[..4] + "/" + slug;
    UndashedIso(d);
    EntryNames(nid, dir, dir + "/index.md", "plain/" + nid + ".txt")
  }

  /** The id carries the date: its eight digits after the prefix read back as
      year, month and day, and the slug follows the dash. */
  lemma IdEncodesDate(prefix: string, d: CalendarDate, slug: string)
    requires ValidDate(d)
    ensures var id := Names(prefix, d, slug).id; var p := |prefix|;
      && |id| == p + 9 + |slug| && id[..p] == prefix && id[p + 8] == '-' && id[p + 9..] == slug
      && AllDigits(id[p..p + 8])
      && DigitsValue(id[p..p + 4]) == d.year
      && DigitsValue(id[p + 4..p + 6]) == d.month
      && DigitsValue(id[p + 6..p + 8]) == d.day
  {
    var id := Names(prefix, d, slug).id;
    var p := |prefix|;
    var digits := DateDigits(d);
    assert id == prefix + digits + "-" + slug;
    assert id[p..p + 8] == digits;
    assert id[p..p + 4] == digits[..4];
    assert id[p + 4..p + 6] == digits[4..6];
    assert id[p + 6..p + 8] == digits[6..8];
    DateDigitsValues(d);
  }

  /** The eight digits read back as the year, the month and the day. */
  lemma DateDigitsValues(d: CalendarDate)
    requires ValidDate(d)
    ensures var s := DateDigits(d);
      && DigitsValue(s[..4]) == d.year && DigitsValue(s[4..6]) == d.month && DigitsValue(s[6..8]) == d.day
  {
    var y, m, dd := Fixed(d.year, 4), Fixed(d.month, 2), Fixed(d.day, 2);
    var s := DateDigits(d);
    assert s == y + m + dd;
    assert s[..4] == y;
    assert s[4..6] == m;
    assert s[6..8] == dd;
    FixedRoundTrip(d.year, 4);
    FixedRoundTrip(d.month, 2);
    FixedRoundTrip(d.day, 2);
  }

  // ---- tags

  /** One item of an entry's `tags`: a dictionary, or any other value. */
  datatype Tag = TagDict(fields: map<string, string>) | TagValue(value: string)

  /** `t.get("term") if isinstance(t, dict) else t`; a dictionary without a
      term gives None. */
  function TermOf(t: Tag): Option<string> {
    match t
    case TagDict(f) => if "term" in f then Some(f["term"]) else None
    case TagValue(v) => Some(v)
  }

  /** The `tags` front-matter list: one term per tag, in order; a missing or
      empty list (given as []) gives []. */
  function MapTags(tags: seq<Tag>): (r: seq<Option<string>>)
    ensures |r| == |tags|
    ensures forall i :: 0 <= i < |tags| ==> r[i] == TermOf(tags[i])
  {
    if tags == [] then [] else MapTags(tags[..|tags| - 1]) + [TermOf(tags[|tags| - 1])]
  }

  // ---- the whitespace passes of the plain-mirror cleanup

  /** The length of the newline-free tail of s. */
  function TailAfterNewline(s: string): (n: nat)
    ensures n <= |s|
    ensures forall i :: |s| - n <= i < |s| ==> s[i] != '\n'
    ensures n < |s| ==> s[|s| - 1 - n] == '\n'
  {
    if s != [] && s[|s| - 1] != '\n' then 1 + TailAfterNewline(s[..|s| - 1]) else 0
  }

  /** What `\s+\n` does to one maximal whitespace run: the run up to its last
      newline becomes a single newline. (A run whose only newline is its
      first character does not match, and is left as it is, which is the
      same string.) */
  function FoldRun(run: string): (r: string)
    requires AllSpace(run)
    ensures AllSpace(r) && (r == [] <==> run == [])
    ensures '\n' !in run ==> r == run
    ensures '\n' in run ==> '\n' in r
  {
    var n := TailAfterNewline(run);
    if n < |run| then "\n" + run[|run| - n..] else run
  }

  /** `re.sub(r"\s+\n", "\n", s)`: each maximal whitespace run is rewritten
      on its own. */
  function FoldNewlineRuns(s: string): (r: string)
    decreases |s|
  {
    if s == [] then []
    else if IsSpace(s[0]) then
      var n := LeadingSpace(s);
      FoldRun(s[..n]) + FoldNewlineRuns(s[n..])
    else [s[0]] + FoldNewlineRuns(s[1..])
  }

  /** Replacing a whitespace prefix by another keeps the content. */
  lemma SqueezeReplaceSpace(w: string, w': string, t: string, t': string)
    requires AllSpace(w) && AllSpace(w') && Squeeze(t) == Squeeze(t')
    ensures Squeeze(w + t) == Squeeze(w' + t')
  {
    SqueezeAppend(w, t);
    SqueezeAppend(w', t');
    SqueezeAllSpace(w);
    SqueezeAllSpace(w');
  }

  lemma SqueezeCons(c: char, t: string, t': string)
    requires Squeeze(t) == Squeeze(t')
    ensures Squeeze([c] + t) == Squeeze([c] + t')
  {
    SqueezeAppend([c], t);
    SqueezeAppend([c], t');
  }

  /** What the `\s+\n` pass keeps of s in r: the words, emptiness, both
      ends when they are not whitespace, and all of a text without newline. */
  predicate Kept(s: string, r: string) {
    && Squeeze(r) == Squeeze(s)
    && (r == [] <==> s == [])
    && (s != [] && !IsSpace(s[0]) ==> r != [] && r[0] == s[0])
    && (s != [] && !IsSpace(s[|s| - 1]) ==> r != [] && r[|r| - 1] == s[|s| - 1])
    && ('\n' !in s ==> r == s)
  }

  /** FoldNewlineRuns rewrites only whitespace, keeps both ends when they are
      not whitespace, and changes nothing in a text without a newline. */
  lemma {:induction false} FoldNewlineRunsSpec(s: string)
    ensures Kept(s, FoldNewlineRuns(s))
    decreases |s|
  {
    if s != [] {
      if IsSpace(s[0]) {
        var n := LeadingSpace(s);
        FoldNewlineRunsSpec(s[n..]);
        FoldSpaceStep(s, n);
      } else {
        FoldNewlineRunsSpec(s[1..]);
        FoldCharStep(s);
      }
    }
  }

  /** A leading non-space character is copied and the rest is folded. */
  lemma FoldCharStep(s: string)
    requires s != [] && !IsSpace(s[0]) && Kept(s[1..], FoldNewlineRuns(s[1..]))
    ensures Kept(s, FoldNewlineRuns(s))
  {
    var rest := FoldNewlineRuns(s[1..]);
    assert FoldNewlineRuns(s) == [s[0]] + rest;
    SqueezeCons(s[0], rest, s[1..]);
    assert s == [s[0]] + s[1..];
  }

  /** A leading whitespace run is folded on its own and the rest after it. */
  lemma FoldSpaceStep(s: string, n: nat)
    requires s != [] && IsSpace(s[0]) && n == LeadingSpace(s)
    requires Kept(s[n..], FoldNewlineRuns(s[n..]))
    ensures Kept(s, FoldNewlineRuns(s))
  {
    FoldRunParts(s, n);
    KeptAppend(s[..n], s[n..], FoldRun(s[..n]), FoldNewlineRuns(s[n..]));
  }

  /** A non-empty whitespace run, rewritten into whitespace that is empty
      exactly when it is, in front of a kept text keeps the whole. */
  lemma KeptAppend(w: string, t: string, w': string, t': string)
    requires w != [] && AllSpace(w) && AllSpace(w') && w' != []
    requires '\n' !in w ==> w' == w
    requires Kept(t, t')
    ensures Kept(w + t, w' + t')
  {
    SqueezeReplaceSpace(w', w, t', t);
    var s, r := w + t, w' + t';
    if !IsSpace(s[|s| - 1]) {
      assert t != [] && s[|s| - 1] == t[|t| - 1];
      assert r[|r| - 1] == t'[|t'| - 1];
    }
    if '\n' !in s {
      assert '\n' !in w && '\n' !in t by {
        assert forall i :: 0 <= i < |w| ==> w[i] == s[i];
        assert forall i :: 0 <= i < |t| ==> t[i] == s[|w| + i];
      }
    }
  }

  /** Removing carriage returns before or after the `\s+\n` pass leaves the
      same words: a folded run keeps a newline exactly when it had one. */
  lemma {:induction false} FoldNewlineRunsWords(s: string)
    ensures SameWords(RemoveChar(FoldNewlineRuns(s), '\r'), RemoveChar(s, '\r'))
    decreases |s|
  {
    if s != [] {
      if IsSpace(s[0]) {
        var n := LeadingSpace(s);
        FoldNewlineRunsWords(s[n..]);
        FoldRunWords(s, n);
      } else {
        FoldNewlineRunsWords(s[1..]);
        var rest := FoldNewlineRuns(s[1..]);
        assert FoldNewlineRuns(s) == [s[0]] + rest;
        assert RemoveChar([s[0]] + rest, '\r') == [s[0]] + RemoveChar(rest, '\r') by {
          assert ([s[0]] + rest)[1..] == rest;
        }
        assert RemoveChar(s, '\r') == [s[0]] + RemoveChar(s[1..], '\r');
        WordsCongruence([s[0]], RemoveChar(rest, '\r'), RemoveChar(s[1..], '\r'));
      }
    }
  }

  /** One folded whitespace run in front of a text with the same words. */
  lemma FoldRunWords(s: string, n: nat)
    requires s != [] && IsSpace(s[0]) && n == LeadingSpace(s)
    requires SameWords(RemoveChar(FoldNewlineRuns(s[n..]), '\r'), RemoveChar(s[n..], '\r'))
    ensures SameWords(RemoveChar(FoldNewlineRuns(s), '\r'), RemoveChar(s, '\r'))
  {
    FoldRunParts(s, n);
    SwapRemovedRun(s[..n], FoldRun(s[..n]), FoldNewlineRuns(s[n..]), s[n..]);
  }

  /** How FoldNewlineRuns splits s at the end of its leading whitespace run. */
  lemma FoldRunParts(s: string, n: nat)
    requires s != [] && IsSpace(s[0]) && n == LeadingSpace(s)
    ensures AllSpace(s[..n]) && s == s[..n] + s[n..]
    ensures FoldNewlineRuns(s) == FoldRun(s[..n]) + FoldNewlineRuns(s[n..])
  {
    SplitAt(s, n);
    LeadingRun(s);
    FoldRunUnfold(s, n);
  }

  lemma FoldRunUnfold(s: string, n: nat)
    requires s != [] && IsSpace(s[0]) && n == LeadingSpace(s) && AllSpace(s[..n])
    ensures FoldNewlineRuns(s) == FoldRun(s[..n]) + FoldNewlineRuns(s[n..])
  {
  }

  /** Replacing a whitespace run by its folded form, with '\r' removed on
      both sides, keeps the words of what follows. */
  lemma SwapRemovedRun(w: string, w': string, t': string, t: string)
    requires AllSpace(w) && AllSpace(w')
    requires '\n' !in w ==> w' == w
    requires '\n' in w ==> '\n' in w'
    requires SameWords(RemoveChar(t', '\r'), RemoveChar(t, '\r'))
    ensures SameWords(RemoveChar(w' + t', '\r'), RemoveChar(w + t, '\r'))
  {
    RemoveCharAppend(w', t', '\r');
    RemoveCharAppend(w, t, '\r');
    if '\n' in w {
      RemovedNewlineRun(w);
      RemovedNewlineRun(w');
      WordsSwapSpace(RemoveChar(w', '\r'), RemoveChar(t', '\r'), RemoveChar(w, '\r'), RemoveChar(t, '\r'));
    } else {
      WordsCongruence(RemoveChar(w, '\r'), RemoveChar(t', '\r'), RemoveChar(t, '\r'));
    }
  }

  /** A whitespace run holding a newline is still a nonempty whitespace run
      once '\r' is removed. */
  lemma RemovedNewlineRun(w: string)
    requires AllSpace(w) && '\n' in w
    ensures AllSpace(RemoveChar(w, '\r')) && RemoveChar(w, '\r') != []
  {
    RemoveCharKeeps(w, '\r', '\n');
    RemoveSpaceAllSpace(w, '\r');
  }

  /** The length of the newline run at the front of s. */
  function NewlineRun(s: string): (n: nat)
    ensures n <= |s|
    ensures forall i :: 0 <= i < n ==> s[i] == '\n'
    ensures n < |s| ==> s[n] != '\n'
  {
    if s != [] && s[0] == '\n' then 1 + NewlineRun(s[1..]) else 0
  }

  /** `re.sub(r"\n{3,}", "\n\n", s)`: a run of three or more newlines
      becomes two. */
  function CapNewlines(s: string): (r: string)
    decreases |s|
  {
    if s == [] then []
    else if s[0] == '\n' then
      var n := NewlineRun(s);
      (if n >= 3 then "\n\n" else s[..n]) + CapNewlines(s[n..])
    else [s[0]] + CapNewlines(s[1..])
  }

  /** What the `\n{3,}` pass keeps of s in r: the words, emptiness, both
      ends when they are not newlines, and all of a text without newline. */
  predicate CapKept(s: string, r: string) {
    && Squeeze(r) == Squeeze(s)
    && (r == [] <==> s == [])
    && (s != [] && s[0] != '\n' ==> r != [] && r[0] == s[0])
    && (s != [] && s[|s| - 1] != '\n' ==> r != [] && r[|r| - 1] == s[|s| - 1])
    && ('\n' !in s ==> r == s)
  }

  lemma {:induction false} CapNewlinesSpec(s: string)
    ensures CapKept(s, CapNewlines(s))
    decreases |s|
  {
    if s != [] {
      if s[0] == '\n' {
        var n := NewlineRun(s);
        CapNewlinesSpec(s[n..]);
        CapRunStep(s, n);
      } else {
        CapNewlinesSpec(s[1..]);
        CapCharStep(s);
      }
    }
  }

  /** The `\n{3,}` pass keeps the words: a capped run is still whitespace. */
  lemma {:induction false} CapNewlinesWords(s: string)
    ensures SameWords(CapNewlines(s), s)
    decreases |s|
  {
    if s != [] {
      if s[0] == '\n' {
        var n := NewlineRun(s);
        CapNewlinesWords(s[n..]);
        var run' := if n >= 3 then "\n\n" else s[..n];
        CapRunParts(s, n);
        assert AllSpace(s[..n]) && AllSpace(run') by {
          assert IsSpace('\n');
        }
        WordsSwapSpace(run', CapNewlines(s[n..]), s[..n], s[n..]);
      } else {
        CapNewlinesWords(s[1..]);
        assert CapNewlines(s) == [s[0]] + CapNewlines(s[1..]);
        assert s == [s[0]] + s[1..];
        WordsCongruence([s[0]], CapNewlines(s[1..]), s[1..]);
      }
    }
  }

  /** A leading character other than a newline is copied. */
  lemma CapCharStep(s: string)
    requires s != [] && s[0] != '\n' && CapKept(s[1..], CapNewlines(s[1..]))
    ensures CapKept(s, CapNewlines(s))
  {
    var rest := CapNewlines(s[1..]);
    assert CapNewlines(s) == [s[0]] + rest;
    SqueezeCons(s[0], rest, s[1..]);
    assert s == [s[0]] + s[1..];
  }

  /** A leading newline run is capped at two and the rest after it. */
  lemma CapRunStep(s: string, n: nat)
    requires s != [] && s[0] == '\n' && n == NewlineRun(s)
    requires CapKept(s[n..], CapNewlines(s[n..]))
    ensures CapKept(s, CapNewlines(s))
  {
    var run' := if n >= 3 then "\n\n" else s[..n];
    CapRunParts(s, n);
    CapAppend(s[..n], s[n..], run', CapNewlines(s[n..]));
  }

  /** How CapNewlines splits s at the end of its leading newline run. */
  lemma CapRunParts(s: string, n: nat)
    requires s != [] && s[0] == '\n' && n == NewlineRun(s)
    ensures s[..n] != [] && forall i :: 0 <= i < n ==> s[..n][i] == '\n'
    ensures s == s[..n] + s[n..]
    ensures CapNewlines(s) == (if n >= 3 then "\n\n" else s[..n]) + CapNewlines(s[n..])
  {
  }

  /** A non-empty newline run, rewritten into non-empty whitespace, in front
      of a kept text keeps the whole. */
  lemma CapAppend(w: string, t: string, w': string, t': string)
    requires w != [] && (forall i :: 0 <= i < |w| ==> w[i] == '\n') && AllSpace(w')
    requires w' != [] && CapKept(t, t')
    ensures CapKept(w + t, w' + t')
  {
    assert AllSpace(w);
    SqueezeReplaceSpace(w', w, t', t);
    var s, r := w + t, w' + t';
    if s[|s| - 1] != '\n' {
      assert t != [] && s[|s| - 1] == t[|t| - 1];
      assert r[|r| - 1] == t'[|t'| - 1];
    }
    assert s[0] == '\n';
  }

  /** `re.sub(r"(?m)^\s*$", "\n", s)` on a string without a newline: a blank
      string becomes "\n", anything else has no blank line and is kept. */
  function BlankToNewline(s: string): (r: string)
    requires '\n' !in s
    ensures r == "\n" || r == s
    ensures r == "\n" <==> AllSpace(s)
  {
    if AllSpace(s) then "\n" else s
  }

  /** The common tail of both cleanups: collapse, then mark a blank result. */
  function CollapseAndMark(t: string): (r: string)
    ensures AllSpace(t) <==> r == "\n"
    ensures !AllSpace(t) ==> SingleSpaced(r) && Squeeze(r) == Squeeze(t) && r != []
    ensures !AllSpace(t) && Trimmed(t) ==> Trimmed(r)
    ensures Words(r) == Words(t)
  {
    var c := CollapseSpace(t);
    CollapseSpaceWords(t);
    assert AllSpace(t) ==> Words(t) == [] by {
      if AllSpace(t) {
        assert t + [] == t;
        WordsDropSpace(t, []);
      }
    }
    assert Words("\n") == [];
    assert '\n' !in c by {
      assert forall i :: 0 <= i < |c| ==> c[i] != '\n';
    }
    SqueezeAllSpace(c);
    SqueezeAllSpace(t);
    BlankToNewline(c)
  }

  /** A single-spaced trimmed text goes through the tail unchanged. */
  lemma CollapseAndMarkFixed(t: string)
    requires SingleSpaced(t) && Trimmed(t) && !AllSpace(t)
    ensures CollapseAndMark(t) == t
  {
    CollapseSingleSpaced(t);
  }

  /** A string with single plain spaces has no line break. */
  lemma SingleSpacedNoBreaks(s: string)
    requires SingleSpaced(s)
    ensures '\n' !in s && '\r' !in s
  {
    assert forall i :: 0 <= i < |s| ==> s[i] != '\n' && s[i] != '\r';
  }

  // ---- one feed entry

  /** The fields of a feed entry the importers read; a missing string field
      is "" (every such field is used through `or`, where the two agree). */
  datatype Entry = Entry(
    title: string, summary: string, link: string, id: string,
    links: seq<Link>, tags: seq<Tag>,
    published: Option<CalendarDate>,   // `published_parsed[:3]`
    updated: Option<CalendarDate>)     // `updated_parsed[:3]`

  /** `published_parsed or updated_parsed`, else `datetime.date.today()`. */
  function EntryDate(e: Entry, today: CalendarDate): (d: CalendarDate)
    ensures e.published.Some? ==> d == e.published.value
    ensures e.published.None? && e.updated.Some? ==> d == e.updated.value
    ensures e.published.None? && e.updated.None? ==> d == today
  {
    e.published.GetOr(e.updated.GetOr(today))
  }

  /** The Markdown body: the converted HTML, or else the stripped summary. */
  function Body(bodyMd: string, summary: string): (b: string)
    ensures bodyMd != "" ==> b == bodyMd
    ensures bodyMd == "" ==> b == Strip(summary)
  {
    if bodyMd != "" then bodyMd else Strip(summary)
  }

  const FeedLanguage: string := "en"
  const FeedLicense: string := "CC-BY-4.0"
  const OriginalFormat: string := "html"

  /** The front matter an importer writes. */
  datatype FeedFrontMatter = FeedFrontMatter(
    id: string, title: string, date: string,
    sourceName: string, sourceUrl: string,
    canonicalUrl: string, tags: seq<Option<string>>,
    language: string, license: string, originalFormat: string)

  /** What `process_entry` does with one entry: the exception the run loop
      reports for an impossible date, the skip of an existing entry, or the
      two files written. */
  datatype Outcome =
    | Failed
    | Skipped(id: string)
    | Written(names: EntryNames, frontMatter: FeedFrontMatter, body: string, mirrorText: string)
}

=== FILE: medium.dfy ===
/** `scripts/import_medium.py`: one Medium feed entry becomes a content entry
    `content/<year>/<slug>/index.md` and a plain mirror `plain/md-<ymd>-<slug>.txt`. */
module Medium {
  import opened Wrappers
  import opened Text
  import opened Docs
  import opened Feeds
  import Corpus

  const IdPrefix: string := "md-"
  const Source: string := "Medium"

  /** The canonical-URL loop as written: start from "", take the first
      alternate link with an href and stop, then fall back to the entry's
      link (or id). */
  method Canonical(link: string, id: string, links: seq<Link>) returns (canonical: string)
    ensures canonical == CanonicalUrl(link, id, links, AlternateRel)
  {
    canonical := "";
    var i := 0;
    while i < |links|
      invariant 0 <= i <= |links|
      invariant canonical == ""
      invariant FirstLink(links, AlternateRel) == FirstLink(links[i..], AlternateRel)
    {
      assert links[i..][1..] == links[i + 1..];
      if AlternateRel(links[i].rel) && links[i].href != "" {
        canonical := links[i].href;
        break;
      }
      i := i + 1;
    }
    if canonical == "" {
      canonical := Or(link, id);
    }
  }

  /** The passes before the collapse: `\s+\n` to "\n", "\r" removed, three or
      more newlines to two. */
  function Passes(t: string): string {
    CapNewlines(RemoveChar(FoldNewlineRuns(t), '\r'))
  }

  /** The passes only rewrite whitespace, and a trimmed text stays trimmed. */
  lemma PassesSpec(t: string)
    requires Trimmed(t)
    ensures Squeeze(Passes(t)) == Squeeze(t)
    ensures Trimmed(Passes(t))
  {
    var a := FoldNewlineRuns(t);
    var b := RemoveChar(a, '\r');
    FoldNewlineRunsSpec(t);
    CapNewlinesSpec(b);
  }

  /** The passes keep the words left once "\r" is removed. */
  lemma PassesWords(t: string)
    ensures Words(Passes(t)) == Words(RemoveChar(t, '\r'))
  {
    FoldNewlineRunsWords(t);
    CapNewlinesWords(RemoveChar(FoldNewlineRuns(t), '\r'));
  }

  /** A single-spaced trimmed text goes through the passes unchanged. */
  lemma PassesFixed(t: string)
    requires SingleSpaced(t)
    ensures Passes(t) == t
  {
    SingleSpacedNoBreaks(t);
    FoldNewlineRunsSpec(t);
    CapNewlinesSpec(t);
  }

  /** The plain mirror written at line 159: a blank body gives "\n";
      otherwise the body's words with single plain spaces between them, no
      line break and nothing around them. */
  function PlainMirror(content: string): (r: string)
    ensures r != ""
    ensures AllSpace(content) <==> r == "\n"
    ensures !AllSpace(content) ==> Trimmed(r) && SingleSpaced(r) && Squeeze(r) == Squeeze(content)
    // the words are the body's, split at every whitespace run; only a removed
    // "\r" joins the characters on either side
    ensures Words(r) == Words(RemoveChar(content, '\r'))
  {
    var t := Strip(content);
    StripRemoveWords(content, '\r');
    PassesWords(t);
    PassesSpec(t);
    SqueezeAllSpace(t);
    SqueezeAllSpace(content);
    SqueezeAllSpace(Passes(t));
    CollapseAndMark(Passes(t))
  }

  /** The mirror has no line break except the lone "\n" of a blank body. */
  lemma PlainMirrorOneLine(content: string)
    ensures PlainMirror(content) == "\n" || ('\n' !in PlainMirror(content) && '\r' !in PlainMirror(content))
  {
    if !AllSpace(content) {
      SingleSpacedNoBreaks(PlainMirror(content));
    }
  }

  /** Cleaning a mirror again changes nothing. */
  lemma PlainMirrorIdempotent(content: string)
    ensures PlainMirror(PlainMirror(content)) == PlainMirror(content)
  {
    var r := PlainMirror(content);
    if r == "\n" {
      assert AllSpace(r);
    } else {
      SqueezeAllSpace(r);
      SqueezeAllSpace(content);
      assert !AllSpace(r);
      StripTrimmed(r);
      PassesFixed(r);
      CollapseAndMarkFixed(r);
    }
  }

  /** `process_entry` for a Medium entry. The fetched and converted HTML is
      the parameter `bodyMd`, `slugify` stands for `slugify(title,
      max_length=80)`, and `entryExists` says whether `index.md` is there. */
  function ProcessEntry(e: Entry, feedUrl: string, today: CalendarDate, slugify: string -> string,
                        bodyMd: string, entryExists: bool, force: bool): (r: Outcome)
    ensures r == Failed <==> !ValidDate(EntryDate(e, today))
    ensures r.Skipped? <==> ValidDate(EntryDate(e, today)) && entryExists && !force
    ensures r.Written? <==> ValidDate(EntryDate(e, today)) && (!entryExists || force)
    ensures r.Skipped? ==> r.id == IdPrefix + DateDigits(EntryDate(e, today)) + "-"
                                     + slugify(NormalizeTitle(TitleText(e.title, e.summary)))
  {
    var date := EntryDate(e, today);
    if !ValidDate(date) then Failed
    else
      var title := NormalizeTitle(TitleText(e.title, e.summary));
      var names := Names(IdPrefix, date, slugify(title));
      if entryExists && !force then Skipped(names.id)
      else
        var dateStr := IsoFormat(date);
        var fm := FeedFrontMatter(names.id, title, dateStr, Source, feedUrl,
                                  CanonicalUrl(e.link, e.id, e.links, AlternateRel), MapTags(e.tags),
                                  FeedLanguage, FeedLicense, OriginalFormat);
        var body := Body(bodyMd, e.summary);
        Written(names, fm, body, PlainMirror(body))
  }

  /** A written entry's title is normalised, its id is the prefix, the
      eight date digits and the slug of that title, its date string parses
      back to the entry's date, and its paths are named after the id, the
      year and the slug. */
  lemma WrittenNames(e: Entry, feedUrl: string, today: CalendarDate, slugify: string -> string,
                     bodyMd: string, entryExists: bool, force: bool)
    requires ValidDate(EntryDate(e, today)) && (!entryExists || force)
    ensures var r := ProcessEntry(e, feedUrl, today, slugify, bodyMd, entryExists, force);
      var fm := r.frontMatter;
      && fm.title == NormalizeTitle(TitleText(e.title, e.summary))
      && fm.id == IdPrefix + DateDigits(EntryDate(e, today)) + "-" + slugify(fm.title)
      && ParseIso(fm.date) == Some(EntryDate(e, today))
      && r.names.id == fm.id
      && r.names.mirrorFile == "plain/" + PlainMirrorName(fm.id)
      && r.names.entryDir == "content/" + fm.date[..4] + "/" + slugify(fm.title)
  {
    IsoRoundTrip(EntryDate(e, today));
  }

  /** The rest of a written entry's front matter and its two texts: the
      source, the canonical URL, the mapped tags, the fixed language, licence
      and format, the body, and the mirror cleaned from that body. */
  lemma WrittenFrontMatter(e: Entry, feedUrl: string, today: CalendarDate, slugify: string -> string,
                           bodyMd: string, entryExists: bool, force: bool)
    requires ValidDate(EntryDate(e, today)) && (!entryExists || force)
    ensures var r := ProcessEntry(e, feedUrl, today, slugify, bodyMd, entryExists, force);
      var fm := r.frontMatter;
      && fm.sourceName == Source && fm.sourceUrl == feedUrl
      && fm.canonicalUrl == CanonicalUrl(e.link, e.id, e.links, AlternateRel)
      && fm.tags == MapTags(e.tags)
      && fm.language == FeedLanguage && fm.license == FeedLicense && fm.originalFormat == OriginalFormat
      && r.body == Body(bodyMd, e.summary)
      && r.mirrorText == PlainMirror(r.body)
  {
  }

  /** What the dataset builder reads back: a front matter carrying the
      written id and source, next to the written mirror, loads as a document
      with that id, the source "Medium" and the mirror's text. */
  lemma WrittenEntryLoads(e: Entry, feedUrl: string, today: CalendarDate, slugify: string -> string,
                          bodyMd: string, entryExists: bool, force: bool,
                          loaded: Corpus.FrontMatter, dirName: string,
                          plain: string -> Option<string>, converted: string)
    requires ValidDate(EntryDate(e, today)) && (!entryExists || force)
    requires var r := ProcessEntry(e, feedUrl, today, slugify, bodyMd, entryExists, force);
      && loaded.id == r.frontMatter.id
      && loaded.source == Corpus.SourceMap(r.frontMatter.sourceName)
      && plain(PlainMirrorName(r.frontMatter.id)) == Some(r.mirrorText)
    ensures var r := ProcessEntry(e, feedUrl, today, slugify, bodyMd, entryExists, force);
      var d := Corpus.LoadPost(loaded, dirName, plain, converted);
      && d.id == r.frontMatter.id && d.source == Source && d.text == r.mirrorText
      && Rank(d) == 2
  {
    var r := ProcessEntry(e, feedUrl, today, slugify, bodyMd, entryExists, force);
    var fm := r.frontMatter;
    WrittenFrontMatter(e, feedUrl, today, slugify, bodyMd, entryExists, force);
    WrittenNames(e, feedUrl, today, slugify, bodyMd, entryExists, force);
    assert |fm.id| >= |IdPrefix|;
    Corpus.LoadWithMirror(loaded, dirName, plain, converted, fm.id, Source, r.mirrorText);
  }
}

=== FILE: mh_ingest.dfy ===
/** `scripts/ingest_mh_md.py`: Metaphor Hacker Markdown files named
    `YYYY-MM-DD-slug.md` become a content entry with completed front matter
    and a plain-text mirror named after the default id. */
module MhIngest {
  import opened Wrappers
  import opened Text
  import opened Docs

  // ---- FILENAME_RE

  /** The named groups of a matching file name. */
  datatype NameParts = NameParts(year: string, month: string, day: string, slug: string)

  /** `\.md` under IGNORECASE. */
  predicate IsMdExt(e: string) {
    |e| == 3 && e[0] == '.' && (e[1] == 'm' || e[1] == 'M') && (e[2] == 'd' || e[2] == 'D')
  }

  /** What the groups of a match satisfy: `\d{4}`, `\d{2}`, `\d{2}` and a
      `.+` slug (one or more characters, none a newline). */
  predicate WellFormed(p: NameParts) {
    && |p.year| == 4 && AllDigits(p.year)
    && |p.month| == 2 && AllDigits(p.month)
    && |p.day| == 2 && AllDigits(p.day)
    && p.slug != [] && '\n' !in p.slug
  }

  /** The file name a match describes, with extension ext. */
  function Render(p: NameParts, ext: string): string {
    p.year + "-" + p.month + "-" + p.day + "-" + p.slug + ext
  }

  /** The text that `$` lets the pattern end at: the name without one final
      newline. */
  function Unterminated(name: string): string {
    if name != [] && name[|name| - 1] == '\n' then name[..|name| - 1] else name
  }

  /** `FILENAME_RE.match(name)`: the date groups are the first ten
      characters, the slug is everything from there up to the final `.md`. */
  function ParseFilename(name: string): (r: Option<NameParts>)
    ensures r.Some? ==> WellFormed(r.value)
    ensures r.Some? ==> exists ext :: IsMdExt(ext) && Unterminated(name) == Render(r.value, ext)
  {
    var core := Unterminated(name);
    if |core| >= 15 && AllDigits(core[..4]) && core[4] == '-' && AllDigits(core[5..7]) && core[7] == '-'
       && AllDigits(core[8..10]) && core[10] == '-' && IsMdExt(core[|core| - 3..])
       && '\n' !in core[11..|core| - 3]
    then
      var p := NameParts(core[..4], core[5..7], core[8..10], core[11..|core| - 3]);
      assert core == Render(p, core[|core| - 3..]);
      Some(p)
    else None
  }

  /** Every well-formed name is accepted and its groups are recovered, with
      the extension in any letter case and with or without a final newline. */
  lemma ParseRender(p: NameParts, ext: string, nl: bool)
    requires WellFormed(p) && IsMdExt(ext)
    ensures ParseFilename(Render(p, ext) + (if nl then "\n" else "")) == Some(p)
  {
    var core := Render(p, ext);
    assert Unterminated(core + (if nl then "\n" else "")) == core;
    assert core[..4] == p.year && core[5..7] == p.month && core[8..10] == p.day;
    assert core[11..|core| - 3] == p.slug && core[|core| - 3..] == ext;
  }

  /** A name the pattern accepts is exactly a well-formed rendering. */
  lemma ParseSound(name: string)
    ensures ParseFilename(name).Some? <==>
            exists p, ext :: WellFormed(p) && IsMdExt(ext) && Unterminated(name) == Render(p, ext)
  {
    if p, ext :| WellFormed(p) && IsMdExt(ext) && Unterminated(name) == Render(p, ext) {
      var nl := name != [] && name[|name| - 1] == '\n';
      assert name == Render(p, ext) + (if nl then "\n" else "");
      ParseRender(p, ext, nl);
    }
  }

  // ---- names derived from the parts

  /** `f"{year}-{month}-{day}"`. */
  function DateStr(p: NameParts): string {
    p.year + "-" + p.month + "-" + p.day
  }

  const IdPrefix: string := "mh-"

  /** The id `enrich_front_matter` defaults to: `f"mh-{ymd}-{slug}"` with
      `ymd = date_str.replace("-", "")`. */
  function DefaultId(p: NameParts): string {
    IdPrefix + RemoveDashes(DateStr(p)) + "-" + p.slug
  }

  /** The plain mirror the script writes: `f"mh-{year}{month}{day}-{slug}.txt"`. */
  function MirrorFile(p: NameParts): string {
    IdPrefix + p.year + p.month + p.day + "-" + p.slug + ".txt"
  }

  /** `date_str.replace("-", "")` is the three digit groups run together. */
  lemma UndashedDate(p: NameParts)
    requires WellFormed(p)
    ensures RemoveDashes(DateStr(p)) == p.year + p.month + p.day
  {
    UndashedTriple(p.year, p.month, p.day);
  }

  /** The mirror is named after the default id, so the loader, which looks
      up `<id>.txt`, finds it whenever the id was defaulted. */
  lemma MirrorNamedAfterId(p: NameParts)
    requires WellFormed(p)
    ensures MirrorFile(p) == PlainMirrorName(DefaultId(p))
  {
    UndashedDate(p);
  }

  /** The loader, looking for `<id>.txt`, finds the mirror written for p
      exactly when the id is the default one. */
  lemma MirrorFoundExactly(p: NameParts, id: string)
    requires WellFormed(p)
    ensures PlainMirrorName(id) == MirrorFile(p) <==> id == DefaultId(p)
  {
    MirrorNamedAfterId(p);
    var d := DefaultId(p);
    if PlainMirrorName(id) == PlainMirrorName(d) {
      assert id == PlainMirrorName(id)[..|id|] == PlainMirrorName(d)[..|d|] == d;
    }
  }

  // ---- enrich_front_matter

  /** A front-matter value, as far as the script distinguishes them. */
  datatype Value =
    | Null                                  // YAML null
    | Str(s: string)
    | StrList(items: seq<string>)
    | Dict(entries: map<string, string>)
    | Scalar(truthy: bool)                  // numbers, booleans, dates

  /** Python truthiness of a value. */
  predicate Falsy(v: Value) {
    match v
    case Null => true
    case Str(s) => s == ""
    case StrList(items) => items == []
    case Dict(entries) => entries == map[]
    case Scalar(truthy) => !truthy
  }

  type FrontMatter = map<string, Value>

  /** The keys `enrich_front_matter` fills, in the order it fills them. */
  const EnrichKeys: seq<string> :=
    ["id", "date", "source", "canonical_url", "tags", "categories", "language", "license", "original_format"]

  const SiteName: string := "Metaphor Hacker"
  const SiteUrl: string := "https://metaphorhacker.net/"

  /** The value each key defaults to. */
  function DefaultFor(key: string, dateStr: string, slug: string): Value {
    match key
    case "id" => Str(IdPrefix + RemoveDashes(dateStr) + "-" + slug)
    case "date" => Str(dateStr)
    case "source" => Dict(map["name" := SiteName, "url" := SiteUrl])
    case "canonical_url" => Str("")
    case "tags" => StrList([])
    case "categories" => StrList([])
    case "language" => Str("en")
    case "license" => Str("CC-BY-4.0")
    case "original_format" => Str("md")
    case _ => Null
  }

  /** `fm.setdefault(key, value)` for each key in turn. */
  function SetDefaults(fm: FrontMatter, keys: seq<string>, dateStr: string, slug: string): (r: FrontMatter)
    ensures forall k :: k in r <==> k in fm || k in keys
    ensures forall k :: k in fm ==> r[k] == fm[k]
    ensures forall k :: k in r && k !in fm ==> r[k] == DefaultFor(k, dateStr, slug)
    decreases |keys|
  {
    if keys == [] then fm
    else
      var fm1 := if keys[0] in fm then fm else fm[keys[0] := DefaultFor(keys[0], dateStr, slug)];
      SetDefaults(fm1, keys[1..], dateStr, slug)
  }

  /** `enrich_front_matter(fm, date_str, slug)`. */
  function Enrich(fm: FrontMatter, dateStr: string, slug: string): FrontMatter {
    SetDefaults(fm, EnrichKeys, dateStr, slug)
  }

  /** Existing keys keep their values (even empty ones), all nine keys are
      present afterwards, and no other key appears or changes. */
  lemma EnrichSpec(fm: FrontMatter, dateStr: string, slug: string)
    ensures var r := Enrich(fm, dateStr, slug);
      && (forall k :: k in fm ==> k in r && r[k] == fm[k])
      && (forall i :: 0 <= i < |EnrichKeys| ==> EnrichKeys[i] in r)
      && (forall k :: k in r ==> k in fm || k in EnrichKeys)
      && (forall k :: k in r && k !in fm ==> r[k] == DefaultFor(k, dateStr, slug))
  {
  }

  /** The two keys a written entry relies on: the title survives
      enrichment, and an id is there, the default one when none was given. */
  lemma EnrichTitleAndId(fm: FrontMatter, dateStr: string, slug: string)
    requires "title" in fm
    ensures var r := Enrich(fm, dateStr, slug);
      && "title" in r && "id" in r
      && ("id" !in fm ==> r["id"] == Str(IdPrefix + RemoveDashes(dateStr) + "-" + slug))
      && (forall i :: 0 <= i < |EnrichKeys| ==> EnrichKeys[i] in r)
  {
    EnrichSpec(fm, dateStr, slug);
    assert EnrichKeys[0] == "id";
  }

  /** Setting defaults a second time finds every key present. */
  lemma SetDefaultsIdempotent(fm: FrontMatter, keys: seq<string>, dateStr: string, slug: string)
    ensures var r := SetDefaults(fm, keys, dateStr, slug);
            SetDefaults(r, keys, dateStr, slug) == r
  {
    var r := SetDefaults(fm, keys, dateStr, slug);
    var r2 := SetDefaults(r, keys, dateStr, slug);
    assert forall k :: k in r2 <==> k in r;
    assert forall k :: k in r ==> r2[k] == r[k];
  }

  /** Enriching twice is enriching once. */
  lemma EnrichIdempotent(fm: FrontMatter, dateStr: string, slug: string)
    ensures Enrich(Enrich(fm, dateStr, slug), dateStr, slug) == Enrich(fm, dateStr, slug)
  {
    SetDefaultsIdempotent(fm, EnrichKeys, dateStr, slug);
  }

  // ---- derive_title

  /** The largest j in [lo, hi) whose character is not a newline. */
  function LastNonNewline(s: string, lo: nat, hi: nat): (r: Option<nat>)
    requires lo <= hi <= |s|
    ensures r.Some? ==> lo <= r.value < hi && s[r.value] != '\n'
    ensures r.None? ==> forall j :: lo <= j < hi ==> s[j] == '\n'
    decreases hi
  {
    if hi <= lo then None
    else if s[hi - 1] != '\n' then Some(hi - 1)
    else LastNonNewline(s, lo, hi - 1)
  }

  /** `^\s*#\s+(.+)$` tried at line start p, group 1 stripped. `\s*` and
      `\s+` may run over newlines; when the whitespace after `#` reaches the
      end of the text, `\s+` gives back characters until `.+` can start on a
      character that is not a newline. */
  function HeadingAt(s: string, p: nat): (r: Option<string>)
    requires p <= |s|
    ensures r.Some? <==> HeadingMatch(s, p)
    ensures r.Some? ==> Trimmed(r.value) && '\n' !in r.value
  {
    var h := p + WsRun(s, p);
    if h == |s| || s[h] != '#' then None
    else
      var q := h + 1 + WsRun(s, h + 1);
      if q == h + 1 then None
      else if q < |s| then Some(LineText(s, q))
      else match LastNonNewline(s, h + 2, |s|)
        case None => None
        case Some(j) => Some(LineText(s, j))
  }

  /** The heading pattern matches at p: optional whitespace, `#`, at least
      one whitespace character, and then a character other than a newline. */
  predicate HeadingMatch(s: string, p: nat)
    requires p <= |s|
  {
    var h := p + WsRun(s, p);
    && h < |s| && s[h] == '#'
    && var q := h + 1 + WsRun(s, h + 1);
       q > h + 1 && (q < |s| || LastNonNewline(s, h + 2, |s|).Some?)
  }

  /** The rest of the line from q, stripped. */
  function LineText(s: string, q: nat): (r: string)
    requires q <= |s|
    ensures Trimmed(r) && '\n' !in r
  {
    var line := s[q..LineEnd(s, q)];
    StripSubseq(line);
    SubseqMember(Strip(line), line, '\n');
    Strip(line)
  }

  /** A heading matches at line start q. */
  predicate HeadingLine(s: string, q: nat) {
    q <= |s| && LineStart(s, q) && HeadingMatch(s, q)
  }

  /** The least q in [p, n] with f(q), trying them in order. */
  function FirstFrom(f: nat -> bool, p: nat, n: nat): (r: Option<nat>)
    requires p <= n
    ensures r.Some? ==> p <= r.value <= n && f(r.value)
    decreases n - p
  {
    if f(p) then Some(p)
    else if p == n then None
    else FirstFrom(f, p + 1, n)
  }

  /** A search from p that finds nothing passed over every q from p on. */
  lemma {:induction false} NoneSkips(f: nat -> bool, p: nat, n: nat, q: nat)
    requires p <= q <= n && FirstFrom(f, p, n).None?
    ensures !f(q)
    decreases q - p
  {
    if p < q {
      NoneSkips(f, p + 1, n, q);
    }
  }

  /** FirstFrom stops at the first q where f holds. */
  lemma {:induction false} FirstFromAt(f: nat -> bool, p: nat, n: nat, q: nat)
    requires p <= q <= n && f(q)
    requires forall q' :: p <= q' < q ==> !f(q')
    ensures FirstFrom(f, p, n) == Some(q)
    decreases q - p
  {
    if p < q {
      FirstFromAt(f, p + 1, n, q);
    }
  }

  /** HeadingLine as a predicate on positions. */
  function HeadingLines(s: string): nat -> bool {
    (q: nat) => HeadingLine(s, q)
  }

  /** Where `re.search` with `re.MULTILINE` finds the heading pattern, trying
      the line starts from p on in order. */
  function HeadingPos(s: string, p: nat): (r: Option<nat>)
    requires p <= |s|
    ensures r.Some? ==> p <= r.value <= |s| && HeadingLine(s, r.value)
  {
    FirstFrom(HeadingLines(s), p, |s|)
  }

  /** `re.search(r"^\s*#\s+(.+)$", body, flags=re.MULTILINE)` from p on,
      group 1 stripped. */
  function FirstHeading(s: string, p: nat): (r: Option<string>)
    requires p <= |s|
    ensures r.Some? ==> Trimmed(r.value) && '\n' !in r.value
  {
    match HeadingPos(s, p)
    case None => None
    case Some(q) => HeadingAt(s, q)
  }

  /** FirstHeading finds nothing exactly when no line from p on is a heading,
      and otherwise yields the text of the first heading line. */
  lemma FirstHeadingSpec(s: string, p: nat)
    requires p <= |s|
    ensures FirstHeading(s, p).None? <==> forall q :: p <= q <= |s| ==> !HeadingLine(s, q)
    ensures forall q :: p <= q <= |s| && HeadingLine(s, q) && (forall q' :: p <= q' < q ==> !HeadingLine(s, q')) ==>
              FirstHeading(s, p) == HeadingAt(s, q)
  {
    var f := HeadingLines(s);
    match HeadingPos(s, p) {
      case None =>
        forall q | p <= q <= |s|
          ensures !HeadingLine(s, q)
        {
          NoneSkips(f, p, |s|, q);
          assert !f(q);
        }
      case Some(q) =>
        assert HeadingLine(s, q);
    }
    forall q | p <= q <= |s| && HeadingLine(s, q) && (forall q' :: p <= q' < q ==> !HeadingLine(s, q'))
      ensures FirstHeading(s, p) == HeadingAt(s, q)
    {
      forall q' | p <= q' < q
        ensures !f(q')
      {
        assert !HeadingLine(s, q');
      }
      FirstFromAt(f, p, |s|, q);
    }
  }


  predicate IsSep(c: char) {
    c == '-' || c == '_'
  }

  /** The length of the run of `-`/`_` at the front of s. */
  function SepRun(s: string): (n: nat)
    ensures 0 < n <= |s| || (n == 0 && (s == [] || !IsSep(s[0])))
    ensures n < |s| ==> !IsSep(s[n])
    ensures forall i :: 0 <= i < n ==> IsSep(s[i])
  {
    if s != [] && IsSep(s[0]) then 1 + SepRun(s[1..]) else 0
  }

  /** `re.sub(r"[-_]+", " ", s)`. */
  function ReplaceSeps(s: string): (r: string)
    ensures '-' !in r && '_' !in r
    decreases |s|
  {
    if s == [] then []
    else if IsSep(s[0]) then " " + ReplaceSeps(s[SepRun(s)..])
    else [s[0]] + ReplaceSeps(s[1..])
  }

  function Upper(c: char): (r: char)
    ensures !('a' <= r <= 'z')
  {
    if 'a' <= c <= 'z' then (c as int - 32) as char else c
  }

  function Lower(c: char): (r: char)
    ensures !('A' <= r <= 'Z')
  {
    if 'A' <= c <= 'Z' then (c as int + 32) as char else c
  }

  function LowerAll(s: string): (r: string)
    ensures |r| == |s|
    ensures forall i :: 0 <= i < |s| ==> r[i] == Lower(s[i])
  {
    if s == [] then [] else [Lower(s[0])] + LowerAll(s[1..])
  }

  /** `str.capitalize()` on ASCII letters: the first character upper case,
      the rest lower case. */
  function Capitalize(s: string): (r: string)
    ensures |r| == |s|
    ensures s != [] ==> r[0] == Upper(s[0])
    ensures forall i :: 0 < i < |s| ==> r[i] == Lower(s[i])
    ensures forall i :: 0 <= i < |s| ==> (IsSpace(r[i]) <==> IsSpace(s[i])) && (IsSep(r[i]) <==> IsSep(s[i]))
  {
    if s == [] then [] else [Upper(s[0])] + LowerAll(s[1..])
  }

  /** The fallback title made from the slug. */
  function SlugTitle(slug: string): (r: string)
    ensures '-' !in r && '_' !in r
    ensures Trimmed(r)
    ensures r != [] ==> !('a' <= r[0] <= 'z')
    ensures forall i :: 0 < i < |r| ==> !('A' <= r[i] <= 'Z')
    ensures (forall i :: 0 <= i < |slug| ==> !IsSpace(slug[i])) ==> SingleSpaced(r)
  {
    var t := Strip(ReplaceSeps(slug));
    StripNoSep(ReplaceSeps(slug));
    CapitalizeNoSep(t);
    SlugTitleSpacing(slug);
    Capitalize(t)
  }

  /** Over a slug without whitespace, every separator run has become a
      single space that stripping and capitalising keep single. */
  lemma SlugTitleSpacing(slug: string)
    ensures (forall i :: 0 <= i < |slug| ==> !IsSpace(slug[i])) ==>
              SingleSpaced(Capitalize(Strip(ReplaceSeps(slug))))
  {
    if forall i :: 0 <= i < |slug| ==> !IsSpace(slug[i]) {
      ReplaceSepsRuns(slug);
      SepCollapseSingleSpaced(slug, false);
      StripSingleSpaced(ReplaceSeps(slug));
      CapitalizeSingleSpaced(Strip(ReplaceSeps(slug)));
    }
  }

  lemma CapitalizeSingleSpaced(t: string)
    requires SingleSpaced(t)
    ensures SingleSpaced(Capitalize(t))
  {
    var r := Capitalize(t);
    forall i | 0 <= i < |r| && IsSpace(r[i])
      ensures r[i] == ' '
    {
      assert t[i] == ' ';
    }
    forall i | 0 <= i < |r| - 1
      ensures !(IsSpace(r[i]) && IsSpace(r[i + 1]))
    {
      assert !(IsSpace(t[i]) && IsSpace(t[i + 1]));
    }
  }

  /** `[-_]+` replaced by " ", read one character at a time: afterSep says
      whether the previous character was a separator. A separator that opens
      a run gives one space, one inside a run gives nothing, and any other
      character is kept. */
  function SepCollapse(s: string, afterSep: bool): string {
    if s == [] then []
    else (if !IsSep(s[0]) then [s[0]] else if afterSep then [] else " ") + SepCollapse(s[1..], IsSep(s[0]))
  }

  /** `re.sub(r"[-_]+", " ", s)` turns each maximal separator run into
      exactly one space and keeps every other character in place. */
  lemma {:induction false} ReplaceSepsRuns(s: string)
    ensures ReplaceSeps(s) == SepCollapse(s, false)
    decreases |s|
  {
    if s != [] {
      if IsSep(s[0]) {
        var n := SepRun(s);
        ReplaceSepsRuns(s[n..]);
        InsideRun(s[1..], n - 1);
        assert s[1..][n - 1..] == s[n..];
      } else {
        ReplaceSepsRuns(s[1..]);
      }
    }
  }

  /** Inside a run, the rest of the run gives nothing. */
  lemma {:induction false} InsideRun(t: string, m: nat)
    requires m <= |t| && (forall i :: 0 <= i < m ==> IsSep(t[i])) && (m < |t| ==> !IsSep(t[m]))
    ensures SepCollapse(t, true) == SepCollapse(t[m..], false)
    decreases m
  {
    if m == 0 {
      assert t[m..] == t;
    } else {
      InsideRun(t[1..], m - 1);
      assert t[1..][m - 1..] == t[m..];
    }
  }

  /** Over text without whitespace the collapse is single-spaced, and after a
      separator it does not open with a space. */
  lemma {:induction false} SepCollapseSingleSpaced(s: string, afterSep: bool)
    requires forall i :: 0 <= i < |s| ==> !IsSpace(s[i])
    ensures SingleSpaced(SepCollapse(s, afterSep))
    ensures afterSep && SepCollapse(s, afterSep) != [] ==> !IsSpace(SepCollapse(s, afterSep)[0])
    decreases |s|
  {
    if s != [] {
      assert forall i :: 0 <= i < |s[1..]| ==> s[1..][i] == s[i + 1];
      SepCollapseSingleSpaced(s[1..], IsSep(s[0]));
      var rest := SepCollapse(s[1..], IsSep(s[0]));
      if !IsSep(s[0]) {
        SingleSpacedCons(s[0], rest);
      } else if !afterSep {
        SingleSpacedCons(' ', rest);
      }
    }
  }

  lemma StripNoSep(s: string)
    requires '-' !in s && '_' !in s
    ensures '-' !in Strip(s) && '_' !in Strip(s)
  {
    StripSubseq(s);
    SubseqMember(Strip(s), s, '-');
    SubseqMember(Strip(s), s, '_');
  }

  lemma CapitalizeNoSep(t: string)
    requires '-' !in t && '_' !in t && Trimmed(t)
    ensures '-' !in Capitalize(t) && '_' !in Capitalize(t) && Trimmed(Capitalize(t))
  {
    var r := Capitalize(t);
    assert forall i :: 0 <= i < |r| ==> !IsSep(r[i]);
  }

  /** `s` with every `-` and `_` read as a space. */
  function MapSeps(s: string): string {
    seq(|s|, i requires 0 <= i < |s| => if IsSep(s[i]) then ' ' else s[i])
  }

  /** Collapsing each separator run into one space splits into the same words
      as reading every separator as a space. */
  lemma {:induction false} ReplaceSepsWords(s: string)
    ensures SameWords(ReplaceSeps(s), MapSeps(s))
    decreases |s|
  {
    if s != [] {
      if IsSep(s[0]) {
        ReplaceSepsWords(s[SepRun(s)..]);
        SepRunWords(s, SepRun(s));
      } else {
        ReplaceSepsWords(s[1..]);
        assert MapSeps(s) == [s[0]] + MapSeps(s[1..]);
        WordsCongruence([s[0]], ReplaceSeps(s[1..]), MapSeps(s[1..]));
      }
    }
  }

  /** A separator run becomes one space on one side and a run of spaces on
      the other. */
  lemma SepRunWords(s: string, n: nat)
    requires s != [] && IsSep(s[0]) && n == SepRun(s)
    requires SameWords(ReplaceSeps(s[n..]), MapSeps(s[n..]))
    ensures SameWords(ReplaceSeps(s), MapSeps(s))
  {
    SepRunParts(s, n);
    WordsSwapSpace(" ", ReplaceSeps(s[n..]), MapSeps(s[..n]), MapSeps(s[n..]));
  }

  lemma SepRunParts(s: string, n: nat)
    requires s != [] && IsSep(s[0]) && n == SepRun(s)
    ensures ReplaceSeps(s) == " " + ReplaceSeps(s[n..])
    ensures MapSeps(s[..n]) != [] && AllSpace(MapSeps(s[..n]))
    ensures MapSeps(s) == MapSeps(s[..n]) + MapSeps(s[n..])
  {
    SepsToSpaces(s, n);
    MapSepsSplit(s, n);
  }

  lemma SepsToSpaces(s: string, n: nat)
    requires n <= |s| && forall i :: 0 <= i < n ==> IsSep(s[i])
    ensures AllSpace(MapSeps(s[..n]))
  {
    var m := MapSeps(s[..n]);
    forall i | 0 <= i < n
      ensures m[i] == ' '
    {
      assert s[..n][i] == s[i];
    }
  }

  lemma MapSepsSplit(s: string, n: nat)
    requires n <= |s|
    ensures MapSeps(s) == MapSeps(s[..n]) + MapSeps(s[n..])
  {
    var l, r := MapSeps(s[..n]), MapSeps(s[n..]);
    forall i | 0 <= i < |s|
      ensures MapSeps(s)[i] == (l + r)[i]
    {
      if i < n {
        assert s[..n][i] == s[i];
      } else {
        assert s[n..][i - n] == s[i];
      }
    }
  }

  /** Each word lower-cased. */
  function LowerWords(ws: seq<string>): (r: seq<string>)
    ensures |r| == |ws|
    ensures forall i :: 0 <= i < |ws| ==> r[i] == LowerAll(ws[i])
  {
    if ws == [] then [] else [LowerAll(ws[0])] + LowerWords(ws[1..])
  }

  lemma {:induction false} LowerWordLen(x: string)
    ensures WordLen(LowerAll(x)) == WordLen(x)
    decreases |x|
  {
    if x != [] {
      assert LowerAll(x)[1..] == LowerAll(x[1..]);
      LowerWordLen(x[1..]);
    }
  }

  /** Lower-casing keeps the word boundaries, so it lower-cases each word. */
  lemma {:induction false} WordsLower(x: string)
    ensures Words(LowerAll(x)) == LowerWords(Words(x))
    decreases |x|
  {
    if x != [] {
      var y := LowerAll(x);
      if IsSpace(x[0]) {
        assert y[1..] == LowerAll(x[1..]);
        WordsLower(x[1..]);
      } else {
        var k := WordLen(x);
        LowerWordLen(x);
        assert y[..k] == LowerAll(x[..k]);
        assert y[k..] == LowerAll(x[k..]);
        WordsLower(x[k..]);
      }
    }
  }

  lemma LowerCapitalize(t: string)
    ensures LowerAll(Capitalize(t)) == LowerAll(t)
  {
  }

  /** Lower-cased, the slug title has the words of the slug with each `-`
      and `_` read as a space. */
  lemma SlugTitleWords(slug: string)
    ensures Words(LowerAll(SlugTitle(slug))) == Words(LowerAll(MapSeps(slug)))
  {
    var t := Strip(ReplaceSeps(slug));
    LowerCapitalize(t);
    WordsLower(t);
    StripWords(ReplaceSeps(slug));
    ReplaceSepsWords(slug);
    WordsLower(MapSeps(slug));
  }

  /** `derive_title(body, slug)`. */
  function DeriveTitle(body: string, slug: string): (r: string)
    ensures Trimmed(r)
    ensures FirstHeading(body, 0).None? ==> '-' !in r && '_' !in r
  {
    match FirstHeading(body, 0)
    case Some(t) => t
    case None => SlugTitle(slug)
  }

  /** The title is the text of the first heading line, or the slug title
      when no line is a heading. */
  lemma DeriveTitleSpec(body: string, slug: string)
    ensures (forall q :: 0 <= q <= |body| ==> !HeadingLine(body, q)) ==> DeriveTitle(body, slug) == SlugTitle(slug)
    ensures forall q :: 0 <= q <= |body| && HeadingLine(body, q) && (forall q' :: 0 <= q' < q ==> !HeadingLine(body, q')) ==>
              DeriveTitle(body, slug) == HeadingAt(body, q).value
  {
    FirstHeadingSpec(body, 0);
  }

  /** A body that opens with a level-one heading yields that heading's text. */
  lemma DeriveTitleHeading(t: string, rest: string, slug: string)
    requires t != [] && !IsSpace(t[0]) && '\n' !in t
    requires rest == [] || rest[0] == '\n'
    ensures DeriveTitle("# " + t + rest, slug) == Strip(t)
  {
    var s := "# " + t + rest;
    var e := 2 + |t|;
    assert s[0] == '#' && s[1] == ' ' && s[2..e] == t;
    assert e < |s| ==> s[e] == rest[0];
    HeadingFirstLine(s, e);
  }

  lemma HeadingFirstLine(s: string, e: nat)
    requires 2 < e <= |s| && s[0] == '#' && s[1] == ' ' && !IsSpace(s[2])
    requires '\n' !in s[2..e] && (e == |s| || s[e] == '\n')
    ensures FirstHeading(s, 0) == Some(Strip(s[2..e]))
  {
    HeadingAtOpening(s);
    forall i | 2 <= i < e
      ensures s[i] != '\n'
    {
      assert s[i] == s[2..e][i - 2];
    }
    LineEndAt(s, 2, e);
  }

  /** `#`, one space and a non-space character open a heading whose text
      starts at position 2. */
  lemma HeadingAtOpening(s: string)
    requires 2 < |s| && s[0] == '#' && s[1] == ' ' && !IsSpace(s[2])
    ensures HeadingAt(s, 0) == Some(LineText(s, 2))
  {
    assert WsRun(s, 0) == 0;
    assert WsRun(s, 2) == 0;
    assert WsRun(s, 1) == 1;
  }

  lemma {:induction false} LineEndAt(s: string, q: nat, e: nat)
    requires q <= e <= |s|
    requires forall i :: q <= i < e ==> s[i] != '\n'
    requires e == |s| || s[e] == '\n'
    ensures LineEnd(s, q) == e
    decreases e - q
  {
    if q < e {
      LineEndAt(s, q + 1, e);
    }
  }

  /** Without a `#` anywhere, the title comes from the slug. */
  lemma NoHeading(s: string, p: nat)
    requires p <= |s| && '#' !in s
    ensures FirstHeading(s, p) == None
  {
    forall q | p <= q <= |s|
      ensures !HeadingLine(s, q)
    {
      var h := q + WsRun(s, q);
      assert h == |s| || s[h] != '#';
    }
    FirstHeadingSpec(s, p);
  }


  lemma DeriveTitleFallback(body: string, slug: string)
    requires '#' !in body
    ensures DeriveTitle(body, slug) == SlugTitle(slug)
  {
    NoHeading(body, 0);
  }

  // ---- md_to_text from the character removal on

  /** `s.replace("**", "")`: non-overlapping pairs, left to right. */
  function RemoveDoubleStar(s: string): (r: string)
    decreases |s|
  {
    if s == [] then []
    else if |s| >= 2 && s[0] == '*' && s[1] == '*' then RemoveDoubleStar(s[2..])
    else [s[0]] + RemoveDoubleStar(s[1..])
  }

  /** Removing the pairs first does not change what removing every `*`
      leaves. */
  lemma {:induction false} DoubleStarThenStar(s: string)
    ensures RemoveChar(RemoveDoubleStar(s), '*') == RemoveChar(s, '*')
    decreases |s|
  {
    if s != [] {
      if |s| >= 2 && s[0] == '*' && s[1] == '*' {
        DoubleStarThenStar(s[2..]);
        assert s[1..][1..] == s[2..];
      } else {
        DoubleStarThenStar(s[1..]);
        assert ([s[0]] + RemoveDoubleStar(s[1..]))[1..] == RemoveDoubleStar(s[1..]);
      }
    }
  }

  /** Lines 38-40: backticks, `**`, `*` and `_` removed, in that order. */
  function StripMarkupChars(s: string): (r: string)
    ensures '`' !in r && '*' !in r && '_' !in r
  {
    var t := RemoveChar(s, '`');
    var u := RemoveChar(RemoveChar(RemoveDoubleStar(t), '*'), '_');
    RemoveCharSubset(RemoveChar(RemoveDoubleStar(t), '*'), '_', '*');
    RemoveCharSubset(t, '*', '`');
    DoubleStarThenStar(t);
    RemoveCharSubset(RemoveChar(t, '*'), '_', '`');
    u
  }

  /** The three line-anchored patterns of lines 42-46. */
  datatype LinePattern =
    | HeadingMarks     // ^#{1,6}\s*
    | QuoteMark        // ^\s*>\s?
    | RuleLine         // ^\s*[-*_]{3,}\s*$

  /** The length of the run of c at p, at most cap (a greedy `c{1,cap}`). */
  function CharRun(s: string, p: nat, c: char, cap: nat): (n: nat)
    requires p <= |s|
    ensures n <= cap && p + n <= |s|
    decreases cap
  {
    if cap > 0 && p < |s| && s[p] == c then 1 + CharRun(s, p + 1, c, cap - 1) else 0
  }

  predicate IsRuleChar(c: char) {
    c == '-' || c == '*' || c == '_'
  }

  function RuleRun(s: string, p: nat): (n: nat)
    requires p <= |s|
    ensures p + n <= |s|
    decreases |s| - p
  {
    if p < |s| && IsRuleChar(s[p]) then 1 + RuleRun(s, p + 1) else 0
  }

  /** The largest j in [lo, hi) holding a newline. */
  function LastNewline(s: string, lo: nat, hi: nat): (r: Option<nat>)
    requires lo <= hi <= |s|
    ensures r.Some? ==> lo <= r.value < hi && s[r.value] == '\n'
    decreases hi
  {
    if hi <= lo then None
    else if s[hi - 1] == '\n' then Some(hi - 1)
    else LastNewline(s, lo, hi - 1)
  }

  /** The length of the match of pattern k at p (0 when it does not match).
      The rule pattern's trailing `\s*$` ends at the end of the text or just
      before the last newline of the trailing whitespace. */
  function MatchLen(k: LinePattern, s: string, p: nat): (n: nat)
    requires p <= |s|
    ensures p + n <= |s|
  {
    match k
    case HeadingMarks =>
      var h := CharRun(s, p, '#', 6);
      if h == 0 then 0 else h + WsRun(s, p + h)
    case QuoteMark =>
      var g := p + WsRun(s, p);
      if g < |s| && s[g] == '>' then
        (g - p) + 1 + (if g + 1 < |s| && IsSpace(s[g + 1]) then 1 else 0)
      else 0
    case RuleLine =>
      var g := p + WsRun(s, p);
      var d := RuleRun(s, g);
      if d < 3 then 0
      else
        var q := g + d;
        var t := WsRun(s, q);
        if q + t == |s| then |s| - p
        else match LastNewline(s, q, q + t)
          case Some(j) => j - p
          case None => 0
  }

  /** The pattern k as a matcher: the length of its match at position p of
      s when p is a line start, else 0. */
  function Matcher(k: LinePattern): (string, nat) -> nat {
    (s: string, p: nat) => if p <= |s| && LineStart(s, p) then MatchLen(k, s, p) else 0
  }

  /** `re.sub(pattern, "", s)` from position p on, for a pattern given by its
      matcher m: where a match starts, it is deleted and the scan resumes
      after it; every other character is kept. */
  function DeleteMatches(m: (string, nat) -> nat, s: string, p: nat): (r: string)
    requires p <= |s|
    decreases |s| - p
  {
    if p == |s| then []
    else
      var n := Min(m(s, p), |s| - p);
      if n > 0 then DeleteMatches(m, s, p + n)
      else [s[p]] + DeleteMatches(m, s, p + 1)
  }

  function Min(x: nat, y: nat): nat {
    if x <= y then x else y
  }

  /** Each line pass only deletes characters. */
  lemma {:induction false} DeleteMatchesSubseq(m: (string, nat) -> nat, s: string, p: nat)
    requires p <= |s|
    ensures IsSubseq(DeleteMatches(m, s, p), s[p..])
    decreases |s| - p
  {
    if p < |s| {
      var n := Min(m(s, p), |s| - p);
      if n > 0 {
        DeleteMatchesSubseq(m, s, p + n);
        DropSubseq(DeleteMatches(m, s, p + n), s, p, n);
      } else {
        DeleteMatchesSubseq(m, s, p + 1);
        KeepSubseq(DeleteMatches(m, s, p + 1), s, p);
      }
    }
  }

  lemma DropSubseq(x: string, s: string, p: nat, n: nat)
    requires p + n <= |s| && IsSubseq(x, s[p + n..])
    ensures IsSubseq(x, s[p..])
  {
    SubseqSuffix(s[p..], n);
    assert s[p..][n..] == s[p + n..];
    SubseqTrans(x, s[p + n..], s[p..]);
  }

  lemma KeepSubseq(x: string, s: string, p: nat)
    requires p < |s| && IsSubseq(x, s[p + 1..])
    ensures IsSubseq([s[p]] + x, s[p..])
  {
    assert ([s[p]] + x)[1..] == x;
    assert s[p..][1..] == s[p + 1..];
  }

  function LinePasses(s: string): string {
    var a := DeleteMatches(Matcher(HeadingMarks), s, 0);
    var b := DeleteMatches(Matcher(QuoteMark), a, 0);
    DeleteMatches(Matcher(RuleLine), b, 0)
  }

  lemma LinePassesSubseq(s: string)
    ensures IsSubseq(LinePasses(s), s)
  {
    var a := DeleteMatches(Matcher(HeadingMarks), s, 0);
    var b := DeleteMatches(Matcher(QuoteMark), a, 0);
    DeleteMatchesSubseq(Matcher(HeadingMarks), s, 0);
    DeleteMatchesSubseq(Matcher(QuoteMark), a, 0);
    DeleteMatchesSubseq(Matcher(RuleLine), b, 0);
    assert s[0..] == s && a[0..] == a && b[0..] == b;
    SubseqTrans(b, a, s);
    SubseqTrans(LinePasses(s), b, s);
  }

  /** `md_to_text` of `ingest_mh_md.py` from line 38 on; linked is the
      text after the front-matter, image and link substitutions. The result
      has no backtick, `*` or `_`, and every step after the character
      removal only deletes characters. */
  function MdToText(linked: string): (r: string)
    ensures '`' !in r && '*' !in r && '_' !in r
    ensures IsSubseq(r, StripMarkupChars(linked))
  {
    var t := StripMarkupChars(linked);
    LinePassesSubseq(t);
    StripSubseq(LinePasses(t));
    SubseqTrans(Strip(LinePasses(t)), LinePasses(t), t);
    SubseqMember(Strip(LinePasses(t)), t, '`');
    SubseqMember(Strip(LinePasses(t)), t, '*');
    SubseqMember(Strip(LinePasses(t)), t, '_');
    Strip(LinePasses(t))
  }

  // ---- process_file

  /** What `process_file` does with one input: skip it with a message, or
      write the entry and the mirror at the given paths. */
  datatype Outcome =
    | Skip(message: string)
    | Write(entryDir: string, entryFile: string, mirrorFile: string,
            frontMatter: FrontMatter, body: string, mirrorText: string, message: string)

  /** Lines 82-83: a missing or falsy title is derived from the body. */
  function WithTitle(fm: FrontMatter, body: string, slug: string): (r: FrontMatter)
    ensures "title" in r
    ensures !("title" in fm && !Falsy(fm["title"])) ==> r["title"] == Str(DeriveTitle(body, slug))
    ensures "title" in fm && !Falsy(fm["title"]) ==> r == fm
    ensures forall k :: k != "title" ==> (k in r <==> k in fm) && (k in fm ==> r[k] == fm[k])
  {
    if "title" !in fm || Falsy(fm["title"]) then fm["title" := Str(DeriveTitle(body, slug))] else fm
  }

  /** The front matter written for a file with groups p, body and loaded
      front matter fm: every loaded key but the title keeps its value; the
      title is the loaded one when truthy and is derived otherwise; the
      enriched keys the file lacked get their defaults; nothing else. */
  predicate KeptMatter(fm: FrontMatter, body: string, p: NameParts, w: FrontMatter) {
    && (forall k :: k in fm && k != "title" ==> k in w && w[k] == fm[k])
    && "title" in w
    && w["title"] == (if "title" in fm && !Falsy(fm["title"]) then fm["title"] else Str(DeriveTitle(body, p.slug)))
    && (forall k :: k in w ==> k in fm || k == "title" || k in EnrichKeys)
    && (forall k :: k in w && k !in fm && k != "title" ==> w[k] == DefaultFor(k, DateStr(p), p.slug))
  }

  /** Lines 79-85: deriving the title and enriching keep the loaded front matter. */
  lemma WrittenMatter(fm: FrontMatter, body: string, p: NameParts)
    ensures KeptMatter(fm, body, p, Enrich(WithTitle(fm, body, p.slug), DateStr(p), p.slug))
  {
    EnrichSpec(WithTitle(fm, body, p.slug), DateStr(p), p.slug);
  }

  /** `process_file(md_path, force)`: name is the file name, fm and content
      what `frontmatter.load` read, linked the body after the substitutions
      that come before line 38, and exists whether the entry is already
      there. */
  function ProcessFile(name: string, fm: FrontMatter, content: string, linked: string,
                       entryExists: bool, force: bool): (r: Outcome)
    // a name the pattern rejects is skipped, with the message naming it
    ensures ParseFilename(name).None? ==>
              r == Skip("[SKIP] " + name + " (filename does not match YYYY-MM-DD-slug.md)")
    // an existing entry is only replaced under force
    ensures ParseFilename(name).Some? && entryExists && !force ==> r.Skip?
    ensures r.Write? ==> ParseFilename(name).Some? && (!entryExists || force)
    // a written entry has a title and an id; its mirror sits under the
    // default id's name and holds the converted body
    ensures r.Write? ==>
              var p := ParseFilename(name).value;
              && "title" in r.frontMatter && "id" in r.frontMatter
              && r.mirrorFile == "plain/" + PlainMirrorName(DefaultId(p))
              && ("id" !in fm ==> r.frontMatter["id"] == Str(DefaultId(p)))
              && r.entryDir == "content/" + p.year + "/" + p.slug
              && r.mirrorText == MdToText(linked)
    // the loaded front matter and body are written as loaded, up to the
    // derived title and the enriched defaults
    ensures r.Write? ==>
              r.body == content && KeptMatter(fm, content, ParseFilename(name).value, r.frontMatter)
  {
    match ParseFilename(name)
    case None => Skip("[SKIP] " + name + " (filename does not match YYYY-MM-DD-slug.md)")
    case Some(p) => ProcessParsed(name, p, fm, content, linked, entryExists, force)
  }

  /** Lines 72-110 once the name has matched, with groups p: the entry is
      written unless it exists and force is off, and a written entry's front
      matter is the loaded one with the title settled and every enriched key
      present. */
  function ProcessParsed(name: string, p: NameParts, fm: FrontMatter, content: string, linked: string,
                         entryExists: bool, force: bool): (r: Outcome)
    requires WellFormed(p)
    ensures r.Write? <==> !entryExists || force
    ensures r.Write? ==>
              && "title" in r.frontMatter && "id" in r.frontMatter
              && r.mirrorFile == "plain/" + PlainMirrorName(DefaultId(p))
              && ("id" !in fm ==> r.frontMatter["id"] == Str(DefaultId(p)))
              && r.entryDir == "content/" + p.year + "/" + p.slug
              && r.mirrorText == MdToText(linked)
    ensures r.Write? ==> forall i :: 0 <= i < |EnrichKeys| ==> EnrichKeys[i] in r.frontMatter
    ensures r.Write? ==> r.body == content && KeptMatter(fm, content, p, r.frontMatter)
  {
      var dateStr := DateStr(p);
      var fm1 := Enrich(WithTitle(fm, content, p.slug), dateStr, p.slug);
      var dir := "content/" + p.year + "/" + p.slug;
      var mdPath := dir + "/index.md";
      var txtPath := "plain/" + MirrorFile(p);
      if entryExists && !force then Skip("[SKIP] " + name + " (exists; use --force to overwrite)")
      else
        MirrorNamedAfterId(p);
        EnrichTitleAndId(WithTitle(fm, content, p.slug), dateStr, p.slug);
        WrittenMatter(fm, content, p);
        Write(dir, mdPath, txtPath, fm1, content, MdToText(linked),
              "[OK]   " + name + " -> " + mdPath + " ; " + txtPath)
  }
}

=== FILE: near_dedup.dfy ===
/** The second pass of `deduplicate_and_cluster` (lines 177-206): star-shaped
    near-duplicate clustering over the representatives of the exact pass.
    Each unseen representative seeds a cluster; every other unseen
    representative whose sample scores at least the threshold against the
    SEED's sample joins it, and the resolver decides which member stays. */
module NearDedup {
  import opened Wrappers
  import opened Text
  import opened Docs
  import opened Preference

  /** `SAMPLE_CHARS`: only this many leading characters are compared. */
  const SampleChars: nat := 4000

  /** `NEAR_DUP_THRESHOLD`, compared with `>=`. */
  const NearDupThreshold: real := 95.0

  /** `fuzz.partial_ratio`, abstracted: any score function on two strings. */
  type Similarity = (string, string) -> real

  function Sample(d: Doc): string {
    Prefix(d.text, SampleChars)
  }

  /** The score of a candidate against the seed of its cluster. */
  function Score(seed: Doc, other: Doc, sim: Similarity): real {
    sim(Sample(seed), Sample(other))
  }

  predicate IsMatch(seed: Doc, other: Doc, sim: Similarity) {
    Score(seed, other, sim) >= NearDupThreshold
  }

  /** The candidates of xs that join the cluster of seed when the ids in seen
      are taken: unseen, not the seed, and scoring at least the threshold
      against the seed. */
  function Matches(seed: Doc, xs: seq<Doc>, seen: set<string>, sim: Similarity): (m: seq<Doc>)
    ensures forall o :: o in m <==> o in xs && o.id !in seen && o.id != seed.id && IsMatch(seed, o, sim)
  {
    if xs == [] then []
    else
      var init, last := xs[..|xs| - 1], xs[|xs| - 1];
      assert xs == init + [last];
      Matches(seed, init, seen, sim)
        + (if last.id !in seen && last.id != seed.id && IsMatch(seed, last, sim) then [last] else [])
  }

  lemma {:induction false} MatchesSnoc(seed: Doc, xs: seq<Doc>, o: Doc, seen: set<string>, sim: Similarity)
    ensures o.id !in seen && o.id != seed.id && IsMatch(seed, o, sim) ==>
              Matches(seed, xs + [o], seen, sim) == Matches(seed, xs, seen, sim) + [o]
    ensures !(o.id !in seen && o.id != seed.id && IsMatch(seed, o, sim)) ==>
              Matches(seed, xs + [o], seen, sim) == Matches(seed, xs, seen, sim)
  {
    assert (xs + [o])[..|xs|] == xs;
    assert Matches(seed, xs, seen, sim) + [] == Matches(seed, xs, seen, sim);
  }

  lemma {:induction false} MatchesDistinct(seed: Doc, xs: seq<Doc>, seen: set<string>, sim: Similarity)
    requires DistinctIds(xs)
    ensures DistinctIds(Matches(seed, xs, seen, sim))
  {
    if xs != [] {
      var init, last := xs[..|xs| - 1], xs[|xs| - 1];
      assert xs == init + [last];
      SnocFresh(init, last);
      MatchesDistinct(seed, init, seen, sim);
      MatchesSnoc(seed, init, last, seen, sim);
      var m := Matches(seed, init, seen, sim);
      forall k | 0 <= k < |m|
        ensures m[k].id != last.id
      {
        assert m[k] in init;
      }
    }
  }

  /** The state of one cluster while the inner loop runs: the current
      `cluster[0]`, the seen ids, and the pairs logged by this cluster. */
  datatype Cluster = Cluster(best: Doc, seen: set<string>, log: seq<Decision>)

  /** One iteration of the inner loop (lines 189-203) for candidate other. */
  function Visit(seed: Doc, cl: Cluster, other: Doc, sim: Similarity, parse: DateParser): Cluster {
    if other.id in cl.seen || other.id == seed.id then cl
    else
      var score := Score(seed, other, sim);
      if score >= NearDupThreshold then
        var preferred := ChoosePreferred(cl.best, other, parse);
        if preferred.id != cl.best.id then
          Cluster(preferred, cl.seen + {other.id},
                  cl.log + [Decision(preferred.id, cl.best.id, NearDuplicate(score))])
        else
          Cluster(cl.best, cl.seen + {other.id},
                  cl.log + [Decision(cl.best.id, other.id, NearDuplicate(score))])
      else cl
  }

  /** The inner loop over the candidates xs, in order, from the cluster
      `[seed]` with the given seen ids. */
  function Grow(seed: Doc, seen: set<string>, xs: seq<Doc>, sim: Similarity, parse: DateParser): Cluster {
    if xs == [] then Cluster(seed, seen, [])
    else Visit(seed, Grow(seed, seen, xs[..|xs| - 1], sim, parse), xs[|xs| - 1], sim, parse)
  }

  lemma {:induction false} GrowSnoc(seed: Doc, seen: set<string>, xs: seq<Doc>, o: Doc, sim: Similarity, parse: DateParser)
    ensures Grow(seed, seen, xs + [o], sim, parse) == Visit(seed, Grow(seed, seen, xs, sim, parse), o, sim, parse)
  {
    assert (xs + [o])[..|xs|] == xs;
  }

  /** The members of a cluster: the seed and its matches, in visiting order. */
  function Members(seed: Doc, xs: seq<Doc>, seen: set<string>, sim: Similarity): seq<Doc> {
    [seed] + Matches(seed, xs, seen, sim)
  }

  lemma {:induction false} MembersSnoc(seed: Doc, xs: seq<Doc>, o: Doc, seen: set<string>, sim: Similarity)
    ensures o.id !in seen && o.id != seed.id && IsMatch(seed, o, sim) ==>
              Members(seed, xs + [o], seen, sim) == Members(seed, xs, seen, sim) + [o]
    ensures !(o.id !in seen && o.id != seed.id && IsMatch(seed, o, sim)) ==>
              Members(seed, xs + [o], seen, sim) == Members(seed, xs, seen, sim)
  {
    MatchesSnoc(seed, xs, o, seen, sim);
    assert [seed] + (Matches(seed, xs, seen, sim) + [o]) == ([seed] + Matches(seed, xs, seen, sim)) + [o];
  }

  /** The shape of a cluster: its kept document is the resolver folded over
      its members in visiting order, and the seen ids grow by exactly the
      matched candidates. */
  lemma {:induction false} GrowShape(seed: Doc, seen: set<string>, xs: seq<Doc>, sim: Similarity, parse: DateParser)
    requires DistinctIds(xs) && seed.id in seen
    ensures var cl := Grow(seed, seen, xs, sim, parse);
            && Fold(Members(seed, xs, seen, sim), parse) == Some(cl.best)
            && cl.seen == seen + IdsOf(Matches(seed, xs, seen, sim))
  {
    var m := Matches(seed, xs, seen, sim);
    if xs == [] {
      assert Members(seed, xs, seen, sim) == [seed];
      FoldSnoc([], seed, parse);
      assert [] + [seed] == [seed];
    } else {
      var init, o := xs[..|xs| - 1], xs[|xs| - 1];
      assert xs == init + [o];
      SnocFresh(init, o);
      GrowShape(seed, seen, init, sim, parse);
      GrowSnoc(seed, seen, init, o, sim, parse);
      MatchesSnoc(seed, init, o, seen, sim);
      var m0 := Matches(seed, init, seen, sim);
      var cl0 := Grow(seed, seen, init, sim, parse);
      assert o.id !in IdsOf(m0) by {
        IdsOfAbsent(m0, o.id);
      }
      if o.id !in seen && o.id != seed.id && IsMatch(seed, o, sim) {
        VisitMatch(seed, cl0, o, sim, parse, m0, seen);
      }
    }
  }

  /** A matching candidate whose id differs from the current survivor's
      leaves the resolver's choice between the two in `cluster[0]` and is
      marked seen. */
  lemma VisitJoins(seed: Doc, cl0: Cluster, o: Doc, sim: Similarity, parse: DateParser)
    requires o.id !in cl0.seen && o.id != seed.id && IsMatch(seed, o, sim) && cl0.best.id != o.id
    ensures var cl := Visit(seed, cl0, o, sim, parse);
            cl.best == ChoosePreferred(cl0.best, o, parse) && cl.seen == cl0.seen + {o.id}
  {
    PreferredById(cl0.best, o, parse);
  }

  /** The step of GrowShape in which o joins the cluster. */
  lemma {:induction false} VisitMatch(seed: Doc, cl0: Cluster, o: Doc, sim: Similarity, parse: DateParser,
                                      m0: seq<Doc>, seen: set<string>)
    requires Fold([seed] + m0, parse) == Some(cl0.best)
    requires cl0.seen == seen + IdsOf(m0)
    requires o.id !in seen && o.id != seed.id && o.id !in IdsOf(m0) && IsMatch(seed, o, sim)
    ensures var cl := Visit(seed, cl0, o, sim, parse);
            && Fold([seed] + (m0 + [o]), parse) == Some(cl.best)
            && cl.seen == seen + IdsOf(m0 + [o])
  {
    var b := cl0.best;
    assert b in [seed] + m0;
    assert b.id != o.id by {
      if b != seed {
        assert b in m0;
      }
    }
    VisitJoins(seed, cl0, o, sim, parse);
    assert [seed] + (m0 + [o]) == ([seed] + m0) + [o];
    FoldSnoc([seed] + m0, o, parse);
    IdsOfSnoc(m0, o);
  }

  /** What the pairs a cluster logs say, for members with distinct ids. */
  ghost predicate ClusterLog(log: seq<Decision>, members: seq<Doc>, best: Doc) {
    && |log| + 1 == |members|
    && (forall d :: d in members ==> DropCount(log, d.id) == if d == best then 0 else 1)
    && (forall id :: id !in IdsOf(members) ==> DropCount(log, id) == 0)
    && (forall e :: e in log ==> RankRespecting(e, members))
    && (forall e :: e in log ==> e.reason.NearDuplicate? && e.reason.score >= NearDupThreshold)
  }

  /** Each member but the kept one is logged as dropped exactly once, every
      pair keeps a document of no worse rank, and every score reached the
      threshold. */
  lemma {:induction false} GrowLog(seed: Doc, seen: set<string>, xs: seq<Doc>, sim: Similarity, parse: DateParser)
    requires DistinctIds(xs) && seed.id in seen
    ensures var cl := Grow(seed, seen, xs, sim, parse);
            ClusterLog(cl.log, Members(seed, xs, seen, sim), cl.best)
  {
    if xs == [] {
      assert Members(seed, xs, seen, sim) == [seed];
      ClusterLogSingle(seed);
    } else {
      var init, o := xs[..|xs| - 1], xs[|xs| - 1];
      assert xs == init + [o];
      SnocFresh(init, o);
      GrowShape(seed, seen, init, sim, parse);
      GrowLog(seed, seen, init, sim, parse);
      GrowLogStep(seed, seen, init, o, sim, parse);
    }
  }

  lemma {:induction false} GrowLogStep(seed: Doc, seen: set<string>, init: seq<Doc>, o: Doc, sim: Similarity,
                                       parse: DateParser)
    requires forall d :: d in init ==> d.id != o.id
    requires var cl0 := Grow(seed, seen, init, sim, parse);
             && Fold(Members(seed, init, seen, sim), parse) == Some(cl0.best)
             && cl0.seen == seen + IdsOf(Matches(seed, init, seen, sim))
             && ClusterLog(cl0.log, Members(seed, init, seen, sim), cl0.best)
    ensures var cl := Grow(seed, seen, init + [o], sim, parse);
            ClusterLog(cl.log, Members(seed, init + [o], seen, sim), cl.best)
  {
    if o.id !in seen && o.id != seed.id && IsMatch(seed, o, sim) {
      GrowLogJoin(seed, seen, init, o, sim, parse);
    } else {
      GrowLogSkip(seed, seen, init, o, sim, parse);
    }
  }

  /** A candidate that joins adds one member and one logged pair. */
  lemma {:induction false} GrowLogJoin(seed: Doc, seen: set<string>, init: seq<Doc>, o: Doc, sim: Similarity,
                                       parse: DateParser)
    requires forall d :: d in init ==> d.id != o.id
    requires o.id !in seen && o.id != seed.id && IsMatch(seed, o, sim)
    requires var cl0 := Grow(seed, seen, init, sim, parse);
             && Fold(Members(seed, init, seen, sim), parse) == Some(cl0.best)
             && cl0.seen == seen + IdsOf(Matches(seed, init, seen, sim))
             && ClusterLog(cl0.log, Members(seed, init, seen, sim), cl0.best)
    ensures var cl := Grow(seed, seen, init + [o], sim, parse);
            ClusterLog(cl.log, Members(seed, init + [o], seen, sim), cl.best)
  {
    GrowSnoc(seed, seen, init, o, sim, parse);
    MembersSnoc(seed, init, o, seen, sim);
    GrowLogMatch(seed, seen, init, o, sim, parse);
  }

  /** A candidate that does not join leaves the cluster as it is. */
  lemma {:induction false} GrowLogSkip(seed: Doc, seen: set<string>, init: seq<Doc>, o: Doc, sim: Similarity,
                                       parse: DateParser)
    requires forall d :: d in init ==> d.id != o.id
    requires !(o.id !in seen && o.id != seed.id && IsMatch(seed, o, sim))
    requires var cl0 := Grow(seed, seen, init, sim, parse);
             && cl0.seen == seen + IdsOf(Matches(seed, init, seen, sim))
             && ClusterLog(cl0.log, Members(seed, init, seen, sim), cl0.best)
    ensures var cl := Grow(seed, seen, init + [o], sim, parse);
            ClusterLog(cl.log, Members(seed, init + [o], seen, sim), cl.best)
  {
    GrowSnoc(seed, seen, init, o, sim, parse);
    MembersSnoc(seed, init, o, seen, sim);
    VisitSkip(seed, seen, init, o, sim, parse);
  }

  /** The cluster is unchanged by a candidate that does not join. */
  lemma {:induction false} VisitSkip(seed: Doc, seen: set<string>, init: seq<Doc>, o: Doc, sim: Similarity,
                                     parse: DateParser)
    requires forall d :: d in init ==> d.id != o.id
    requires Grow(seed, seen, init, sim, parse).seen == seen + IdsOf(Matches(seed, init, seen, sim))
    requires !(o.id !in seen && o.id != seed.id && IsMatch(seed, o, sim))
    ensures var cl0 := Grow(seed, seen, init, sim, parse);
            Visit(seed, cl0, o, sim, parse) == cl0
  {
    var m0 := Matches(seed, init, seen, sim);
    assert forall d :: d in m0 ==> d in init;
    IdsOfAbsent(m0, o.id);
  }

  lemma ClusterLogSingle(seed: Doc)
    ensures ClusterLog([], [seed], seed)
  {
    IdsOfSnoc([], seed);
    assert [] + [seed] == [seed];
  }

  /** The step of GrowLog in which o joins the cluster. */
  lemma {:induction false} GrowLogMatch(seed: Doc, seen: set<string>, init: seq<Doc>, o: Doc, sim: Similarity,
                                        parse: DateParser)
    requires forall d :: d in init ==> d.id != o.id
    requires o.id !in seen && o.id != seed.id && IsMatch(seed, o, sim)
    requires var cl0 := Grow(seed, seen, init, sim, parse);
             && Fold(Members(seed, init, seen, sim), parse) == Some(cl0.best)
             && cl0.seen == seen + IdsOf(Matches(seed, init, seen, sim))
             && ClusterLog(cl0.log, Members(seed, init, seen, sim), cl0.best)
    ensures var cl := Visit(seed, Grow(seed, seen, init, sim, parse), o, sim, parse);
            ClusterLog(cl.log, Members(seed, init, seen, sim) + [o], cl.best)
  {
    var m0 := Matches(seed, init, seen, sim);
    var ms := [seed] + m0;
    var cl0 := Grow(seed, seen, init, sim, parse);
    IdsOfAbsent(m0, o.id);
    assert o.id !in IdsOf(ms) by {
      assert forall d :: d in ms ==> d.id != o.id by {
        assert forall d :: d in m0 ==> d in init;
      }
      IdsOfAbsent(ms, o.id);
    }
    assert cl0.best in ms;
    LogStep(cl0, o, ms, Score(seed, o, sim), parse);
  }

  /** The matched branch of Visit, on its own. */
  function Absorb(cl: Cluster, o: Doc, score: real, parse: DateParser): Cluster {
    var preferred := ChoosePreferred(cl.best, o, parse);
    if preferred.id != cl.best.id then
      Cluster(preferred, cl.seen + {o.id}, cl.log + [Decision(preferred.id, cl.best.id, NearDuplicate(score))])
    else
      Cluster(cl.best, cl.seen + {o.id}, cl.log + [Decision(cl.best.id, o.id, NearDuplicate(score))])
  }

  lemma {:induction false} LogStep(cl0: Cluster, o: Doc, members: seq<Doc>, score: real, parse: DateParser)
    requires ClusterLog(cl0.log, members, cl0.best) && cl0.best in members
    requires o.id !in IdsOf(members) && score >= NearDupThreshold
    ensures var cl := Absorb(cl0, o, score, parse);
            ClusterLog(cl.log, members + [o], cl.best)
  {
    var b := cl0.best;
    var cl := Absorb(cl0, o, score, parse);
    var ms := members + [o];
    assert b.id != o.id;
    PreferredById(b, o, parse);
    var e := cl.log[|cl.log| - 1];
    assert cl.log == cl0.log + [e];
    IdsOfSnoc(members, o);
    forall d | d in ms
      ensures DropCount(cl.log, d.id) == if d == cl.best then 0 else 1
    {
      DropCountSnoc(cl0.log, e, d.id);
      if d != o {
        assert d in members;
      }
    }
    forall id | id !in IdsOf(ms)
      ensures DropCount(cl.log, id) == 0
    {
      DropCountSnoc(cl0.log, e, id);
    }
    forall e' | e' in cl.log
      ensures RankRespecting(e', ms)
    {
      if e' == e {
        assert b in ms && o in ms;
      } else {
        assert e' in cl0.log;
        var x, y :| x in members && y in members && x.id == e'.kept && y.id == e'.dropped && Rank(x) <= Rank(y);
        assert x in ms && y in ms;
      }
    }
  }

  /** What the outer loop needs to know about one cluster grown from an
      unseen representative rep over all the representatives R. */
  lemma ClusterFacts(R: seq<Doc>, seen0: set<string>, rep: Doc, sim: Similarity, parse: DateParser)
    requires DistinctIds(R) && rep in R && rep.id !in seen0
    ensures var s := seen0 + {rep.id};
            var cl := Grow(rep, s, R, sim, parse);
            var ms := Members(rep, R, s, sim);
            && Within(ms, R) && DistinctIds(ms) && rep in ms && cl.best in ms
            && (forall d :: d in ms ==> d.id !in seen0)
            && cl.seen == seen0 + IdsOf(ms)
            && ClusterLog(cl.log, ms, cl.best)
            && Fold(ms, parse) == Some(cl.best)
  {
    var s := seen0 + {rep.id};
    var m := Matches(rep, R, s, sim);
    GrowShape(rep, s, R, sim, parse);
    GrowLog(rep, s, R, sim, parse);
    MatchesDistinct(rep, R, s, sim);
    DistinctCons(rep, m);
    IdsOfAppend([rep], m);
    IdsOfSnoc([], rep);
    assert [] + [rep] == [rep];
  }

  /** The state of the outer loop: `final`, `seen_ids` and the pairs this
      pass has logged. */
  datatype NearState = NearState(final: seq<Doc>, seen: set<string>, log: seq<Decision>)

  /** One iteration of the outer loop (lines 182-204) for representative rep:
      a seen representative is skipped; an unseen one seeds a cluster over all
      of R whose kept document is appended to `final`. */
  function NearStep(R: seq<Doc>, st: NearState, rep: Doc, sim: Similarity, parse: DateParser): NearState {
    if rep.id in st.seen then st
    else
      var cl := Grow(rep, st.seen + {rep.id}, R, sim, parse);
      NearState(st.final + [cl.best], cl.seen, st.log + cl.log)
  }

  /** The outer loop over the prefix xs of the representatives R. */
  function NearLoop(R: seq<Doc>, xs: seq<Doc>, sim: Similarity, parse: DateParser): NearState {
    if xs == [] then NearState([], {}, [])
    else NearStep(R, NearLoop(R, xs[..|xs| - 1], sim, parse), xs[|xs| - 1], sim, parse)
  }

  lemma {:induction false} NearLoopSnoc(R: seq<Doc>, xs: seq<Doc>, rep: Doc, sim: Similarity, parse: DateParser)
    ensures NearLoop(R, xs + [rep], sim, parse) == NearStep(R, NearLoop(R, xs, sim, parse), rep, sim, parse)
  {
    assert (xs + [rep])[..|xs|] == xs;
  }

  /** The second pass: the surviving documents and the near-duplicate pairs. */
  function NearPass(reps: seq<Doc>, sim: Similarity, parse: DateParser): (seq<Doc>, seq<Decision>) {
    var st := NearLoop(reps, reps, sim, parse);
    (st.final, st.log)
  }

  // ---- the shape of the outer loop's state

  ghost predicate Shape(R: seq<Doc>, xs: seq<Doc>, st: NearState) {
    && Within(st.final, R) && DistinctIds(st.final)
    && (forall f :: f in st.final ==> f.id in st.seen)
    && st.seen <= IdsOf(R)
    && IdsOf(xs) <= st.seen
  }

  lemma {:induction false} ShapeFresh(R: seq<Doc>, xs: seq<Doc>, st: NearState, rep: Doc, best: Doc, ms: seq<Doc>)
    requires Shape(R, xs, st)
    requires Within(ms, R) && rep in ms && best in ms && forall d :: d in ms ==> d.id !in st.seen
    ensures Shape(R, xs + [rep], NearState(st.final + [best], st.seen + IdsOf(ms), st.log))
  {
    var f2 := st.final + [best];
    assert best.id !in st.seen;
    forall i, j | 0 <= i < j < |f2|
      ensures f2[i].id != f2[j].id
    {
      if j == |st.final| {
        assert f2[i] in st.final;
      } else {
        assert f2[i] == st.final[i] && f2[j] == st.final[j];
      }
    }
    IdsOfWithin(ms, R);
    IdsOfSnoc(xs, rep);
  }

  lemma {:induction false} NearShape(R: seq<Doc>, xs: seq<Doc>, sim: Similarity, parse: DateParser)
    requires DistinctIds(R) && Within(xs, R)
    ensures Shape(R, xs, NearLoop(R, xs, sim, parse))
  {
    if xs == [] {
      assert DistinctIds([]);
    } else {
      var init, rep := xs[..|xs| - 1], xs[|xs| - 1];
      assert xs == init + [rep];
      NearShape(R, init, sim, parse);
      NearLoopSnoc(R, init, rep, sim, parse);
      var st := NearLoop(R, init, sim, parse);
      if rep.id in st.seen {
        IdsOfSnoc(init, rep);
      } else {
        ClusterFacts(R, st.seen, rep, sim, parse);
        var cl := Grow(rep, st.seen + {rep.id}, R, sim, parse);
        ShapeFresh(R, init, st, rep, cl.best, Members(rep, R, st.seen + {rep.id}, sim));
      }
    }
  }

  // ---- the accounting of the outer loop

  /** Every seen representative is in `final` or dropped exactly once, no
      unseen id is dropped, and nothing else was logged. */
  ghost predicate NearBooks(R: seq<Doc>, st: NearState) {
    && (forall d :: d in R && d.id in st.seen ==> DropCount(st.log, d.id) == if d in st.final then 0 else 1)
    && (forall id :: id !in st.seen ==> DropCount(st.log, id) == 0)
    && |st.final| + |st.log| == |st.seen|
  }

  lemma {:induction false} BooksFresh(R: seq<Doc>, st: NearState, best: Doc, ms: seq<Doc>, clLog: seq<Decision>)
    requires DistinctIds(R) && Within(ms, R) && DistinctIds(ms) && best in ms
    requires forall d :: d in ms ==> d.id !in st.seen
    requires forall f :: f in st.final ==> f.id in st.seen
    requires ClusterLog(clLog, ms, best) && NearBooks(R, st)
    ensures NearBooks(R, NearState(st.final + [best], st.seen + IdsOf(ms), st.log + clLog))
  {
    var st2 := NearState(st.final + [best], st.seen + IdsOf(ms), st.log + clLog);
    forall d | d in R && d.id in st2.seen
      ensures DropCount(st2.log, d.id) == if d in st2.final then 0 else 1
    {
      DropCountAppend(st.log, clLog, d.id);
      if d.id in st.seen {
        assert d.id !in IdsOf(ms) by {
          if d.id in IdsOf(ms) {
            IdsOfMember(ms, d.id);
          }
        }
        assert d != best;
      } else {
        IdsOfMember(ms, d.id);
        var m :| m in ms && m.id == d.id;
        DistinctIdsSame(R, m, d);
        assert d !in st.final;
      }
    }
    forall id | id !in st2.seen
      ensures DropCount(st2.log, id) == 0
    {
      DropCountAppend(st.log, clLog, id);
    }
    assert st.seen !! IdsOf(ms) by {
      forall id | id in IdsOf(ms)
        ensures id !in st.seen
      {
        IdsOfMember(ms, id);
      }
    }
    IdsOfCard(ms);
  }

  lemma {:induction false} NearBooksLoop(R: seq<Doc>, xs: seq<Doc>, sim: Similarity, parse: DateParser)
    requires DistinctIds(R) && Within(xs, R)
    ensures NearBooks(R, NearLoop(R, xs, sim, parse))
  {
    if xs != [] {
      var init, rep := xs[..|xs| - 1], xs[|xs| - 1];
      assert xs == init + [rep];
      NearShape(R, init, sim, parse);
      NearBooksLoop(R, init, sim, parse);
      NearLoopSnoc(R, init, rep, sim, parse);
      var st := NearLoop(R, init, sim, parse);
      if rep.id !in st.seen {
        ClusterFacts(R, st.seen, rep, sim, parse);
        var cl := Grow(rep, st.seen + {rep.id}, R, sim, parse);
        BooksFresh(R, st, cl.best, Members(rep, R, st.seen + {rep.id}, sim), cl.log);
      }
    }
  }

  // ---- what each logged pair says

  ghost predicate NearEntries(R: seq<Doc>, log: seq<Decision>) {
    forall e :: e in log ==>
      RankRespecting(e, R) && e.reason.NearDuplicate? && e.reason.score >= NearDupThreshold
  }

  lemma {:induction false} EntriesFresh(R: seq<Doc>, log: seq<Decision>, ms: seq<Doc>, best: Doc, clLog: seq<Decision>)
    requires NearEntries(R, log) && Within(ms, R) && ClusterLog(clLog, ms, best)
    ensures NearEntries(R, log + clLog)
  {
    forall e | e in log + clLog
      ensures RankRespecting(e, R)
    {
      if e in clLog {
        RankRespectingWithin(e, ms, R);
      }
    }
  }

  lemma {:induction false} NearEntriesLoop(R: seq<Doc>, xs: seq<Doc>, sim: Similarity, parse: DateParser)
    requires DistinctIds(R) && Within(xs, R)
    ensures NearEntries(R, NearLoop(R, xs, sim, parse).log)
  {
    if xs != [] {
      var init, rep := xs[..|xs| - 1], xs[|xs| - 1];
      assert xs == init + [rep];
      NearEntriesLoop(R, init, sim, parse);
      NearLoopSnoc(R, init, rep, sim, parse);
      var st := NearLoop(R, init, sim, parse);
      if rep.id !in st.seen {
        ClusterFacts(R, st.seen, rep, sim, parse);
        var cl := Grow(rep, st.seen + {rep.id}, R, sim, parse);
        EntriesFresh(R, st.log, Members(rep, R, st.seen + {rep.id}, sim), cl.best, cl.log);
      }
    }
  }

  /** The near-duplicate pass keeps some of the representatives, each at most
      once, and logs every other one exactly once, always in favour of a
      document of no worse source, with a score at the threshold or above. */
  lemma NearPassSpec(reps: seq<Doc>, sim: Similarity, parse: DateParser)
    requires DistinctIds(reps)
    ensures var (final, log) := NearPass(reps, sim, parse);
      && Within(final, reps) && DistinctIds(final)
      && |final| + |log| == |reps|
      && (forall d :: d in reps ==> DropCount(log, d.id) == if d in final then 0 else 1)
      && (forall id :: id !in IdsOf(reps) ==> DropCount(log, id) == 0)
      && (forall e :: e in log ==>
            RankRespecting(e, reps) && e.reason.NearDuplicate? && e.reason.score >= NearDupThreshold)
  {
    var st := NearLoop(reps, reps, sim, parse);
    NearShape(reps, reps, sim, parse);
    NearBooksLoop(reps, reps, sim, parse);
    NearEntriesLoop(reps, reps, sim, parse);
    NearFinish(reps, st);
  }

  /** Once every representative has been visited, all of them are seen. */
  lemma NearFinish(R: seq<Doc>, st: NearState)
    requires DistinctIds(R) && Shape(R, R, st) && NearBooks(R, st)
    ensures |st.final| + |st.log| == |R|
    ensures forall d :: d in R ==> DropCount(st.log, d.id) == if d in st.final then 0 else 1
    ensures forall id :: id !in IdsOf(R) ==> DropCount(st.log, id) == 0
  {
    assert st.seen == IdsOf(R);
    IdsOfCard(R);
  }

  /** A fresh representative contributes the resolver folded over its
      cluster, in visiting order, and one logged pair per other member. */
  lemma NearStepFresh(R: seq<Doc>, st: NearState, rep: Doc, sim: Similarity, parse: DateParser)
    requires DistinctIds(R) && rep in R && rep.id !in st.seen
    ensures var ms := Members(rep, R, st.seen + {rep.id}, sim);
            var st2 := NearStep(R, st, rep, sim, parse);
            && st2.final == st.final + [Fold(ms, parse).value]
            && |st2.log| == |st.log| + |ms| - 1
            && st2.seen == st.seen + IdsOf(ms)
  {
    ClusterFacts(R, st.seen, rep, sim, parse);
  }

  // ---- the clusters behind `final`

  /** The clusters the outer loop forms over the prefix xs, one per document
      of `final` and in the same order: the members of the cluster seeded by
      each representative that was still unseen. */
  function NearClusters(R: seq<Doc>, xs: seq<Doc>, sim: Similarity, parse: DateParser): seq<seq<Doc>> {
    if xs == [] then []
    else
      var init, rep := xs[..|xs| - 1], xs[|xs| - 1];
      var seen := NearLoop(R, init, sim, parse).seen;
      NearClusters(R, init, sim, parse)
        + (if rep.id in seen then [] else [Members(rep, R, seen + {rep.id}, sim)])
  }

  /** Each document of `final` is the resolver folded over its cluster. */
  ghost predicate Folded(R: seq<Doc>, final: seq<Doc>, cs: seq<seq<Doc>>, parse: DateParser) {
    && |cs| == |final|
    && forall i :: 0 <= i < |cs| ==> Within(cs[i], R) && Fold(cs[i], parse) == Some(final[i])
  }

  /** The clusters are disjoint and hold exactly the seen representatives. */
  ghost predicate Partition(R: seq<Doc>, seen: set<string>, cs: seq<seq<Doc>>) {
    && (forall i, d :: 0 <= i < |cs| && d in cs[i] ==> d.id in seen)
    && (forall d :: d in R && d.id in seen ==> exists i :: 0 <= i < |cs| && d in cs[i])
    && (forall i, j, d :: 0 <= i < j < |cs| && d in cs[i] ==> d !in cs[j])
  }

  /** The facts about one fresh cluster that the clusters need. */
  lemma ClusterCore(R: seq<Doc>, seen0: set<string>, rep: Doc, sim: Similarity, parse: DateParser)
    requires DistinctIds(R) && rep in R && rep.id !in seen0
    ensures var s := seen0 + {rep.id};
            var ms := Members(rep, R, s, sim);
            && Within(ms, R) && (forall d :: d in ms ==> d.id !in seen0)
            && Grow(rep, s, R, sim, parse).seen == seen0 + IdsOf(ms)
            && Fold(ms, parse) == Some(Grow(rep, s, R, sim, parse).best)
  {
    ClusterFacts(R, seen0, rep, sim, parse);
  }

  lemma {:induction false} FoldedFresh(R: seq<Doc>, final: seq<Doc>, cs: seq<seq<Doc>>, ms: seq<Doc>, best: Doc,
                                       parse: DateParser)
    requires Within(ms, R) && Fold(ms, parse) == Some(best)
    requires Folded(R, final, cs, parse)
    ensures Folded(R, final + [best], cs + [ms], parse)
  {
    var cs2, f2 := cs + [ms], final + [best];
    forall i | 0 <= i < |cs2|
      ensures Within(cs2[i], R) && Fold(cs2[i], parse) == Some(f2[i])
    {
      if i < |cs| {
        assert cs2[i] == cs[i] && f2[i] == final[i];
      }
    }
  }

  lemma {:induction false} PartitionFresh(R: seq<Doc>, seen: set<string>, cs: seq<seq<Doc>>, ms: seq<Doc>)
    requires DistinctIds(R) && Within(ms, R) && forall d :: d in ms ==> d.id !in seen
    requires Partition(R, seen, cs)
    ensures Partition(R, seen + IdsOf(ms), cs + [ms])
  {
    var cs2, seen2 := cs + [ms], seen + IdsOf(ms);
    forall i, d: Doc | 0 <= i < |cs2| && d in cs2[i]
      ensures d.id in seen2
    {
      if i < |cs| {
        assert cs2[i] == cs[i];
      }
    }
    forall d | d in R && d.id in seen2
      ensures exists i :: 0 <= i < |cs2| && d in cs2[i]
    {
      if d.id in seen {
        var i :| 0 <= i < |cs| && d in cs[i];
        assert cs2[i] == cs[i];
      } else {
        NewMember(R, ms, d);
        assert cs2[|cs|] == ms;
      }
    }
    forall i, j, d: Doc | 0 <= i < j < |cs2| && d in cs2[i]
      ensures d !in cs2[j]
    {
      assert cs2[i] == cs[i];
      if j < |cs| {
        assert cs2[j] == cs[j];
      } else {
        assert d.id in seen;
        assert cs2[j] == ms;
      }
    }
  }

  /** With distinct ids, a document of R whose id a sub-list of R holds is in it. */
  lemma NewMember(R: seq<Doc>, ms: seq<Doc>, d: Doc)
    requires DistinctIds(R) && Within(ms, R) && d in R && d.id in IdsOf(ms)
    ensures d in ms
  {
    IdsOfMember(ms, d.id);
    var m :| m in ms && m.id == d.id;
    assert m in R;
  }

  /** The folds after one more representative, from those before it. */
  lemma FoldedStep(R: seq<Doc>, init: seq<Doc>, rep: Doc, sim: Similarity, parse: DateParser)
    requires DistinctIds(R) && rep in R
    requires Folded(R, NearLoop(R, init, sim, parse).final, NearClusters(R, init, sim, parse), parse)
    ensures Folded(R, NearLoop(R, init + [rep], sim, parse).final, NearClusters(R, init + [rep], sim, parse), parse)
  {
    NearLoopSnoc(R, init, rep, sim, parse);
    assert (init + [rep])[..|init|] == init;
    var st := NearLoop(R, init, sim, parse);
    var cs := NearClusters(R, init, sim, parse);
    if rep.id in st.seen {
      assert NearLoop(R, init + [rep], sim, parse) == st;
      assert NearClusters(R, init + [rep], sim, parse) == cs + [] == cs;
    } else {
      ClusterCore(R, st.seen, rep, sim, parse);
      var cl := Grow(rep, st.seen + {rep.id}, R, sim, parse);
      var ms := Members(rep, R, st.seen + {rep.id}, sim);
      assert NearClusters(R, init + [rep], sim, parse) == cs + [ms];
      FoldedFresh(R, st.final, cs, ms, cl.best, parse);
    }
  }

  /** The partition after one more representative, from the one before it. */
  lemma PartitionStep(R: seq<Doc>, init: seq<Doc>, rep: Doc, sim: Similarity, parse: DateParser)
    requires DistinctIds(R) && rep in R
    requires Partition(R, NearLoop(R, init, sim, parse).seen, NearClusters(R, init, sim, parse))
    ensures Partition(R, NearLoop(R, init + [rep], sim, parse).seen, NearClusters(R, init + [rep], sim, parse))
  {
    NearLoopSnoc(R, init, rep, sim, parse);
    assert (init + [rep])[..|init|] == init;
    var st := NearLoop(R, init, sim, parse);
    var cs := NearClusters(R, init, sim, parse);
    if rep.id in st.seen {
      assert NearLoop(R, init + [rep], sim, parse) == st;
      assert NearClusters(R, init + [rep], sim, parse) == cs + [] == cs;
    } else {
      ClusterCore(R, st.seen, rep, sim, parse);
      var ms := Members(rep, R, st.seen + {rep.id}, sim);
      assert NearLoop(R, init + [rep], sim, parse).seen == st.seen + IdsOf(ms);
      assert NearClusters(R, init + [rep], sim, parse) == cs + [ms];
      PartitionFresh(R, st.seen, cs, ms);
    }
  }

  lemma {:induction false} NearClusteredLoop(R: seq<Doc>, xs: seq<Doc>, sim: Similarity, parse: DateParser)
    requires DistinctIds(R) && Within(xs, R)
    ensures var st := NearLoop(R, xs, sim, parse);
            var cs := NearClusters(R, xs, sim, parse);
            Folded(R, st.final, cs, parse) && Partition(R, st.seen, cs)
  {
    if xs != [] {
      var init, rep := xs[..|xs| - 1], xs[|xs| - 1];
      assert xs == init + [rep];
      NearClusteredLoop(R, init, sim, parse);
      FoldedStep(R, init, rep, sim, parse);
      PartitionStep(R, init, rep, sim, parse);
    }
  }

  /** Disjoint clusters holding every representative, each folded into its
      final document, leave every representative a final document of no
      worse rank in its cluster. */
  lemma CoversFromClusters(R: seq<Doc>, final: seq<Doc>, seen: set<string>, cs: seq<seq<Doc>>, parse: DateParser)
    requires Folded(R, final, cs, parse) && Partition(R, seen, cs)
    requires forall d :: d in R ==> d.id in seen
    ensures forall d :: d in R ==> exists i :: 0 <= i < |cs| && d in cs[i] && Rank(final[i]) <= Rank(d)
  {
    forall d | d in R
      ensures exists i :: 0 <= i < |cs| && d in cs[i] && Rank(final[i]) <= Rank(d)
    {
      var i :| 0 <= i < |cs| && d in cs[i];
      assert Fold(cs[i], parse) == Some(final[i]);
    }
  }

  /** The representatives fall into disjoint clusters, one per document of
      `final`; each final document is the resolver folded over its cluster,
      so its source is at least as authoritative as every member's. */
  lemma NearCovers(reps: seq<Doc>, sim: Similarity, parse: DateParser)
    requires DistinctIds(reps)
    ensures var final := NearPass(reps, sim, parse).0;
            var cs := NearClusters(reps, reps, sim, parse);
            && |cs| == |final|
            && (forall i :: 0 <= i < |cs| ==> Within(cs[i], reps) && Fold(cs[i], parse) == Some(final[i]))
            && (forall d :: d in reps ==> exists i :: 0 <= i < |cs| && d in cs[i] && Rank(final[i]) <= Rank(d))
            && (forall i, j, d :: 0 <= i < j < |cs| && d in cs[i] ==> d !in cs[j])
  {
    var st := NearLoop(reps, reps, sim, parse);
    NearShape(reps, reps, sim, parse);
    assert forall d :: d in reps ==> d.id in st.seen;
    NearClusteredLoop(reps, reps, sim, parse);
    CoversFromClusters(reps, st.final, st.seen, NearClusters(reps, reps, sim, parse), parse);
  }
}

=== FILE: preference.dfy ===
/** The pairwise preference resolver `choose_preferred` and the left fold that
    repeated resolution against a current representative computes. */
module Preference {
  import opened Wrappers
  import opened Docs

  /** `datetime.datetime.fromisoformat`, abstracted: a partial map from date
      strings to points of a totally ordered time line (None = it raised). */
  type DateParser = string -> Option<int>

  /** The date as the resolver sees it: an empty date is `None` and never
      reaches the parser. */
  function DateKey(date: string, parse: DateParser): Option<int> {
    if date == "" then None else parse(date)
  }

  /** The date criterion applies: both dates are present, both parse, and they
      differ. In every other case the source falls through to the id. */
  predicate DatesDecide(a: Doc, b: Doc, parse: DateParser) {
    var da, db := DateKey(a.date, parse), DateKey(b.date, parse);
    da.Some? && db.Some? && da.value != db.value
  }

  function Min(x: int, y: int): int { if x <= y then x else y }
  function Max(x: int, y: int): int { if x >= y then x else y }

  /** `choose_preferred(a, b)`: lower source rank, then longer text, then the
      earlier date, then the smaller id, with `a` on equal ids. */
  function ChoosePreferred(a: Doc, b: Doc, parse: DateParser): (r: Doc)
    ensures r == a || r == b
    // rank first: the kept document has the smaller rank of the two
    ensures Rank(r) == Min(Rank(a), Rank(b))
    // on a rank tie, the longer text
    ensures Rank(a) == Rank(b) ==> |r.text| == Max(|a.text|, |b.text|)
    // on a length tie, the earlier date when the date criterion applies
    ensures Rank(a) == Rank(b) && |a.text| == |b.text| && DatesDecide(a, b, parse) ==>
              DateKey(r.date, parse).value
              == Min(DateKey(a.date, parse).value, DateKey(b.date, parse).value)
    // otherwise the id that comes first, and the first argument on equal ids
    ensures Rank(a) == Rank(b) && |a.text| == |b.text| && !DatesDecide(a, b, parse) ==>
              LexLe(r.id, a.id) && LexLe(r.id, b.id) && (a.id == b.id ==> r == a)
  {
    var ra, rb := Rank(a), Rank(b);
    LexLeReflexive(a.id);
    LexLeReflexive(b.id);
    LexLeTotal(a.id, b.id);
    if ra != rb then
      (if ra < rb then a else b)
    else if |a.text| != |b.text| then
      (if |a.text| > |b.text| then a else b)
    else if DatesDecide(a, b, parse) then
      (if DateKey(a.date, parse).value < DateKey(b.date, parse).value then a else b)
    else
      (if LexLe(a.id, b.id) then a else b)
  }

  /** For different ids, the argument order does not matter. */
  lemma ChoosePreferredSymmetric(a: Doc, b: Doc, parse: DateParser)
    requires a.id != b.id
    ensures ChoosePreferred(a, b, parse) == ChoosePreferred(b, a, parse)
  {
    LexLeStrict(a.id, b.id);
  }

  /** The kept document of any pair has the smaller rank and is one of the pair.
      With distinct ids, comparing ids (as the dedup passes do) is the same as
      comparing documents. */
  lemma PreferredById(a: Doc, b: Doc, parse: DateParser)
    requires a.id != b.id
    ensures ChoosePreferred(a, b, parse).id == a.id <==> ChoosePreferred(a, b, parse) == a
    ensures ChoosePreferred(a, b, parse).id == b.id <==> ChoosePreferred(a, b, parse) == b
  {
  }

  /** The left fold of the resolver over xs: the first document, then each
      later one resolved against the current representative. */
  function Fold(xs: seq<Doc>, parse: DateParser): (r: Option<Doc>)
    ensures r.None? <==> xs == []
    ensures r.Some? ==> r.value in xs
    ensures r.Some? ==> forall x :: x in xs ==> Rank(r.value) <= Rank(x)
  {
    if xs == [] then None
    else
      var init, last := xs[..|xs| - 1], xs[|xs| - 1];
      assert xs == init + [last];
      match Fold(init, parse)
      case None => Some(last)
      case Some(c) => Some(ChoosePreferred(c, last, parse))
  }

  lemma FoldSnoc(xs: seq<Doc>, x: Doc, parse: DateParser)
    ensures Fold(xs + [x], parse)
            == if xs == [] then Some(x) else Some(ChoosePreferred(Fold(xs, parse).value, x, parse))
  {
    assert (xs + [x])[..|xs|] == xs;
  }

  // A counterexample to transitivity: equal rank and text length, one date missing.

  const CycleParser: DateParser :=
    s => if s == "2021-01-01" then Some(2021) else if s == "2020-01-01" then Some(2020) else None

  function CycleDoc(id: string, date: string): Doc {
    Doc(id, "", date, "Medium", "", [], "CC-BY-4.0", "en", "same length")
  }

  /** a beats b (b has no date, so ids decide), b beats c (ids again), but c
      beats a (both dates parse, 2020 < 2021): the resolver is not transitive,
      so the representative of a group depends on arrival order. */
  lemma PreferenceIsNotTransitive()
    ensures var a, b, c := CycleDoc("a", "2021-01-01"), CycleDoc("b", ""), CycleDoc("c", "2020-01-01");
            && ChoosePreferred(a, b, CycleParser) == a
            && ChoosePreferred(b, c, CycleParser) == b
            && ChoosePreferred(c, a, CycleParser) == c
            && Fold([a, b, c], CycleParser) == Some(c)
            && Fold([b, c, a], CycleParser) == Some(a)
  {
    var a, b, c := CycleDoc("a", "2021-01-01"), CycleDoc("b", ""), CycleDoc("c", "2020-01-01");
    assert LexLe(a.id, b.id) && LexLe(b.id, c.id);
    assert !DatesDecide(a, b, CycleParser) && !DatesDecide(b, c, CycleParser);
    assert DatesDecide(c, a, CycleParser);
    FoldSnoc([a], b, CycleParser);
    FoldSnoc([a, b], c, CycleParser);
    FoldSnoc([b], c, CycleParser);
    FoldSnoc([b, c], a, CycleParser);
    assert [a, b] + [c] == [a, b, c];
    assert [a] + [b] == [a, b];
    assert [b, c] + [a] == [b, c, a];
    assert [b] + [c] == [b, c];
  }
}

=== FILE: substack.dfy ===
/** `scripts/import_substack.py`: one Substack feed entry becomes a content
    entry `content/<year>/<slug>/index.md` and a plain mirror
    `plain/sb-<ymd>-<slug>.txt`. */
module Substack {
  import opened Wrappers
  import opened Text
  import opened Docs
  import opened Feeds
  import Corpus

  const IdPrefix: string := "sb-"
  const Source: string := "Substack"

  /** The canonical-URL loop as written: start from the entry's link (or
      id), then let the first link whose rel is "alternate" or missing and
      whose href is set override it. */
  method Canonical(link: string, id: string, links: seq<Link>) returns (canonical: string)
    ensures canonical == CanonicalUrl(link, id, links, AlternateOrMissingRel)
  {
    canonical := Or(link, id);
    var i := 0;
    while i < |links|
      invariant 0 <= i <= |links|
      invariant canonical == Or(link, id)
      invariant FirstLink(links, AlternateOrMissingRel) == FirstLink(links[i..], AlternateOrMissingRel)
    {
      assert links[i..][1..] == links[i + 1..];
      if AlternateOrMissingRel(links[i].rel) && links[i].href != "" {
        canonical := links[i].href;
        break;
      }
      i := i + 1;
    }
  }

  /** The pass before the collapse: "\r" removed. */
  function Passes(t: string): string {
    RemoveChar(t, '\r')
  }

  /** The pass only removes whitespace, and a trimmed text stays trimmed. */
  lemma PassesSpec(t: string)
    requires Trimmed(t)
    ensures Squeeze(Passes(t)) == Squeeze(t)
    ensures Trimmed(Passes(t))
  {
  }

  /** The pass leaves the words left once "\r" is removed. */
  lemma PassesWords(t: string)
    ensures Words(Passes(t)) == Words(RemoveChar(t, '\r'))
  {
  }

  /** A single-spaced text goes through the pass unchanged. */
  lemma PassesFixed(t: string)
    requires SingleSpaced(t)
    ensures Passes(t) == t
  {
    SingleSpacedNoBreaks(t);
  }

  /** The plain mirror written at line 142: a blank body gives "\n";
      otherwise the body's words with single plain spaces between them, no
      line break and nothing around them. */
  function PlainMirror(content: string): (r: string)
    ensures r != ""
    ensures AllSpace(content) <==> r == "\n"
    ensures !AllSpace(content) ==> Trimmed(r) && SingleSpaced(r) && Squeeze(r) == Squeeze(content)
    // the words are the body's, split at every whitespace run; only a removed
    // "\r" joins the characters on either side
    ensures Words(r) == Words(RemoveChar(content, '\r'))
  {
    var t := Strip(content);
    StripRemoveWords(content, '\r');
    PassesWords(t);
    PassesSpec(t);
    SqueezeAllSpace(t);
    SqueezeAllSpace(content);
    SqueezeAllSpace(Passes(t));
    CollapseAndMark(Passes(t))
  }

  /** The mirror has no line break except the lone "\n" of a blank body. */
  lemma PlainMirrorOneLine(content: string)
    ensures PlainMirror(content) == "\n" || ('\n' !in PlainMirror(content) && '\r' !in PlainMirror(content))
  {
    if !AllSpace(content) {
      SingleSpacedNoBreaks(PlainMirror(content));
    }
  }

  /** Cleaning a mirror again changes nothing. */
  lemma PlainMirrorIdempotent(content: string)
    ensures PlainMirror(PlainMirror(content)) == PlainMirror(content)
  {
    var r := PlainMirror(content);
    if r == "\n" {
      assert AllSpace(r);
    } else {
      SqueezeAllSpace(r);
      SqueezeAllSpace(content);
      assert !AllSpace(r);
      StripTrimmed(r);
      PassesFixed(r);
      CollapseAndMarkFixed(r);
    }
  }

  /** `process_entry` for a Substack entry. The fetched and converted HTML is
      the parameter `bodyMd`, `slugify` stands for `slugify(title,
      max_length=80)`, and `entryExists` says whether `index.md` is there. */
  function ProcessEntry(e: Entry, feedUrl: string, today: CalendarDate, slugify: string -> string,
                        bodyMd: string, entryExists: bool, force: bool): (r: Outcome)
    ensures r == Failed <==> !ValidDate(EntryDate(e, today))
    ensures r.Skipped? <==> ValidDate(EntryDate(e, today)) && entryExists && !force
    ensures r.Written? <==> ValidDate(EntryDate(e, today)) && (!entryExists || force)
    ensures r.Skipped? ==> r.id == IdPrefix + DateDigits(EntryDate(e, today)) + "-"
                                     + slugify(NormalizeTitle(TitleText(e.title, e.summary)))
  {
    var date := EntryDate(e, today);
    if !ValidDate(date) then Failed
    else
      var title := NormalizeTitle(TitleText(e.title, e.summary));
      var names := Names(IdPrefix, date, slugify(title));
      if entryExists && !force then Skipped(names.id)
      else
        var dateStr := IsoFormat(date);
        var fm := FeedFrontMatter(names.id, title, dateStr, Source, feedUrl,
                                  CanonicalUrl(e.link, e.id, e.links, AlternateOrMissingRel), MapTags(e.tags),
                                  FeedLanguage, FeedLicense, OriginalFormat);
        var body := Body(bodyMd, e.summary);
        Written(names, fm, body, PlainMirror(body))
  }

  /** A written entry's title is normalised, its id is the prefix, the
      eight date digits and the slug of that title, its date string parses
      back to the entry's date, and its paths are named after the id, the
      year and the slug. */
  lemma WrittenNames(e: Entry, feedUrl: string, today: CalendarDate, slugify: string -> string,
                     bodyMd: string, entryExists: bool, force: bool)
    requires ValidDate(EntryDate(e, today)) && (!entryExists || force)
    ensures var r := ProcessEntry(e, feedUrl, today, slugify, bodyMd, entryExists, force);
      var fm := r.frontMatter;
      && fm.title == NormalizeTitle(TitleText(e.title, e.summary))
      && fm.id == IdPrefix + DateDigits(EntryDate(e, today)) + "-" + slugify(fm.title)
      && ParseIso(fm.date) == Some(EntryDate(e, today))
      && r.names.id == fm.id
      && r.names.mirrorFile == "plain/" + PlainMirrorName(fm.id)
      && r.names.entryDir == "content/" + fm.date[..4] + "/" + slugify(fm.title)
  {
    IsoRoundTrip(EntryDate(e, today));
  }

  /** The rest of a written entry's front matter and its two texts: the
      source, the canonical URL, the mapped tags, the fixed language, licence
      and format, the body, and the mirror cleaned from that body. */
  lemma WrittenFrontMatter(e: Entry, feedUrl: string, today: CalendarDate, slugify: string -> string,
                           bodyMd: string, entryExists: bool, force: bool)
    requires ValidDate(EntryDate(e, today)) && (!entryExists || force)
    ensures var r := ProcessEntry(e, feedUrl, today, slugify, bodyMd, entryExists, force);
      var fm := r.frontMatter;
      && fm.sourceName == Source && fm.sourceUrl == feedUrl
      && fm.canonicalUrl == CanonicalUrl(e.link, e.id, e.links, AlternateOrMissingRel)
      && fm.tags == MapTags(e.tags)
      && fm.language == FeedLanguage && fm.license == FeedLicense && fm.originalFormat == OriginalFormat
      && r.body == Body(bodyMd, e.summary)
      && r.mirrorText == PlainMirror(r.body)
  {
  }

  /** What the dataset builder reads back: a front matter carrying the
      written id and source, next to the written mirror, loads as a document
      with that id, the source "Substack" and the mirror's text. */
  lemma WrittenEntryLoads(e: Entry, feedUrl: string, today: CalendarDate, slugify: string -> string,
                          bodyMd: string, entryExists: bool, force: bool,
                          loaded: Corpus.FrontMatter, dirName: string,
                          plain: string -> Option<string>, converted: string)
    requires ValidDate(EntryDate(e, today)) && (!entryExists || force)
    requires var r := ProcessEntry(e, feedUrl, today, slugify, bodyMd, entryExists, force);
      && loaded.id == r.frontMatter.id
      && loaded.source == Corpus.SourceMap(r.frontMatter.sourceName)
      && plain(PlainMirrorName(r.frontMatter.id)) == Some(r.mirrorText)
    ensures var r := ProcessEntry(e, feedUrl, today, slugify, bodyMd, entryExists, force);
      var d := Corpus.LoadPost(loaded, dirName, plain, converted);
      && d.id == r.frontMatter.id && d.source == Source && d.text == r.mirrorText
      && Rank(d) == 3
  {
    var r := ProcessEntry(e, feedUrl, today, slugify, bodyMd, entryExists, force);
    var fm := r.frontMatter;
    WrittenFrontMatter(e, feedUrl, today, slugify, bodyMd, entryExists, force);
    WrittenNames(e, feedUrl, today, slugify, bodyMd, entryExists, force);
    assert |fm.id| >= |IdPrefix|;
    Corpus.LoadWithMirror(loaded, dirName, plain, converted, fm.id, Source, r.mirrorText);
  }
}

=== FILE: text.dfy ===
/** Whitespace handling shared by the import scripts and the dataset builder.
    Python's `str.strip()`, `str.isspace()` and the regular-expression class
    `\s` on `str` patterns all use one set of whitespace characters, which
    `IsSpace` spells out. */
module Text {

  /** Python's `str.isspace()` on a single character. */
  predicate IsSpace(c: char) {
    || ('\t' <= c <= '\r')
    || ('\U{1c}' <= c <= '\U{1f}')
    || c == ' '
    || c == '\U{85}'
    || c == '\U{a0}'
    || c == '\U{1680}'
    || ('\U{2000}' <= c <= '\U{200a}')
    || c == '\U{2028}'
    || c == '\U{2029}'
    || c == '\U{202f}'
    || c == '\U{205f}'
    || c == '\U{3000}'
  }

  predicate AllSpace(s: string) {
    forall i :: 0 <= i < |s| ==> IsSpace(s[i])
  }

  /** Neither end of s is whitespace (vacuously true of ""). */
  predicate Trimmed(s: string) {
    s == [] || (!IsSpace(s[0]) && !IsSpace(s[|s| - 1]))
  }

  /** Every whitespace character of s is a plain space. */
  predicate PlainSpacesOnly(s: string) {
    forall i :: 0 <= i < |s| && IsSpace(s[i]) ==> s[i] == ' '
  }

  /** No two neighbouring characters of s are both whitespace. */
  predicate NoDoubleSpace(s: string) {
    forall i :: 0 <= i < |s| - 1 ==> !(IsSpace(s[i]) && IsSpace(s[i + 1]))
  }

  /** What `re.sub(r"\s+", " ", ...)` leaves behind: single plain spaces. */
  predicate SingleSpaced(s: string) {
    PlainSpacesOnly(s) && NoDoubleSpace(s)
  }

  /** The non-whitespace characters of s, in order: the "content" that the
      whitespace rewrites in this project never change. */
  function Squeeze(s: string): string {
    if s == [] then [] else (if IsSpace(s[0]) then [] else [s[0]]) + Squeeze(s[1..])
  }

  lemma {:induction false} SqueezeAppend(a: string, b: string)
    ensures Squeeze(a + b) == Squeeze(a) + Squeeze(b)
  {
    if a == [] {
      assert a + b == b;
    } else {
      var head := if IsSpace(a[0]) then [] else [a[0]];
      SqueezeAppend(a[1..], b);
      AppendTail(a, b);
      assert Squeeze(a + b) == head + Squeeze(a[1..] + b);
      AppendAssoc(head, Squeeze(a[1..]), Squeeze(b));
    }
  }

  lemma SqueezeAllSpace(s: string)
    ensures AllSpace(s) <==> Squeeze(s) == []
  {
    if s != [] {
      SqueezeAllSpace(s[1..]);
      if AllSpace(s[1..]) && IsSpace(s[0]) {
        assert AllSpace(s);
      }
    }
  }

  /** Dropping a whitespace prefix leaves the content unchanged. */
  lemma SqueezeDropSpace(s: string, n: nat)
    requires n <= |s| && AllSpace(s[..n])
    ensures Squeeze(s[n..]) == Squeeze(s)
  {
    assert Squeeze(s) == Squeeze(s[..n]) + Squeeze(s[n..]) by {
      assert s == s[..n] + s[n..];
      SqueezeAppend(s[..n], s[n..]);
    }
    SqueezeAllSpace(s[..n]);
  }

  /** Dropping a whitespace suffix leaves the content unchanged. */
  lemma SqueezeDropTrailingSpace(s: string, n: nat)
    requires n <= |s| && AllSpace(s[n..])
    ensures Squeeze(s[..n]) == Squeeze(s)
  {
    assert Squeeze(s) == Squeeze(s[..n]) + Squeeze(s[n..]) by {
      assert s == s[..n] + s[n..];
      SqueezeAppend(s[..n], s[n..]);
    }
    SqueezeAllSpace(s[n..]);
  }

  /** Length of the whitespace run at the front of s. */
  function LeadingSpace(s: string): (n: nat)
    ensures n <= |s|
    ensures forall i :: 0 <= i < n ==> IsSpace(s[i])
    ensures n < |s| ==> !IsSpace(s[n])
  {
    if s != [] && IsSpace(s[0]) then 1 + LeadingSpace(s[1..]) else 0
  }

  lemma SplitAt<T>(s: seq<T>, n: nat)
    requires n <= |s|
    ensures s == s[..n] + s[n..]
  {
  }

  lemma AppendAssoc<T>(a: seq<T>, b: seq<T>, c: seq<T>)
    ensures a + (b + c) == (a + b) + c
  {
  }

  lemma AppendTail<T>(a: seq<T>, b: seq<T>)
    requires a != []
    ensures (a + b)[0] == a[0] && (a + b)[1..] == a[1..] + b
  {
  }

  lemma LeadingRun(s: string)
    ensures AllSpace(s[..LeadingSpace(s)])
  {
    var n := LeadingSpace(s);
    forall i | 0 <= i < n
      ensures IsSpace(s[..n][i])
    {
      assert s[..n][i] == s[i];
    }
  }

  /** Length of the whitespace run at the back of s. */
  function TrailingSpace(s: string): (n: nat)
    ensures n <= |s|
    ensures forall i :: |s| - n <= i < |s| ==> IsSpace(s[i])
    ensures n < |s| ==> !IsSpace(s[|s| - 1 - n])
  {
    if s != [] && IsSpace(s[|s| - 1]) then 1 + TrailingSpace(s[..|s| - 1]) else 0
  }

  /** Python's `s.strip()`: whitespace removed from both ends. The result is
      the part of s between its leading and its trailing whitespace run. */
  function Strip(s: string): (r: string)
    ensures r == [] <==> AllSpace(s)
    ensures Trimmed(r)
    ensures Squeeze(r) == Squeeze(s)
    ensures |r| <= |s|
  {
    var a := LeadingSpace(s);
    var t := s[a..];
    var b := |t| - TrailingSpace(t);
    assert AllSpace(s[..a]);
    assert AllSpace(t[b..]);
    SqueezeDropSpace(s, a);
    SqueezeDropTrailingSpace(t, b);
    SqueezeAllSpace(s);
    SqueezeAllSpace(t[..b]);
    t[..b]
  }

  /** Strip changes nothing on a string that is already trimmed. */
  lemma StripTrimmed(s: string)
    requires Trimmed(s)
    ensures Strip(s) == s
  {
  }

  // ---- words: what `str.split()` returns

  /** The length of the non-whitespace run at the front of s. */
  function WordLen(s: string): (n: nat)
    ensures n <= |s|
  {
    if s == [] || IsSpace(s[0]) then 0 else 1 + WordLen(s[1..])
  }

  /** Python's `s.split()`: the maximal runs of non-whitespace characters of
      s, in order. */
  function Words(s: string): seq<string>
    decreases |s|
  {
    if s == [] then []
    else if IsSpace(s[0]) then Words(s[1..])
    else [s[..WordLen(s)]] + Words(s[WordLen(s)..])
  }

  /** s opens inside a word, so a word in front of it would run on. */
  predicate StartsWord(s: string) {
    s != [] && !IsSpace(s[0])
  }

  /** x and y have the same words and agree on opening inside a word, so
      any common prefix keeps them alike. */
  predicate SameWords(x: string, y: string) {
    Words(x) == Words(y) && StartsWord(x) == StartsWord(y)
  }

  /** One character in front of t: whitespace adds nothing, anything else
      joins t's first word or stands as a word of its own. */
  lemma WordsCons(c: char, t: string)
    ensures IsSpace(c) ==> Words([c] + t) == Words(t)
    ensures !IsSpace(c) && StartsWord(t) ==>
              Words(t) != [] && Words([c] + t) == [[c] + Words(t)[0]] + Words(t)[1..]
    ensures !IsSpace(c) && !StartsWord(t) ==> Words([c] + t) == [[c]] + Words(t)
  {
    var s := [c] + t;
    assert s[1..] == t;
    if !IsSpace(c) {
      var k := WordLen(t);
      assert WordLen(s) == 1 + k;
      assert s[..k + 1] == [c] + t[..k];
      assert s[k + 1..] == t[k..];
      if !StartsWord(t) {
        assert t[..k] == [] && t[k..] == t;
      }
    }
  }

  /** Texts with the same words, that agree on opening inside a word, stay
      alike behind any common prefix. */
  lemma {:induction false} WordsCongruence(a: string, x: string, y: string)
    requires Words(x) == Words(y) && StartsWord(x) == StartsWord(y)
    ensures Words(a + x) == Words(a + y)
    ensures StartsWord(a + x) == StartsWord(a + y)
  {
    if a == [] {
      assert a + x == x && a + y == y;
    } else {
      WordsCongruence(a[1..], x, y);
      assert a + x == [a[0]] + (a[1..] + x);
      assert a + y == [a[0]] + (a[1..] + y);
      WordsCons(a[0], a[1..] + x);
      WordsCons(a[0], a[1..] + y);
    }
  }

  /** Leading whitespace adds no word. */
  lemma {:induction false} WordsDropSpace(w: string, t: string)
    requires AllSpace(w)
    ensures Words(w + t) == Words(t)
  {
    if w == [] {
      assert w + t == t;
    } else {
      assert w + t == [w[0]] + (w[1..] + t);
      WordsCons(w[0], w[1..] + t);
      assert AllSpace(w[1..]);
      WordsDropSpace(w[1..], t);
    }
  }

  /** Trailing whitespace adds no word. */
  lemma WordsDropTrailingSpace(t: string, w: string)
    requires AllSpace(w)
    ensures Words(t + w) == Words(t)
  {
    assert w + [] == w && t + [] == t;
    WordsDropSpace(w, []);
    WordsCongruence(t, w, []);
  }

  /** Two non-empty whitespace runs in front of texts with the same words
      give the same words, and neither result opens inside a word. */
  lemma WordsSwapSpace(u: string, x: string, v: string, y: string)
    requires u != [] && v != [] && AllSpace(u) && AllSpace(v) && Words(x) == Words(y)
    ensures Words(u + x) == Words(v + y)
    ensures !StartsWord(u + x) && !StartsWord(v + y)
  {
    WordsDropSpace(u, x);
    WordsDropSpace(v, y);
    assert (u + x)[0] == u[0] && (v + y)[0] == v[0];
  }

  /** A leading whitespace character adds no word, also after removing a
      whitespace character c. */
  lemma WordsSpaceHead(s: string, c: char)
    requires IsSpace(c) && s != [] && IsSpace(s[0])
    ensures Words(s) == Words(s[1..])
    ensures Words(RemoveChar(s, c)) == Words(RemoveChar(s[1..], c))
  {
    assert Words(s) == Words(s[1..]) by {
      assert s == [s[0]] + s[1..];
      WordsCons(s[0], s[1..]);
    }
    if s[0] != c {
      assert RemoveChar(s, c) == [s[0]] + RemoveChar(s[1..], c);
      WordsCons(s[0], RemoveChar(s[1..], c));
    }
  }

  /** Dropping the leading whitespace run keeps the words, also after
      removing a whitespace character c. */
  lemma {:induction false} WordsLeading(s: string, c: char)
    requires IsSpace(c)
    ensures Words(s[LeadingSpace(s)..]) == Words(s)
    ensures Words(RemoveChar(s[LeadingSpace(s)..], c)) == Words(RemoveChar(s, c))
  {
    if s != [] && IsSpace(s[0]) {
      WordsLeading(s[1..], c);
      LeadingTail(s);
      WordsSpaceHead(s, c);
    }
  }

  /** Dropping the trailing whitespace run keeps the words, also after
      removing a whitespace character c. */
  lemma WordsTrailing(t: string, c: char)
    requires IsSpace(c)
    ensures Words(t[..|t| - TrailingSpace(t)]) == Words(t)
    ensures Words(RemoveChar(t[..|t| - TrailingSpace(t)], c)) == Words(RemoveChar(t, c))
  {
    var k := |t| - TrailingSpace(t);
    var kept, run := t[..k], t[k..];
    SplitAt(t, k);
    assert AllSpace(run);
    WordsDropTrailingSpace(kept, run);
    RemoveCharAppend(kept, run, c);
    RemoveSpaceAllSpace(run, c);
    WordsDropTrailingSpace(RemoveChar(kept, c), RemoveChar(run, c));
  }

  lemma LeadingTail(s: string)
    requires s != [] && IsSpace(s[0])
    ensures s[LeadingSpace(s)..] == s[1..][LeadingSpace(s[1..])..]
  {
  }

  /** Stripping keeps the words. */
  lemma StripWords(s: string)
    ensures Words(Strip(s)) == Words(s)
  {
    var t := s[LeadingSpace(s)..];
    assert Strip(s) == t[..|t| - TrailingSpace(t)];
    WordsLeading(s, ' ');
    WordsTrailing(t, ' ');
  }

  /** Removing a whitespace character before or after stripping leaves the
      same words. */
  lemma StripRemoveWords(s: string, c: char)
    requires IsSpace(c)
    ensures Words(RemoveChar(Strip(s), c)) == Words(RemoveChar(s, c))
  {
    var t := s[LeadingSpace(s)..];
    assert Strip(s) == t[..|t| - TrailingSpace(t)];
    WordsLeading(s, c);
    WordsTrailing(t, c);
  }

  /** Removing a whitespace character keeps a whitespace text whitespace. */
  lemma RemoveSpaceAllSpace(w: string, c: char)
    requires IsSpace(c) && AllSpace(w)
    ensures AllSpace(RemoveChar(w, c))
  {
    SqueezeAllSpace(w);
    SqueezeAllSpace(RemoveChar(w, c));
  }

  /** A character that is kept survives the removal of another. */
  lemma {:induction false} RemoveCharKeeps(s: string, c: char, d: char)
    requires d in s && d != c
    ensures d in RemoveChar(s, c)
  {
    if s[0] != d {
      assert d in s[1..];
      RemoveCharKeeps(s[1..], c, d);
    }
  }

  /** `re.sub(r"\s+", " ", s)`: every maximal whitespace run becomes one
      plain space and everything else is kept. */
  function CollapseSpace(s: string): (r: string)
    ensures Collapsed(s, r)
    decreases |s|
  {
    if s == [] then []
    else if IsSpace(s[0]) then
      var n := LeadingSpace(s);
      var rest := CollapseSpace(s[n..]);
      CollapseRunStep(s, n, rest);
      " " + rest
    else
      var rest := CollapseSpace(s[1..]);
      CollapseCharStep(s, rest);
      [s[0]] + rest
  }

  /** What CollapseSpace promises of r for s: single plain spaces, the same
      non-space characters, emptiness, and whitespace at the ends exactly
      where s has it. */
  predicate Collapsed(s: string, r: string) {
    && SingleSpaced(r)
    && Squeeze(r) == Squeeze(s)
    && (r == [] <==> s == [])
    && (r != [] ==> (IsSpace(r[0]) <==> IsSpace(s[0])))
    && (r != [] ==> (IsSpace(r[|r| - 1]) <==> IsSpace(s[|s| - 1])))
  }

  /** A leading whitespace run written as one space. */
  lemma CollapseRunStep(s: string, n: nat, rest: string)
    requires s != [] && IsSpace(s[0]) && n == LeadingSpace(s)
    requires Collapsed(s[n..], rest)
    ensures Collapsed(s, " " + rest)
  {
    assert AllSpace(s[..n]);
    SqueezeDropSpace(s, n);
    SingleSpacedCons(' ', rest);
    var r := " " + rest;
    if rest == [] {
      assert s[n..] == [];
      assert s[|s| - 1] == s[..n][|s| - 1];
    } else {
      assert r[|r| - 1] == rest[|rest| - 1];
      assert s[|s| - 1] == s[n..][|s[n..]| - 1];
    }
  }

  /** A leading non-space character copied. */
  lemma CollapseCharStep(s: string, rest: string)
    requires s != [] && !IsSpace(s[0])
    requires Collapsed(s[1..], rest)
    ensures Collapsed(s, [s[0]] + rest)
  {
    SingleSpacedCons(s[0], rest);
    var r := [s[0]] + rest;
    assert Squeeze(r) == [s[0]] + Squeeze(rest) by {
      assert r[1..] == rest;
    }
    if rest != [] {
      assert r[|r| - 1] == rest[|rest| - 1];
      assert s[|s| - 1] == s[1..][|s[1..]| - 1];
    }
  }

  /** CollapseSpace keeps the words: each whitespace run becomes exactly one
      space, so no two words run together and none is split. */
  lemma {:induction false} CollapseSpaceWords(s: string)
    ensures Words(CollapseSpace(s)) == Words(s)
    ensures StartsWord(CollapseSpace(s)) == StartsWord(s)
    decreases |s|
  {
    if s != [] {
      if IsSpace(s[0]) {
        var n := LeadingSpace(s);
        assert AllSpace(s[..n]);
        CollapseSpaceWords(s[n..]);
        SpaceRunWords(s, n, CollapseSpace(s[n..]));
      } else {
        CollapseSpaceWords(s[1..]);
        HeadCharWords(s, CollapseSpace(s[1..]));
      }
    }
  }

  /** A leading whitespace run written as one space keeps the words. */
  lemma SpaceRunWords(s: string, n: nat, rest: string)
    requires n <= |s| && AllSpace(s[..n]) && Words(rest) == Words(s[n..])
    ensures Words(" " + rest) == Words(s)
  {
    WordsCons(' ', rest);
    assert s == s[..n] + s[n..];
    WordsDropSpace(s[..n], s[n..]);
  }

  /** A leading character copied in front of a text with the words of the
      rest keeps the words. */
  lemma HeadCharWords(s: string, rest: string)
    requires s != [] && Words(rest) == Words(s[1..]) && StartsWord(rest) == StartsWord(s[1..])
    ensures Words([s[0]] + rest) == Words(s)
  {
    assert s == [s[0]] + s[1..];
    WordsCongruence([s[0]], rest, s[1..]);
  }

  lemma SingleSpacedCons(c: char, t: string)
    requires SingleSpaced(t)
    requires IsSpace(c) ==> c == ' ' && (t == [] || !IsSpace(t[0]))
    ensures SingleSpaced([c] + t)
  {
    var u := [c] + t;
    forall i | 0 <= i < |u| - 1
      ensures !(IsSpace(u[i]) && IsSpace(u[i + 1]))
    {
      if i > 0 {
        assert u[i] == t[i - 1] && u[i + 1] == t[i];
      }
    }
  }

  /** Stripping keeps single spacing: the result is a slice of the input. */
  lemma StripSingleSpaced(s: string)
    requires SingleSpaced(s)
    ensures SingleSpaced(Strip(s))
  {
    var a := LeadingSpace(s);
    var t := s[a..];
    var b := |t| - TrailingSpace(t);
    var r := Strip(s);
    assert r == s[a..a + b];
    forall i | 0 <= i < |r|
      ensures r[i] == s[a + i]
    {
    }
  }

  /** A string with single plain spaces is a fixed point of CollapseSpace. */
  lemma {:induction false} CollapseSingleSpaced(s: string)
    requires SingleSpaced(s)
    ensures CollapseSpace(s) == s
    decreases |s|
  {
    if s != [] {
      assert SingleSpaced(s[1..]);
      CollapseSingleSpaced(s[1..]);
      if IsSpace(s[0]) {
        assert LeadingSpace(s) == 1;
        assert CollapseSpace(s) == " " + CollapseSpace(s[1..]);
      } else {
        assert CollapseSpace(s) == [s[0]] + CollapseSpace(s[1..]);
      }
      assert s == [s[0]] + s[1..];
    }
  }

  /** `s.replace(c, "")` (and `re.sub(c, "", s)` for a one-character pattern):
      every occurrence of c removed, everything else kept in order. */
  function RemoveChar(s: string, c: char): (r: string)
    ensures c !in r
    ensures |r| <= |s|
    ensures c !in s ==> r == s
    ensures IsSpace(c) ==> Squeeze(r) == Squeeze(s)
    ensures s != [] && s[0] != c ==> r != [] && r[0] == s[0]
    ensures s != [] && s[|s| - 1] != c ==> r != [] && r[|r| - 1] == s[|s| - 1]
  {
    if s == [] then []
    else
      var rest := RemoveChar(s[1..], c);
      assert Squeeze(s) == (if IsSpace(s[0]) then [] else [s[0]]) + Squeeze(s[1..]);
      if s[0] == c then rest
      else
        assert Squeeze([s[0]] + rest) == (if IsSpace(s[0]) then [] else [s[0]]) + Squeeze(rest) by {
          assert ([s[0]] + rest)[1..] == rest;
        }
        [s[0]] + rest
  }

  /** Every character of RemoveChar's result comes from its input: removal
      never introduces a character. */
  lemma {:induction false} RemoveCharSubset(s: string, c: char, d: char)
    requires d !in s
    ensures d !in RemoveChar(s, c)
  {
    if s != [] {
      RemoveCharSubset(s[1..], c, d);
    }
  }

  /** Python's `a or b` on strings: the empty string is falsy. */
  function Or(a: string, b: string): (r: string)
    ensures a != "" ==> r == a
    ensures a == "" ==> r == b
  {
    if a != "" then a else b
  }

  /** A prefix of at most n characters: Python's `s[:n]`. */
  function Prefix<T>(s: seq<T>, n: nat): (r: seq<T>)
    ensures |r| == if |s| <= n then |s| else n
    ensures r <= s
  {
    if |s| <= n then s else s[..n]
  }

  /** Python's `s.replace("-", "")`. */
  function RemoveDashes(s: string): (r: string)
    ensures '-' !in r
  {
    RemoveChar(s, '-')
  }

  predicate IsDigit(c: char) {
    '0' <= c <= '9'
  }

  predicate AllDigits(s: string) {
    forall i :: 0 <= i < |s| ==> IsDigit(s[i])
  }

  /** A digit string has no dash to remove. */
  lemma NoDashInDigits(s: string)
    requires AllDigits(s)
    ensures RemoveDashes(s) == s
  {
    assert forall i :: 0 <= i < |s| ==> s[i] != '-';
  }

  /** Removal works piecewise on a concatenation. */
  lemma RemoveCharAppend(a: string, b: string, c: char)
    ensures RemoveChar(a + b, c) == RemoveChar(a, c) + RemoveChar(b, c)
  {
    if a != [] {
      assert (a + b)[1..] == a[1..] + b;
      RemoveCharAppend(a[1..], b, c);
    } else {
      assert a + b == b;
    }
  }

  /** `"a-b-c".replace("-", "")` for three digit groups a, b, c: the groups
      run together. */
  lemma UndashedTriple(a: string, b: string, c: string)
    requires AllDigits(a) && AllDigits(b) && AllDigits(c)
    ensures RemoveDashes(a + "-" + b + "-" + c) == a + b + c
  {
    var x1 := a + "-";
    var x2 := x1 + b;
    var x3 := x2 + "-";
    NoDashInDigits(a);
    NoDashInDigits(b);
    NoDashInDigits(c);
    assert RemoveChar("-", '-') == [];
    RemoveCharAppend(a, "-", '-');
    assert RemoveChar(x1, '-') == a;
    RemoveCharAppend(x1, b, '-');
    assert RemoveChar(x2, '-') == a + b;
    RemoveCharAppend(x2, "-", '-');
    assert RemoveChar(x3, '-') == a + b;
    RemoveCharAppend(x3, c, '-');
  }

  // ---- deletion: the result of removing characters and keeping the rest

  /** a can be obtained from b by deleting characters (greedy matching from
      the front decides it). */
  predicate IsSubseq(a: string, b: string)
    decreases |b|
  {
    if a == [] then true
    else if b == [] then false
    else if a[0] == b[0] then IsSubseq(a[1..], b[1..])
    else IsSubseq(a, b[1..])
  }

  lemma {:induction false} SubseqRefl(s: string)
    ensures IsSubseq(s, s)
  {
    if s != [] {
      SubseqRefl(s[1..]);
    }
  }

  /** Dropping the first character of a keeps it a subsequence. */
  lemma {:induction false} SubseqDropHead(a: string, b: string)
    requires a != [] && IsSubseq(a, b)
    ensures IsSubseq(a[1..], b)
    decreases |b|, 1
  {
    if a[0] != b[0] {
      SubseqDropHead(a, b[1..]);
    }
    SubseqSkipOne(a[1..], b);
  }

  lemma {:induction false} SubseqSkipOne(a: string, b: string)
    requires b != [] && IsSubseq(a, b[1..])
    ensures IsSubseq(a, b)
    decreases |b|, 0
  {
    if a != [] && a[0] == b[0] {
      SubseqDropHead(a, b[1..]);
    }
  }

  /** One more character in front of b keeps a a subsequence. */
  lemma SubseqSkip(a: string, b: string, c: char)
    requires IsSubseq(a, b)
    ensures IsSubseq(a, [c] + b)
  {
    assert ([c] + b)[1..] == b;
    SubseqSkipOne(a, [c] + b);
  }

  lemma {:induction false} SubseqTrans(a: string, b: string, c: string)
    requires IsSubseq(a, b) && IsSubseq(b, c)
    ensures IsSubseq(a, c)
    decreases |c|
  {
    if a != [] {
      if b[0] == c[0] {
        if a[0] == b[0] {
          SubseqTrans(a[1..], b[1..], c[1..]);
        } else {
          SubseqTrans(a, b[1..], c[1..]);
          SubseqSkipOne(a, c);
        }
      } else {
        SubseqTrans(a, b, c[1..]);
        SubseqSkipOne(a, c);
      }
    }
  }

  /** A subsequence has no character its source lacks. */
  lemma {:induction false} SubseqMember(a: string, b: string, c: char)
    requires IsSubseq(a, b) && c !in b
    ensures c !in a
    decreases |b|
  {
    if a != [] {
      if a[0] == b[0] {
        SubseqMember(a[1..], b[1..], c);
      } else {
        SubseqMember(a, b[1..], c);
      }
    }
  }

  lemma {:induction false} SubseqSuffix(s: string, n: nat)
    requires n <= |s|
    ensures IsSubseq(s[n..], s)
  {
    if n == 0 {
      SubseqRefl(s);
    } else {
      SubseqSuffix(s[1..], n - 1);
      assert s[1..][n - 1..] == s[n..];
      SubseqSkipOne(s[n..], s);
    }
  }

  lemma {:induction false} SubseqPrefix(s: string, n: nat)
    requires n <= |s|
    ensures IsSubseq(s[..n], s)
  {
    if n == 0 {
    } else {
      SubseqPrefix(s[1..], n - 1);
      assert s[1..][..n - 1] == s[..n][1..];
    }
  }

  lemma StripSubseq(s: string)
    ensures IsSubseq(Strip(s), s)
  {
    var a := LeadingSpace(s);
    var t := s[a..];
    var b := |t| - TrailingSpace(t);
    SubseqPrefix(t, b);
    SubseqSuffix(s, a);
    SubseqTrans(t[..b], t, s);
  }

  // ---- positions in multi-line text, for `re.MULTILINE` patterns

  /** `^` under MULTILINE: the start of the text or just after a newline. */
  predicate LineStart(s: string, p: nat) {
    p == 0 || (0 < p <= |s| && s[p - 1] == '\n')
  }

  /** The length of the whitespace run starting at p (`\s*`, greedy). */
  function WsRun(s: string, p: nat): (n: nat)
    requires p <= |s|
    ensures p + n <= |s|
    ensures forall i :: p <= i < p + n ==> IsSpace(s[i])
    ensures p + n < |s| ==> !IsSpace(s[p + n])
    decreases |s| - p
  {
    if p < |s| && IsSpace(s[p]) then 1 + WsRun(s, p + 1) else 0
  }

  /** The end of the line that contains q: the next newline, or the end. */
  function LineEnd(s: string, q: nat): (e: nat)
    requires q <= |s|
    ensures q <= e <= |s|
    ensures forall i :: q <= i < e ==> s[i] != '\n'
    ensures e < |s| ==> s[e] == '\n'
    decreases |s| - q
  {
    if q == |s| || s[q] == '\n' then q else LineEnd(s, q + 1)
  }
}

=== FILE: wrappers.dfy ===
/** Optional values, for Python's `None` and for lookups that may fail. */
module Wrappers {

  datatype Option<+T> = None | Some(value: T) {

    /** The value, or `default` when there is none (Python's `x or default`
        for a value that is either missing or meaningful). */
    function GetOr(default: T): T {
      match this
      case Some(v) => v
      case None => default
    }
  }
}
